=== FILE: README.md ===
# Win32 / DirectDraw emulation core in Dafny

This project models four pieces of the jdosbox Win32 layer. The layer
services a Windows program's API calls against an emulated x86 machine whose
memory is a flat byte space:

- **Pixel codec** (`Pixel`). `getPitch` gives the DWORD-aligned row stride.
  `createImage` decodes a bottom-up bitmap in guest memory at 4/8 bits (with
  a palette), 16, 24 or 32 bits into a top-down, row-major host image.
  `writeImage` stores such an image back. `copy` dispatches on the
  destination depth, and `BGRtoRGB` swaps colour bytes.
- **Kernel state** (`WinSystem`). This covers the handle counter starting at
  0x2000, the object and name tables, the factories and `createDC`'s
  defaults, the screen mode and its lazily mapped frame buffer, and the
  cursor and its show count. It also covers the `internalCall` trampoline.
  The trampoline pushes parameters and a return stub, runs the guest, and
  puts EIP and ESP back whatever the guest did.
- **DirectDraw surface engine** (`SurfaceFlags`, `SurfaceDescription`,
  `DirectDrawSurface`, `SurfaceHandlers`). The source keeps a surface's
  flags, palette, pixel memory, back buffer, device context, image-cache
  handle and DDSURFACEDESC/DDSURFACEDESC2 in a COM object record in guest
  memory. The model keeps them as the fields of a `Surface` object (see
  "Left out").
  - `create` validates a request and builds a surface, recursing once for a
    back buffer.
  - lock/unlock, the image cache and the COM methods are modelled. The COM
    methods are Lock, Unlock, GetDC, ReleaseDC, GetSurfaceDesc, GetCaps,
    GetAttachedSurface, SetPalette and CleanUp.
- **RECT marshalling** (`WinRect`). Four dwords are read or written in
  left, top, right, bottom order.

How the source's effects are represented:

- Guest memory is a map from address to byte (`GuestMemory`), updated
  through a `Memory` object. A Java `int` stored by `setData` is the
  two's-complement dword (`JavaInt`).
- Services outside the core are recorded in order as calls on a `Host`
  (`HostServices`). These are video RAM mapping, heap and COM object
  allocation, AddRef/Release, kernel object open/close, the GUI cursor and
  screen size, and return-stub registration. Allocators hand out arbitrary
  fresh addresses above all earlier blocks.
- `DOSBOX_RunMachine` (`Machine`) records the state in which the guest was
  entered. It then leaves EIP, ESP and memory arbitrary. While it runs, the
  guest may call back into the window system (`GuestCallbacks`). It may then
  issue and drop handles, change the screen and the cursor, and make host
  calls; the table invariant holds and the host-call log only grows.
- `Win.panic`, `notImplemented`, a null dereference, a failed cast, an
  array overrun and a Java exception that nothing catches each stop the
  operation. Each is a `Failure` with its own `Fault`.
- A raster the image library refuses inside createImage's try blocks is not
  an error there: createImage returns a null image. The model gives it the
  `InvalidRaster` failure. getImage caches that null image, and copy draws
  nothing from it.
- An HRESULT left in EAX is a method's return value. Arguments popped from
  the guest stack are parameters.

In these places the model follows the code, whatever the intent:

- `create` writes the surface width, not the computed pitch, into the pitch
  field (`IDirectDrawSurface.java:226`).
- `GetDC` locks the surface but neither writes back nor drops the cached
  image (`:571`).
- A primary back buffer is built from a description with VISIBLE cleared,
  but its own `create` adds VISIBLE again (`:187`), as
  `SurfaceDescription.ChildCaps` shows.
- A byte-image destination in `writeImage` panics (`Pixel.java:119`).

## Model

| member | source | states |
|---|---|---|
| Pixel.GetPitch | src_win/jdos/win/utils/Pixel.java:10-12 | the pitch is a multiple of 4; for a non-negative width and depth it holds the row (`width * ((bpp + 7) / 8)`) and exceeds it by less than 4 |
| Pixel.Decode | src_win/jdos/win/utils/Pixel.java:14-110 | an empty palette, or a negative pixel count on the palette or 16-bit path, throws uncaught. Otherwise any depth but 4/8 with a palette or 16/24/32 panics, and a raster the image library refuses gives the null image: a size that is not positive, or a palette of more than 16 entries at 4 bits or more than 256 at 8 bits. Decoding succeeds exactly in the remaining cases: the image has the requested width and height and width*height pixels, and is a byte image exactly when bpp <= 8 |
| Pixel.DecodeBottomUp | src_win/jdos/win/utils/Pixel.java:29-98 | pixel (x, y) comes from stored row height-y-1. It is the byte at row+x with a palette, the word at row+2x at 16 bits, `b0 | b1<<8 | b2<<16` of the bytes at row+3x at 24 bits, and the dword at row+4x at 32 bits |
| Pixel.ReadSampleIsLittleEndian | src_win/jdos/win/utils/Pixel.java:32-96 | every sample createImage reads is the little-endian value of the bytes it covers |
| Pixel.ReadRows | src_win/jdos/win/utils/Pixel.java:27-61 | the row loop fills a fresh buffer with exactly the decoded pixels |
| Pixel.ReadRow | src_win/jdos/win/utils/Pixel.java:30-33 | the pixel loop fills buffer row y from stored row height-y-1 and leaves earlier rows alone |
| Pixel.CreateImage | src_win/jdos/win/utils/Pixel.java:14-110 | the outcome is the decoded image, the uncaught exception, the panic or the null image, as Decode defines them |
| Pixel.WriteImage | src_win/jdos/win/utils/Pixel.java:112-158 | a byte image panics and everything else succeeds; memory afterwards is the encoded image, which is unchanged memory when nothing is stored |
| Pixel.WriteRows | src_win/jdos/win/utils/Pixel.java:125-151 | the row loop writes every image row into its bottom-up stored row; a non-positive size writes nothing |
| Pixel.WriteRow | src_win/jdos/win/utils/Pixel.java:127-150 | the pixel loop stores one image row as n-byte little-endian samples |
| Pixel.ThreeByteStores | src_win/jdos/win/utils/Pixel.java:140-142 | the three byte stores of v, v>>8 and v>>16 store v's low three bytes little-endian |
| Pixel.EncodedFrame | src_win/jdos/win/utils/Pixel.java:121-151 | writeImage changes no byte below its lowest stored row or past the end of its highest one, even where rows overlap (a word image at 8 bits or fewer) |
| Pixel.EncodedByte | src_win/jdos/win/utils/Pixel.java:125-151 | writeImage changes only bytes inside the height stored rows of width*n bytes from dst; each such byte is the matching byte of the matching pixel |
| Pixel.SampleOfEncoded | src_win/jdos/win/utils/Pixel.java:121-151 | reading back a pixel writeImage stored at 16, 24 or 32 bits gives the pixel cut to its stored bytes |
| Pixel.DecodeAfterEncode | src_win/jdos/win/utils/Pixel.java:53-152 | createImage after writeImage returns the same image at 16 and 32 bits, and each pixel's low 24 bits at 24 bits |
| Pixel.EncodeAfterDecode | src_win/jdos/win/utils/Pixel.java:53-152 | writing back an image just read at 16, 24 or 32 bits leaves every byte of memory as it was |
| Pixel.Copy | src_win/jdos/win/utils/Pixel.java:159-186 | a source that panics or throws stops copy unchanged; a null source draws nothing, so a new 15-32-bit target is stored as zeros, and otherwise the drawn pixels are the parameter `drawn`. A destination depth outside {8,15,16,24,32} panics, a null 8-bit target is a null dereference, and a non-positive size throws at the new image. Otherwise the target's pixels are stored with writeImage's outcome |
| Pixel.CopyToEightBitsFails | src_win/jdos/win/utils/Pixel.java:163-165 | copying into an 8-bit destination never stores anything |
| Pixel.BGRtoRGB | src_win/jdos/win/utils/Pixel.java:188-190 | bytes 0 and 2 are swapped and bytes 1 and 3 are kept |
| Pixel.BGRtoRGBInvolution | src_win/jdos/win/utils/Pixel.java:188-190 | swapping twice gives back the colour |
| WinSystem.PaletteAt | src_win/jdos/win/system/WinSystem.java:327-331 | a palette is 256 entries, entry i being the dword at address+4i |
| WinSystem.ReadPalette | src_win/jdos/win/system/WinSystem.java:327-331 | the palette loop reads exactly those 256 entries |
| WinSystem.WinSystem.Start | src_win/jdos/win/system/WinSystem.java:51-84 | after start, handles 0x2000..0x2002 are the user, the "Desktop" class and the desktop window; the counter is 0x2003 and the screen is 640x480x32 |
| WinSystem.WinSystem.Create | src_win/jdos/win/system/WinSystem.java:278-417 | a factory returns the counter's value and increments it; the handle is new and above every issued handle, so handles increase strictly and are never reused; the table invariant is kept |
| WinSystem.WinSystem.GetObject | src_win/jdos/win/system/WinSystem.java:274-276 | the object under the handle, or none (not a failure) exactly when the handle is not in the table |
| WinSystem.WinSystem.GetNamedObject | src_win/jdos/win/system/WinSystem.java:270-272 | the object under the name, or none exactly when the name is not registered |
| WinSystem.WinSystem.CreateEvent | src_win/jdos/win/system/WinSystem.java:293-298 | a new event handle; it is registered in the name table exactly when named, and getNamedObject then returns it |
| WinSystem.WinSystem.CreateFileMapping | src_win/jdos/win/system/WinSystem.java:286-291 | a new file-mapping handle; it is registered in the name table exactly when named, and getNamedObject then returns it |
| WinSystem.WinSystem.CreateMutex | src_win/jdos/win/system/WinSystem.java:384-386 | a new mutex handle; the name table is left alone |
| WinSystem.WinSystem.CreateWinObject | src_win/jdos/win/system/WinSystem.java:316-318 | a new generic object holding the given data |
| WinSystem.WinSystem.ScreenPalette | src_win/jdos/win/system/WinSystem.java:324-332 | none while no screen palette is set, else its 256 entries |
| WinSystem.WinSystem.CreateDC | src_win/jdos/win/system/WinSystem.java:334-343 | a new DC over the given memory and size; the depth is the screen's and the palette the given one, else the screen's; a given DC overrides both |
| WinSystem.WinSystem.SetScreenSize | src_win/jdos/win/system/WinSystem.java:104-114 | an unchanged mode changes nothing; a new mode stores all three values, unmaps a mapped screen and zeroes its address |
| WinSystem.WinSystem.GetScreenAddress | src_win/jdos/win/system/WinSystem.java:86-90 | the screen is mapped once, with pitch*width bytes, and the same non-zero address is returned until the mode changes |
| WinSystem.WinSystem.SetCursor | src_win/jdos/win/system/WinSystem.java:116-133 | 0 or a cursor handle is selected and the previous one returned; 0 always hides the GUI cursor, and a cursor handle is passed to the GUI only while the show count is >= 0; any other handle changes nothing and gives 0 |
| WinSystem.WinSystem.ShowCursor | src_win/jdos/win/system/WinSystem.java:174-187 | the count moves by exactly one and is returned; reaching 0 reselects the cursor, reaching -1 hides it |
| WinSystem.WinSystem.InternalCall | src_win/jdos/win/system/WinSystem.java:248-268 | the stub is registered only while returnEip is 0, and its registration comes before any call the guest makes. The guest is entered at eip with the first paramCount parameters pushed last-first, then the stub on top. EIP and ESP are their old values afterwards, whatever the guest did. The guest's callbacks keep the table invariant, and every handle in the table below the old counter was already in it, so no handle is issued twice |
| WinSystem.WinSystem.GuestCallbacks | src_win/jdos/win/system/WinSystem.java:265 | whatever the guest does through the Win32 layer while it runs, the handle and name tables stay valid, the handle counter never decreases, no handle below the old counter that was free becomes bound, and host calls and allocations are only added |
| WinSystem.WinSystem.Call4 | src_win/jdos/win/system/WinSystem.java:242-244 | the guest sees the stub, then param1..param4, from ESP up; EIP and ESP are restored; the stub is registered once; the guest's callbacks keep the tables valid and bind no free handle below the old counter |
| WinSystem.WinSystem.Call2 | src_win/jdos/win/system/WinSystem.java:245-247 | the guest sees the stub, then param1 and param2, from ESP up; EIP and ESP are restored; the stub is registered once; the guest's callbacks keep the tables valid and bind no free handle below the old counter |
| WinSystem.PushParameters | src_win/jdos/win/system/WinSystem.java:253-261 | param4 down to param1 are pushed as paramCount selects, moving ESP down four bytes each |
| WinSystem.PushedLayout | src_win/jdos/win/system/WinSystem.java:253-262 | the pushed dwords read back in order above the new ESP; memory outside them is untouched |
| WinSystem.EntryStack | src_win/jdos/win/system/WinSystem.java:253-264 | on entry to the guest, dword i above ESP is frame element i: the return stub first, then param1 onwards |
| WinRect.WinRect.constructor | src_win/jdos/win/utils/WinRect.java:11-16 | left, top, right and bottom are the dwords at address+0, +4, +8 and +12 |
| WinRect.WinRect.Write | src_win/jdos/win/utils/WinRect.java:18-23 | the four dwords are stored in that order |
| WinRect.LoadStored | src_win/jdos/win/utils/WinRect.java:18-23 | byte j of the 16 bytes written is byte j%4 of field j/4, and every other byte is kept |
| WinRect.StoredFrame | src_win/jdos/win/utils/WinRect.java:19-22 | write changes only the 16 bytes from address |
| WinRect.ReadAfterWrite | src_win/jdos/win/utils/WinRect.java:11-23 | reading a rectangle where write stored it gives the four values written |
| WinRect.WriteAfterRead | src_win/jdos/win/utils/WinRect.java:11-23 | writing back a rectangle just read leaves memory as it was |
| SurfaceFlags.WithLocked | src_win/jdos/win/builtin/ddraw/IDirectDrawSurface.java:130-132 | lock's flag word has the locked bit set |
| SurfaceFlags.WithoutLocked | src_win/jdos/win/builtin/ddraw/IDirectDrawSurface.java:134-136 | unlock's flag word has the locked bit clear |
| SurfaceFlags.LockKeepsOtherBits | src_win/jdos/win/builtin/ddraw/IDirectDrawSurface.java:130-136 | lock and unlock change no bit but the locked one |
| SurfaceFlags.LockKeepsDesc2 | src_win/jdos/win/builtin/ddraw/IDirectDrawSurface.java:81-136 | lock and unlock keep isDesc2 |
| SurfaceFlags.LockKeepsCap2 | src_win/jdos/win/builtin/ddraw/IDirectDrawSurface.java:76-136 | lock and unlock keep isCap2 |
| SurfaceFlags.LockRoundTrip | src_win/jdos/win/builtin/ddraw/IDirectDrawSurface.java:130-136 | unlock undoes lock of an unlocked surface; lock and unlock are each idempotent |
| SurfaceDescription.DescSize | src_win/jdos/win/builtin/ddraw/IDirectDrawSurface.java:174 | the description size is that of DDSURFACEDESC or DDSURFACEDESC2 |
| SurfaceDescription.DescWords | src_win/jdos/win/builtin/ddraw/IDirectDrawSurface.java:174-175 | the copied dwords are the size over four, and they cover the caps |
| SurfaceDescription.Padded | src_win/jdos/win/builtin/ddraw/IDirectDrawSurface.java:173-175 | a fresh record starts with the copied dwords |
| SurfaceDescription.WithMasks | src_win/jdos/win/builtin/ddraw/IDirectDrawSurface.java:233-246 | the mask stores keep the size and flags fields |
| SurfaceDescription.Formatted | src_win/jdos/win/builtin/ddraw/IDirectDrawSurface.java:221-248 | the filled-in description has the given size and the CAPS/HEIGHT/WIDTH/PITCH/PIXELFORMAT flags |
| SurfaceDescription.FormattedFields | src_win/jdos/win/builtin/ddraw/IDirectDrawSurface.java:221-248 | height, width, pitch = width, pixel-format size, pixel-format flags and bit count are as written, with the depth's masks |
| SurfaceDescription.DescribedFields | src_win/jdos/win/builtin/ddraw/IDirectDrawSurface.java:221-266 | every field create writes reads back, including the caps and the back-buffer flag and count |
| SurfaceDescription.MaskValues | src_win/jdos/win/builtin/ddraw/IDirectDrawSurface.java:233-246 | 16 bits gives F800/07E0/001F; 24 and 32 bits give FF0000/00FF00/0000FF; 32 bits adds alpha FF000000 |
| SurfaceDescription.MasksFrame | src_win/jdos/win/builtin/ddraw/IDirectDrawSurface.java:233-246 | the mask stores touch only the mask dwords |
| SurfaceDescription.FinalCapsAdded | src_win/jdos/win/builtin/ddraw/IDirectDrawSurface.java:210-232 | the memory and depth adjustments only add caps bits |
| SurfaceDescription.Refused | src_win/jdos/win/builtin/ddraw/IDirectDrawSurface.java:183-265 | create refuses exactly these requests: neither primary nor offscreen; offscreen without width or height, or with a back-buffer count; a back buffer other than one for a COMPLEX surface |
| SurfaceDescription.PrimaryRules | src_win/jdos/win/builtin/ddraw/IDirectDrawSurface.java:183-226 | a primary surface has the device's size and the width as its pitch |
| SurfaceDescription.OffscreenRules | src_win/jdos/win/builtin/ddraw/IDirectDrawSurface.java:189-226 | an accepted offscreen surface asked for its width and height and gets them, with the width as pitch |
| SurfaceDescription.PrimaryCaps | src_win/jdos/win/builtin/ddraw/IDirectDrawSurface.java:183-188 | a primary surface keeps every asked-for cap and has VIDEOMEMORY, VISIBLE and LOCALVIDMEM |
| SurfaceDescription.OffscreenCaps | src_win/jdos/win/builtin/ddraw/IDirectDrawSurface.java:189-201 | an offscreen surface keeps every asked-for cap but VISIBLE, and is never VISIBLE |
| SurfaceDescription.CapsAdded | src_win/jdos/win/builtin/ddraw/IDirectDrawSurface.java:210-231 | video memory brings LOCALVIDMEM, and 8 bits brings PALETTE |
| SurfaceDescription.AddedBits | src_win/jdos/win/builtin/ddraw/IDirectDrawSurface.java:210-231 | the adjustments add LOCALVIDMEM and PALETTE as above, and never VISIBLE or COMPLEX |
| SurfaceDescription.PixelFormatRules | src_win/jdos/win/builtin/ddraw/IDirectDrawSurface.java:228-248 | the bit count is the device depth; the format is RGB, palette-indexed exactly at 8 bits; the masks follow the depth |
| SurfaceDescription.BackBufferRules | src_win/jdos/win/builtin/ddraw/IDirectDrawSurface.java:250-261 | a surface with a back buffer has DDSD_BACKBUFFERCOUNT and a count of 1 |
| SurfaceDescription.BackBufferSource | src_win/jdos/win/builtin/ddraw/IDirectDrawSurface.java:256-257 | the back buffer is created from as many dwords as the parent's |
| SurfaceDescription.ChildSourceFields | src_win/jdos/win/builtin/ddraw/IDirectDrawSurface.java:256-257 | the child's description has no back-buffer flag, and its caps are the parent's without VISIBLE and COMPLEX |
| SurfaceDescription.ChildRules | src_win/jdos/win/builtin/ddraw/IDirectDrawSurface.java:250-265 | only a primary surface gets a back buffer; its child is primary, neither VISIBLE nor COMPLEX, has no back-buffer flag, and is accepted without a back buffer, so the recursion stops at depth 1 |
| SurfaceDescription.ChildCaps | src_win/jdos/win/builtin/ddraw/IDirectDrawSurface.java:183-257 | the child's own create makes it VISIBLE again and leaves it without COMPLEX |
| DirectDrawSurface.PaletteOf | src_win/jdos/win/builtin/ddraw/IDirectDrawSurface.java:92-99 | with no palette object there is no palette; otherwise there are 256 colour dwords read from the palette object |
| DirectDrawSurface.CachedImage | src_win/jdos/win/builtin/ddraw/IDirectDrawSurface.java:107-110 | a cached handle gives its object's data; a handle naming no object faults |
| DirectDrawSurface.LockedView | src_win/jdos/win/builtin/ddraw/IDirectDrawSurface.java:702-704 | after Lock's copy the caller reads the description with lpSurface set to the pixel address; memory outside it is unchanged |
| DirectDrawSurface.Surface.constructor | src_win/jdos/win/builtin/ddraw/IDirectDrawSurface.java:173-175 | a fresh record holds the copied description, and every other field is zero |
| DirectDrawSurface.Surface.Describe | src_win/jdos/win/builtin/ddraw/IDirectDrawSurface.java:221-248 | the field-by-field stores leave the formatted description |
| DirectDrawSurface.Surface.Build | src_win/jdos/win/builtin/ddraw/IDirectDrawSurface.java:167-268 | create succeeds exactly for accepted requests and panics otherwise. The record holds the built description; memory is zeroed and the record and pixels are allocated in order. A back buffer exists exactly when requested and is a fresh, distinct, recorded child |
| DirectDrawSurface.Surface.Create | src_win/jdos/win/builtin/ddraw/IDirectDrawSurface.java:167-268 | the same, for the description read from guest memory at pDesc |
| DirectDrawSurface.Surface.CreateDefault | src_win/jdos/win/builtin/ddraw/IDirectDrawSurface.java:138-140 | create(pDirectDraw, pDesc) reads a plain 108-byte DDSURFACEDESC |
| DirectDrawSurface.Surface.BuildSingle | src_win/jdos/win/builtin/ddraw/IDirectDrawSurface.java:173-266 | a surface without a back buffer: the record, its pixels and the built description |
| DirectDrawSurface.Surface.BuildWithBackBuffer | src_win/jdos/win/builtin/ddraw/IDirectDrawSurface.java:173-266 | a surface with one back buffer created from the child description and linked by pointer |
| DirectDrawSurface.Surface.AttachBackBuffer | src_win/jdos/win/builtin/ddraw/IDirectDrawSurface.java:250-265 | the caps are hidden, the child is created, and the flag, count and caps are set |
| DirectDrawSurface.Surface.LinkBackBuffer | src_win/jdos/win/builtin/ddraw/IDirectDrawSurface.java:258-266 | the child's pointer is stored, and the description gains the back-buffer flag, a count of 1 and the caps |
| DirectDrawSurface.Surface.Start | src_win/jdos/win/builtin/ddraw/IDirectDrawSurface.java:173-248 | allocate, copy, check the kind and fill in: the formatted description and the final caps |
| DirectDrawSurface.Surface.Fill | src_win/jdos/win/builtin/ddraw/IDirectDrawSurface.java:206-248 | the pixels are allocated and zeroed, the description is formatted, and the caps are the final caps |
| DirectDrawSurface.Surface.Kind | src_win/jdos/win/builtin/ddraw/IDirectDrawSurface.java:181-204 | the kind check gives the primary or offscreen size and caps, or panics |
| DirectDrawSurface.Surface.Pixels | src_win/jdos/win/builtin/ddraw/IDirectDrawSurface.java:206-220 | primary video-memory surfaces map video RAM and the rest use the heap; the block is zeroed; video memory adds LOCALVIDMEM |
| DirectDrawSurface.Surface.MarkLocked | src_win/jdos/win/builtin/ddraw/IDirectDrawSurface.java:130-132 | lock sets the locked bit in the record |
| DirectDrawSurface.Surface.MarkUnlocked | src_win/jdos/win/builtin/ddraw/IDirectDrawSurface.java:134-136 | unlock clears the locked bit in the record |
| DirectDrawSurface.Surface.ReadPaletteOf | src_win/jdos/win/builtin/ddraw/IDirectDrawSurface.java:92-99 | the palette loop gives the attached palette, or none |
| DirectDrawSurface.Surface.GetImage | src_win/jdos/win/builtin/ddraw/IDirectDrawSurface.java:86-112 | the cached image if any; otherwise none unless create is set. Then a panic or uncaught exception in createImage stops it with nothing cached; otherwise the decoded image (none when null) is cached in a new object only while unlocked |
| DirectDrawSurface.Surface.ClearImage | src_win/jdos/win/builtin/ddraw/IDirectDrawSurface.java:114-121 | with a cache, the slot becomes 0 and the object is closed once; a handle naming no object faults with nothing closed; with none, nothing happens |
| DirectDrawSurface.Surface.SaveImage | src_win/jdos/win/builtin/ddraw/IDirectDrawSurface.java:123-126 | writeImage's outcome at the surface's depth and size: a byte image panics and an int image at a depth other than 24 or 32 bits stores nothing, whatever their size; any other image is stored over the pixels, or runs off its end when it has fewer than width*height pixels |
| DirectDrawSurface.Surface.FlushImage | src_win/jdos/win/builtin/ddraw/IDirectDrawSurface.java:706-709 | a cached image is written back with SaveImage's outcome, then dropped and closed; a failed write-back keeps the cache; with no cache nothing changes, and a dangling handle faults |
| DirectDrawSurface.SnapshotFits | src_win/jdos/win/builtin/ddraw/IDirectDrawSurface.java:100-125 | the image decoded from a surface fits the size saveImage writes |
| DirectDrawSurface.SaveSnapshotSucceeds | src_win/jdos/win/builtin/ddraw/IDirectDrawSurface.java:100-125 | saving the image just decoded at 16, 24 or 32 bits succeeds |
| SurfaceHandlers.CapsWords | src_win/jdos/win/builtin/ddraw/IDirectDrawSurface.java:506-510 | a DDSCAPS2 is four dwords and a DDSCAPS is one |
| SurfaceHandlers.DCObject | src_win/jdos/win/builtin/ddraw/IDirectDrawSurface.java:726-727 | a handle's object casts to a DC exactly when it is one; otherwise it faults as a null or a wrong class |
| SurfaceHandlers.ReleaseCalls | src_win/jdos/win/builtin/ddraw/IDirectDrawSurface.java:148-155 | the palette and the back buffer are each released exactly when set |
| SurfaceHandlers.CleanUp | src_win/jdos/win/builtin/ddraw/IDirectDrawSurface.java:142-162 | release the palette and back buffer, close the DC, then clear the image; each is released once |
| SurfaceHandlers.ReleaseReferences | src_win/jdos/win/builtin/ddraw/IDirectDrawSurface.java:148-155 | the Release calls are made in that order |
| SurfaceHandlers.GetAttachedSurface | src_win/jdos/win/builtin/ddraw/IDirectDrawSurface.java:461-481 | a null pointer gives E_POINTER; DDSCAPS_BACKBUFFER gives S_OK with the back buffer stored; any other request panics |
| SurfaceHandlers.GetCaps | src_win/jdos/win/builtin/ddraw/IDirectDrawSurface.java:496-515 | a null pointer gives E_POINTER; otherwise the one or four caps dwords are copied and read back |
| SurfaceHandlers.WriteCapsDword | src_win/jdos/win/builtin/ddraw/IDirectDrawSurface.java:506-510 | the caps dwords are written one after the other |
| SurfaceHandlers.GetDC | src_win/jdos/win/builtin/ddraw/IDirectDrawSurface.java:543-575 | a null pointer gives DDERR_INVALIDPARAMS. Otherwise the DC is created on first use or opened again, its handle is stored and the surface is locked; the image cache is untouched |
| SurfaceHandlers.ReleaseDC | src_win/jdos/win/builtin/ddraw/IDirectDrawSurface.java:716-732 | a handle other than the surface's DC gives DDERR_INVALIDPARAMS with the flags unchanged; the surface's own DC is closed and the surface unlocked |
| SurfaceHandlers.GetSurfaceDesc | src_win/jdos/win/builtin/ddraw/IDirectDrawSurface.java:627-645 | a null pointer or a size mismatch gives DDERR_INVALIDPARAMS and changes nothing; otherwise exactly the stored size is copied and reads back |
| SurfaceHandlers.CopyDescription | src_win/jdos/win/builtin/ddraw/IDirectDrawSurface.java:702-704 | the description is copied out with lpSurface set to the pixel address |
| SurfaceHandlers.Lock | src_win/jdos/win/builtin/ddraw/IDirectDrawSurface.java:672-713 | unsupported flags stop the operation and a null description gives E_POINTER, neither changing anything. Otherwise the description is copied out with the pixel address, any cache is written back and cleared, and the surface is locked |
| SurfaceHandlers.SetPalette | src_win/jdos/win/builtin/ddraw/IDirectDrawSurface.java:784-800 | a null palette gives E_POINTER; otherwise it is AddRef'd and attached |
| SurfaceHandlers.Unlock | src_win/jdos/win/builtin/ddraw/IDirectDrawSurface.java:803-813 | the locked bit is cleared and S_OK is returned |

## Left out

- AWT rendering is not modelled. Graphics.drawImage in copy, BltFast and Flip becomes the parameter `drawn` of `Pixel.Copy`, holding the pixels the image library draws from a real source image.
- Java colour models and sample models are not modelled. An image is its buffer's element kind and its pixel values.
- The palette's colour table does not reach the decoded image, which keeps the palette indices as its pixels.
- The x86 emulator is not modelled. DOSBOX_RunMachine is an arbitrary change of EIP, ESP and memory, with a record of the state the guest was entered in.
- WinSystem.WinSystem.GuestCallbacks: what the guest's calls into the Win32 layer do is arbitrary apart from the table invariant, the counter never decreasing and the host-call log only growing. Objects outside the window system, such as surfaces, are not changed by the guest in the model. The callbacks leave returnEip alone: only internalCall sets it, and only while it is 0, which it no longer is once the guest runs.
- CPU_Pop32 argument marshalling and EAX result codes become parameters and return values.
- Vtable construction and callback registration in create are not modelled. Nor are the `notImplemented` COM methods and the rest of the COM surface: AddAttachedSurface, Blt, BltBatch, BltFast, Flip, overlays, clippers, colour keys, GetPalette and so on.
- VideoMemory, the process heap and IUnknown allocation are modelled only as providers of fresh non-zero addresses, recorded as calls.
- IUnknown's reference counting is recorded as AddRef/Release calls only.
- WinObject.open/close are recorded as calls only; the object table is not changed by them.
- removeObject is not modelled. It passes the object itself as the key to two tables keyed by handle and by name.
- WinSystem.start's kernel memory, paging, interrupts, timer and standard files are not modelled. The three standard-file objects are not in the model's handle table.
- Mouse hit-testing (mouse, findWindowFromPoint) is not modelled.
- getTickCount and writeSystemTime read the wall clock and are not modelled.
- createProcess runs the process loader and is not modelled.
- A factory's class-specific constructor arguments are not kept, except a DC's state and an object's name.
- `Win.panic` and `notImplemented` halt the emulator, so every refused request ends the operation with a Failure.
- DirectDrawSurface.Surface.Build: the kind and back-buffer checks run before the record is allocated. The source allocates the record and copies the description first, and only then panics, so the model omits the allocation call a refused request makes before halting.
- DirectDrawSurface.Surface.SaveImage, DirectDrawSurface.Surface.FlushImage, SurfaceHandlers.Lock: a word image, or an int image at 24 or 32 bits, with fewer pixels than the surface's width*height makes writeImage throw part-way through. The model stops before writing, so it does not describe the rows already written. A byte image and an int image at any other depth are not affected: writeImage never reads their pixels.
- SurfaceHandlers.Lock: the four unsupported flags are tested together. The source reports each one, but the first already halts.
- DirectDrawSurface.PaletteOf: IDirectDrawPalette is not part of this model, so the offset of its colour table within the palette object is left unspecified (`PaletteColorTable`).
- The record's own flag word (FLAGS_CAPS2, FLAGS_DESC2) is never set by create, so it starts at 0; only lock and unlock change it.
- DDSurfaceDesc is not part of this model. SIZE and SIZE2 are taken as the DirectDraw sizes of 108 and 124 bytes.
- IDirectDraw's width, height and depth are a `Device` parameter.
- getScreenAddress maps pitch*width bytes, not pitch*height, and the model keeps that.
- Pixel.GetPitch, Pixel.Decode, Pixel.Encoded, Pixel.RowAddress, Machine.Cpu.Push32: Java's 32-bit wrap-around of int products, row addresses, pitches and ESP is not modelled. Only `Amount` and `ScreenBytes` wrap through `JavaInt.Int32`; results of the others are exact integers, so inputs whose Java arithmetic leaves the 32-bit range lie outside the model. An example is getPitch of width 0x20000000 at 32 bits, which Java computes as a negative number.
- DirectDrawSurface.Surface.Build, DirectDrawSurface.Surface.Start, DirectDrawSurface.Surface.BuildSingle, DirectDrawSurface.Surface.BuildWithBackBuffer, SurfaceHandlers.GetCaps, SurfaceHandlers.GetSurfaceDesc, SurfaceHandlers.Lock: the surface record is a set of object fields, not bytes of guest memory at the COM object pointer. create's setData stores into the record therefore do not appear in the memory these members describe, which shows only the zeroed pixels. Guest writes into the record are not seen by GetCaps, GetSurfaceDesc or Lock. The model does not check that the allocated record is large enough for the description at its offset; the allocation call records only the size asked for.

=== FILE: arithmetic.dfy ===
/** Facts about integer multiplication and division that the row arithmetic of bitmaps relies on. */
module Arithmetic {

  lemma MulMono(d: int, a: int, b: int)
    requires d >= 0 && a <= b
    ensures d * a <= d * b
  {
  }

  /** Quotient and remainder are determined by any decomposition n == d * q + r with 0 <= r < d. */
  lemma DivModUnique(n: int, d: int, q: int, r: int)
    requires d > 0 && 0 <= r < d && n == d * q + r
    ensures n / d == q && n % d == r
  {
    var q', r' := n / d, n % d;
    assert n == d * q' + r';
    if q' > q {
      assert d * q' >= d * (q + 1) by { MulMono(d, q + 1, q'); }
      assert false;
    } else if q' < q {
      assert d * q >= d * (q' + 1) by { MulMono(d, q' + 1, q); }
      assert false;
    }
  }

  /** Element (x, y) of a row-major width-by-height grid has an index inside the grid. */
  lemma GridIndex(width: int, height: int, x: int, y: int)
    requires 0 <= x < width && 0 <= y < height
    ensures 0 <= y * width + x < width * height
    ensures (y * width + x) / width == y && (y * width + x) % width == x
  {
    assert y * width + x < (y + 1) * width;
    MulMono(width, y + 1, height);
    DivModUnique(y * width + x, width, y, x);
  }
}

=== FILE: guest_memory.dfy ===
/**
 * The emulated machine's memory: byte-addressed, little-endian, as the
 * Memory.mem_read* / mem_write* / mem_zero / mem_memcpy helpers see it.
 */
module GuestMemory {

  /** Each address holds one byte; an address never written reads as 0. */
  type Bytes = map<int, bv8>

  function Load(m: Bytes, a: int): bv8
  {
    if a in m then m[a] else 0
  }

  /** Byte j (0 = least significant) of a 32-bit value. */
  function ByteOf(v: bv32, j: nat): bv8
    requires j < 4
  {
    match j
    case 0 => (v & 0xFF) as bv8
    case 1 => ((v >> 8) & 0xFF) as bv8
    case 2 => ((v >> 16) & 0xFF) as bv8
    case _ => (v >> 24) as bv8
  }

  /** The n low-order bytes of v, least significant first. */
  function LittleEndian(v: bv32, n: nat): (r: seq<bv8>)
    requires n <= 4
    ensures |r| == n
    ensures forall j :: 0 <= j < n ==> r[j] == ByteOf(v, j)
  {
    [ByteOf(v, 0), ByteOf(v, 1), ByteOf(v, 2), ByteOf(v, 3)][..n]
  }

  function Compose(b0: bv8, b1: bv8, b2: bv8, b3: bv8): bv32
  {
    b0 as bv32 | (b1 as bv32 << 8) | (b2 as bv32 << 16) | (b3 as bv32 << 24)
  }

  /** The value whose low-order bytes are bs, least significant first; missing bytes are 0. */
  function FromLittleEndian(bs: seq<bv8>): bv32
    requires |bs| <= 4
  {
    Compose(if |bs| > 0 then bs[0] else 0, if |bs| > 1 then bs[1] else 0,
            if |bs| > 2 then bs[2] else 0, if |bs| > 3 then bs[3] else 0)
  }

  /** The bits an n-byte store keeps. */
  function Mask(n: nat): bv32
    requires n <= 4
  {
    match n
    case 0 => 0
    case 1 => 0xFF
    case 2 => 0xFFFF
    case 3 => 0xFF_FFFF
    case _ => 0xFFFF_FFFF
  }

  lemma ComposeOfBytes(v: bv32)
    ensures Compose(ByteOf(v, 0), ByteOf(v, 1), ByteOf(v, 2), ByteOf(v, 3)) == v
  {
  }

  lemma ComposeOfLowBytes(v: bv32)
    ensures Compose(ByteOf(v, 0), ByteOf(v, 1), ByteOf(v, 2), 0) == v & 0xFF_FFFF
    ensures Compose(ByteOf(v, 0), ByteOf(v, 1), 0, 0) == v & 0xFFFF
    ensures Compose(ByteOf(v, 0), 0, 0, 0) == v & 0xFF
  {
  }

  lemma RoundTrip4(v: bv32, n: nat)
    requires n == 4
    ensures FromLittleEndian(LittleEndian(v, n)) == v & Mask(n)
  {
    var bs := LittleEndian(v, 4);
    assert FromLittleEndian(bs) == Compose(ByteOf(v, 0), ByteOf(v, 1), ByteOf(v, 2), ByteOf(v, 3));
    ComposeOfBytes(v);
    assert Mask(4) == 0xFFFF_FFFF;
  }

  lemma RoundTrip3(v: bv32, n: nat)
    requires n == 3
    ensures FromLittleEndian(LittleEndian(v, n)) == v & Mask(n)
  {
    var bs := LittleEndian(v, 3);
    assert FromLittleEndian(bs) == Compose(ByteOf(v, 0), ByteOf(v, 1), ByteOf(v, 2), 0);
    ComposeOfLowBytes(v);
  }

  lemma RoundTrip2(v: bv32, n: nat)
    requires n == 2
    ensures FromLittleEndian(LittleEndian(v, n)) == v & Mask(n)
  {
    var bs := LittleEndian(v, 2);
    assert FromLittleEndian(bs) == Compose(ByteOf(v, 0), ByteOf(v, 1), 0, 0);
    ComposeOfLowBytes(v);
  }

  lemma RoundTrip1(v: bv32, n: nat)
    requires n == 1
    ensures FromLittleEndian(LittleEndian(v, n)) == v & Mask(n)
  {
    var bs := LittleEndian(v, 1);
    assert FromLittleEndian(bs) == Compose(ByteOf(v, 0), 0, 0, 0);
    ComposeOfLowBytes(v);
  }

  /** Reading back the n bytes of a store gives the stored value cut to n bytes. */
  lemma FromLittleEndianOfLittleEndian(v: bv32, n: nat)
    requires n <= 4
    ensures FromLittleEndian(LittleEndian(v, n)) == v & Mask(n)
  {
    if n == 4 {
      RoundTrip4(v, n);
    } else if n == 3 {
      RoundTrip3(v, n);
    } else if n == 2 {
      RoundTrip2(v, n);
    } else if n == 1 {
      RoundTrip1(v, n);
    } else {
      assert LittleEndian(v, 0) == [];
    }
  }

  /** Splitting a composed value into its bytes gives back the bytes. */
  lemma LittleEndianOfFromLittleEndian(bs: seq<bv8>)
    requires |bs| <= 4
    ensures LittleEndian(FromLittleEndian(bs), |bs|) == bs
  {
  }

  /** The n bytes starting at address a. */
  function LoadBytes(m: Bytes, a: int, n: nat): (r: seq<bv8>)
    ensures |r| == n
  {
    seq(n, j => Load(m, a + j))
  }

  /** mem_readb: the byte at a, zero-extended. */
  function ReadB(m: Bytes, a: int): bv32
  {
    FromLittleEndian(LoadBytes(m, a, 1))
  }

  /** mem_readw: the little-endian word at a, zero-extended. */
  function ReadW(m: Bytes, a: int): bv32
  {
    FromLittleEndian(LoadBytes(m, a, 2))
  }

  /** mem_readd: the little-endian dword at a. */
  function ReadD(m: Bytes, a: int): bv32
  {
    FromLittleEndian(LoadBytes(m, a, 4))
  }

  /** bs written from address a upwards. */
  function StoreBytes(m: Bytes, a: int, bs: seq<bv8>): Bytes
    decreases |bs|
  {
    if bs == [] then m else StoreBytes(m[a := bs[0]], a + 1, bs[1..])
  }

  /** mem_writeb: the low byte of v. */
  function StoreB(m: Bytes, a: int, v: bv32): Bytes
  {
    StoreBytes(m, a, LittleEndian(v, 1))
  }

  /** mem_writew: the low word of v, little-endian. */
  function StoreW(m: Bytes, a: int, v: bv32): Bytes
  {
    StoreBytes(m, a, LittleEndian(v, 2))
  }

  /** mem_writed: v, little-endian. */
  function StoreD(m: Bytes, a: int, v: bv32): Bytes
  {
    StoreBytes(m, a, LittleEndian(v, 4))
  }

  /** mem_zero: the n bytes from a read as 0 afterwards, nothing else changes. */
  function Zeroed(m: Bytes, a: int, n: int): (r: Bytes)
    ensures forall x :: Load(r, x) == if a <= x < a + n then 0 else Load(m, x)
  {
    map k | k in m && !(a <= k < a + n) :: m[k]
  }

  /** A store changes exactly the addresses it covers. */
  lemma {:induction false} LoadAfterStoreBytes(m: Bytes, a: int, bs: seq<bv8>, x: int)
    ensures Load(StoreBytes(m, a, bs), x) == if a <= x < a + |bs| then bs[x - a] else Load(m, x)
    decreases |bs|
  {
    if bs != [] {
      LoadAfterStoreBytes(m[a := bs[0]], a + 1, bs[1..], x);
    }
  }

  lemma LoadBytesAfterStoreBytes(m: Bytes, a: int, bs: seq<bv8>)
    ensures LoadBytes(StoreBytes(m, a, bs), a, |bs|) == bs
  {
    forall j | 0 <= j < |bs|
      ensures LoadBytes(StoreBytes(m, a, bs), a, |bs|)[j] == bs[j]
    {
      LoadAfterStoreBytes(m, a, bs, a + j);
    }
  }

  /** Loading n bytes that a store does not touch sees the old contents. */
  lemma LoadBytesBesideStoreBytes(m: Bytes, a: int, bs: seq<bv8>, b: int, n: nat)
    requires b + n <= a || a + |bs| <= b
    ensures LoadBytes(StoreBytes(m, a, bs), b, n) == LoadBytes(m, b, n)
  {
    forall j | 0 <= j < n
      ensures LoadBytes(StoreBytes(m, a, bs), b, n)[j] == LoadBytes(m, b, n)[j]
    {
      LoadAfterStoreBytes(m, a, bs, b + j);
    }
  }

  /** A dword store changes exactly its four bytes, to the bytes of the value. */
  lemma LoadAfterStoreD(m: Bytes, b: int, v: bv32, a: int)
    ensures Load(StoreD(m, b, v), a) == if b <= a < b + 4 then ByteOf(v, a - b) else Load(m, a)
  {
    LoadAfterStoreBytes(m, b, LittleEndian(v, 4), a);
  }

  /** Byte j of the dword read at b is the byte stored at b + j. */
  lemma ByteOfReadD(m: Bytes, b: int, j: int)
    requires 0 <= j < 4
    ensures ByteOf(ReadD(m, b), j) == Load(m, b + j)
  {
    var bs := LoadBytes(m, b, 4);
    LittleEndianOfFromLittleEndian(bs);
    assert LittleEndian(FromLittleEndian(bs), 4)[j] == bs[j];
  }

  /** mem_readd after mem_writed at the same address returns the value written. */
  lemma ReadDAfterStoreD(m: Bytes, a: int, v: bv32)
    ensures ReadD(StoreD(m, a, v), a) == v
  {
    LoadBytesAfterStoreBytes(m, a, LittleEndian(v, 4));
    FromLittleEndianOfLittleEndian(v, 4);
  }

  /** mem_readw after mem_writew returns the low word of the value written. */
  lemma ReadWAfterStoreW(m: Bytes, a: int, v: bv32)
    ensures ReadW(StoreW(m, a, v), a) == v & 0xFFFF
  {
    LoadBytesAfterStoreBytes(m, a, LittleEndian(v, 2));
    FromLittleEndianOfLittleEndian(v, 2);
  }

  /** A dword read that does not overlap a dword store is unaffected by it. */
  lemma ReadDBesideStoreD(m: Bytes, a: int, v: bv32, b: int)
    requires b + 4 <= a || a + 4 <= b
    ensures ReadD(StoreD(m, a, v), b) == ReadD(m, b)
  {
    LoadBytesBesideStoreBytes(m, a, LittleEndian(v, 4), b, 4);
  }

  /** The bytes of a run of dwords, each little-endian, in order: what mem_memcpy moves for a dword record. */
  function DwordBytes(ws: seq<bv32>): (r: seq<bv8>)
    ensures |r| == 4 * |ws|
  {
    if ws == [] then [] else LittleEndian(ws[0], 4) + DwordBytes(ws[1..])
  }

  /** The n dwords stored from address a on. */
  function DwordsAt(m: Bytes, a: int, n: nat): (r: seq<bv32>)
    ensures |r| == n
    ensures forall i :: 0 <= i < n ==> r[i] == ReadD(m, a + 4 * i)
  {
    seq(n, i => ReadD(m, a + 4 * i))
  }

  /** Byte 4 * i + j of a dword run is byte j of dword i. */
  lemma {:induction false} DwordBytesAt(ws: seq<bv32>, i: int, j: int)
    requires 0 <= i < |ws| && 0 <= j < 4
    ensures DwordBytes(ws)[4 * i + j] == ByteOf(ws[i], j)
    decreases |ws|
  {
    if i > 0 {
      DwordBytesAt(ws[1..], i - 1, j);
    }
  }

  /** Appending a dword appends its four bytes. */
  lemma {:induction false} DwordBytesSnoc(ws: seq<bv32>, w: bv32)
    ensures DwordBytes(ws + [w]) == DwordBytes(ws) + LittleEndian(w, 4)
    decreases |ws|
  {
    if ws == [] {
      assert DwordBytes([w]) == LittleEndian(w, 4) + DwordBytes([]);
    } else {
      assert (ws + [w])[1..] == ws[1..] + [w];
      DwordBytesSnoc(ws[1..], w);
    }
  }

  /** Storing two runs one after the other is storing their concatenation. */
  lemma {:induction false} StoreBytesAppend(m: Bytes, a: int, xs: seq<bv8>, ys: seq<bv8>)
    ensures StoreBytes(m, a, xs + ys) == StoreBytes(StoreBytes(m, a, xs), a + |xs|, ys)
    decreases |xs|
  {
    if xs == [] {
      assert xs + ys == ys;
    } else {
      assert (xs + ys)[0] == xs[0] && (xs + ys)[1..] == xs[1..] + ys;
      StoreBytesAppend(m[a := xs[0]], a + 1, xs[1..], ys);
    }
  }

  /** Writing one more dword after a stored run extends the run. */
  lemma StoreDwordsStep(m: Bytes, a: int, ws: seq<bv32>, w: bv32)
    ensures StoreBytes(m, a, DwordBytes(ws + [w])) == StoreD(StoreBytes(m, a, DwordBytes(ws)), a + 4 * |ws|, w)
  {
    DwordBytesSnoc(ws, w);
    StoreBytesAppend(m, a, DwordBytes(ws), LittleEndian(w, 4));
  }

  /** Dword i of a stored run reads back as the dword stored. */
  lemma DwordAfterStore(m: Bytes, a: int, ws: seq<bv32>, i: int)
    requires 0 <= i < |ws|
    ensures ReadD(StoreBytes(m, a, DwordBytes(ws)), a + 4 * i) == ws[i]
  {
    var stored := StoreBytes(m, a, DwordBytes(ws));
    forall j | 0 <= j < 4
      ensures LoadBytes(stored, a + 4 * i, 4)[j] == LittleEndian(ws[i], 4)[j]
    {
      LoadAfterStoreBytes(m, a, DwordBytes(ws), a + 4 * i + j);
      DwordBytesAt(ws, i, j);
    }
    assert LoadBytes(stored, a + 4 * i, 4) == LittleEndian(ws[i], 4);
    FromLittleEndianOfLittleEndian(ws[i], 4);
  }

  /**
   * Copying a run of dwords to a and reading as many back from a gives the
   * run; every byte outside the copy is kept.
   */
  lemma DwordsRoundTrip(m: Bytes, a: int, ws: seq<bv32>)
    ensures DwordsAt(StoreBytes(m, a, DwordBytes(ws)), a, |ws|) == ws
    ensures forall x :: x < a || a + 4 * |ws| <= x ==> Load(StoreBytes(m, a, DwordBytes(ws)), x) == Load(m, x)
  {
    forall i | 0 <= i < |ws|
      ensures DwordsAt(StoreBytes(m, a, DwordBytes(ws)), a, |ws|)[i] == ws[i]
    {
      DwordAfterStore(m, a, ws, i);
    }
    forall x | x < a || a + 4 * |ws| <= x
      ensures Load(StoreBytes(m, a, DwordBytes(ws)), x) == Load(m, x)
    {
      LoadAfterStoreBytes(m, a, DwordBytes(ws), x);
    }
  }

  /**
   * Copying a run of dwords and then overwriting its dword k reads back as
   * the run with entry k replaced; bytes outside the run are kept.
   */
  lemma PatchedDwordsRoundTrip(m: Bytes, a: int, ws: seq<bv32>, k: int, v: bv32)
    requires 0 <= k < |ws|
    ensures DwordsAt(StoreD(StoreBytes(m, a, DwordBytes(ws)), a + 4 * k, v), a, |ws|) == ws[k := v]
    ensures forall x :: x < a || a + 4 * |ws| <= x ==> Load(StoreD(StoreBytes(m, a, DwordBytes(ws)), a + 4 * k, v), x) == Load(m, x)
  {
    var copied := StoreBytes(m, a, DwordBytes(ws));
    var after := StoreD(copied, a + 4 * k, v);
    DwordsRoundTrip(m, a, ws);
    forall i | 0 <= i < |ws|
      ensures DwordsAt(after, a, |ws|)[i] == ws[k := v][i]
    {
      if i == k {
        ReadDAfterStoreD(copied, a + 4 * k, v);
      } else {
        ReadDBesideStoreD(copied, a + 4 * k, v, a + 4 * i);
        assert DwordsAt(copied, a, |ws|)[i] == ws[i];
      }
    }
    forall x | x < a || a + 4 * |ws| <= x
      ensures Load(after, x) == Load(m, x)
    {
      LoadAfterStoreD(copied, a + 4 * k, v, x);
    }
  }

  /** The machine's memory, updated in place by the guest and by the emulated system. */
  class Memory {
    var bytes: Bytes

    constructor (initial: Bytes)
      ensures bytes == initial
    {
      bytes := initial;
    }

    method WriteB(a: int, v: bv32)
      modifies this
      ensures bytes == StoreB(old(bytes), a, v)
    {
      bytes := StoreB(bytes, a, v);
    }

    method WriteW(a: int, v: bv32)
      modifies this
      ensures bytes == StoreW(old(bytes), a, v)
    {
      bytes := StoreW(bytes, a, v);
    }

    method WriteD(a: int, v: bv32)
      modifies this
      ensures bytes == StoreD(old(bytes), a, v)
    {
      bytes := StoreD(bytes, a, v);
    }

    /** mem_memcpy into guest memory from a byte image held outside it. */
    method WriteBytes(a: int, bs: seq<bv8>)
      modifies this
      ensures bytes == StoreBytes(old(bytes), a, bs)
    {
      bytes := StoreBytes(bytes, a, bs);
    }

    method Zero(a: int, n: int)
      modifies this
      ensures bytes == Zeroed(old(bytes), a, n)
    {
      bytes := Zeroed(bytes, a, n);
    }
  }
}

=== FILE: host.dfy ===
/**
 * The services the core calls but that live outside it: the video-memory
 * mapper, the process heap, COM object allocation and reference counting,
 * the callback registry, kernel-object open/close, and the GUI's cursor and
 * screen size. Each call is recorded in order; the addresses the allocators
 * hand out are arbitrary apart from lying above every block handed out
 * before, and never at address 0.
 */
module HostServices {
  import opened Wrappers

  datatype Call =
    | GfxSetSize(width: int, height: int)           // Main.GFX_SetSize
    | GfxSetCursor(cursor: Option<int>)             // Main.GFX_SetCursor: the image of this cursor object, or none
    | MapVideoRam(size: int, address: int)          // VideoMemory.mapVideoRAM
    | UnmapVideoRam(address: int)                   // VideoMemory.unmapVideoRAM
    | HeapAlloc(size: int, address: int)            // the current process heap's alloc
    | AllocateObject(size: int, address: int)       // IUnknown.allocate of a COM object record
    | RegisterReturnStub(stub: bv32)                // WinCallback.addCallback + the loader's registerFunction
    | AddRef(object: int)                           // IUnknown.AddRef
    | Release(object: int)                          // IUnknown.Release
    | OpenObject(handle: int)                       // WinObject.open
    | CloseObject(handle: int)                      // WinObject.close

  class Host {
    /** Every call made so far, oldest first. */
    var calls: seq<Call>
    /** Every block handed out so far lies below this address. */
    var top: int

    constructor ()
      ensures calls == [] && top == 0
    {
      calls := [];
      top := 0;
    }

    /** A new block of size bytes (none when size is not positive) above every earlier block. */
    method Fresh(size: int) returns (r: int)
      modifies this`top
      ensures 0 < r && old(top) <= r
      ensures top == r + (if size > 0 then size else 0)
    {
      var a :| 0 < a && top <= a;
      r := a;
      top := r + (if size > 0 then size else 0);
    }

    method Record(c: Call)
      modifies this`calls
      ensures calls == old(calls) + [c]
    {
      calls := calls + [c];
    }

    method MapVideoRam(size: int) returns (r: int)
      modifies this
      ensures 0 < r && old(top) <= r && top == r + (if size > 0 then size else 0)
      ensures calls == old(calls) + [Call.MapVideoRam(size, r)]
    {
      r := Fresh(size);
      Record(Call.MapVideoRam(size, r));
    }

    method HeapAlloc(size: int) returns (r: int)
      modifies this
      ensures 0 < r && old(top) <= r && top == r + (if size > 0 then size else 0)
      ensures calls == old(calls) + [Call.HeapAlloc(size, r)]
    {
      r := Fresh(size);
      Record(Call.HeapAlloc(size, r));
    }

    /** A COM object record of size data bytes; the result is the object pointer. */
    method AllocateObject(size: int) returns (r: int)
      modifies this
      ensures 0 < r && old(top) <= r && top == r + (if size > 0 then size else 0)
      ensures calls == old(calls) + [Call.AllocateObject(size, r)]
    {
      r := Fresh(size);
      Record(Call.AllocateObject(size, r));
    }

    /** The guest address of a new return stub; the host picks it. */
    method RegisterReturnStub() returns (r: bv32)
      modifies this`calls
      ensures calls == old(calls) + [Call.RegisterReturnStub(r)]
    {
      r := *;
      Record(Call.RegisterReturnStub(r));
    }

    /** A call that hands nothing back. */
    method Notify(c: Call)
      modifies this`calls
      ensures calls == old(calls) + [c]
    {
      Record(c);
    }
  }
}

=== FILE: java_int.dfy ===
/** Java's 32-bit int as the emulated system stores it in a dword: a two's-complement bit pattern. */
module JavaInt {

  /** The low 32 bits of x, as setData stores an int. */
  function Word(x: int): bv32
  {
    (x % 0x1_0000_0000) as bv32
  }

  /** The Java int a dword holds, as getData returns it. */
  function Signed(v: bv32): (r: int)
    ensures -0x8000_0000 <= r < 0x8000_0000
  {
    var n := v as int;
    if n < 0x8000_0000 then n else n - 0x1_0000_0000
  }

  /** The result of Java int arithmetic: the exact value wrapped into 32 bits. */
  function Int32(x: int): (r: int)
    ensures -0x8000_0000 <= r < 0x8000_0000
  {
    var m := x % 0x1_0000_0000;
    if m < 0x8000_0000 then m else m - 0x1_0000_0000
  }

}

=== FILE: machine.dfy ===
/**
 * The emulated x86 CPU as the window system drives it: the instruction and
 * stack pointers, CPU_Push32, and DOSBOX_RunMachine, which runs guest code
 * until it returns to the host and may leave any registers and memory behind.
 */
module Machine {
  import opened GuestMemory

  /** The state in which the guest was entered: where it started, its stack pointer and memory. */
  datatype Entry = Entry(eip: bv32, esp: int, memory: Bytes)

  class Cpu {
    var eip: bv32
    var esp: int
    /** Every entry into guest code so far, oldest first. */
    ghost var entries: seq<Entry>

    constructor (eip: bv32, esp: int)
      ensures this.eip == eip && this.esp == esp && entries == []
    {
      this.eip := eip;
      this.esp := esp;
      entries := [];
    }

    /** CPU_Push32: the stack grows down by one dword, which then holds v. */
    method Push32(mem: Memory, v: bv32)
      modifies this`esp, mem
      ensures esp == old(esp) - 4
      ensures mem.bytes == StoreD(old(mem.bytes), esp, v)
    {
      esp := esp - 4;
      mem.WriteD(esp, v);
    }

    /** DOSBOX_RunMachine: runs the guest from eip; afterwards registers and memory may hold anything. */
    method RunMachine(mem: Memory)
      modifies this, mem
      ensures entries == old(entries) + [Entry(old(eip), old(esp), old(mem.bytes))]
    {
      entries := entries + [Entry(eip, esp, mem.bytes)];
      eip := *;
      esp := *;
      mem.bytes := *;
    }
  }
}

=== FILE: pixel.dfy ===
/**
 * Pixel: conversion between bottom-up Windows bitmaps in guest memory and
 * host images (the data buffer of an image, row-major, top row first).
 */
module Pixel {
  import opened Wrappers
  import opened GuestMemory
  import opened Arithmetic

  /** Java's int division: the quotient is truncated toward zero. */
  function JavaDiv(a: int, b: int): int
    requires b > 0
  {
    if a >= 0 then a / b else -((-a) / b)
  }

  /** Whole bytes one pixel of the given depth occupies. */
  function BytesPerPixel(bpp: int): int
  {
    JavaDiv(bpp + 7, 8)
  }

  /** getPitch: the length in bytes of one bitmap row, a multiple of four that just holds the row. */
  function GetPitch(width: int, bpp: int): (pitch: int)
    ensures pitch % 4 == 0
    ensures width >= 0 && bpp >= 0 ==>
      width * BytesPerPixel(bpp) <= pitch < width * BytesPerPixel(bpp) + 4
  {
    var rowBytes := width * BytesPerPixel(bpp);
    assert width >= 0 && bpp >= 0 ==> rowBytes >= 0 by {
      if width >= 0 && bpp >= 0 {
        MulMono(width, 0, BytesPerPixel(bpp));
      }
    }
    JavaDiv(rowBytes + 3, 4) * 4
  }

  /** The element type of an image's data buffer. */
  datatype SampleKind =
    | ByteSamples     // palette-indexed 8- and 4-bit images
    | UShortSamples   // 16-bit 5-6-5 images
    | IntSamples      // 24-bit RGB and 32-bit ARGB images

  /**
   * A host image: its buffer's elements, row-major with the top row first
   * (element y * width + x is pixel (x, y)).
   */
  datatype Raster = Raster(kind: SampleKind, width: nat, height: nat, pixels: seq<bv32>)
  {
    predicate WellFormed()
    {
      width > 0 && height > 0 && |pixels| == width * height
    }
  }

  /** Bitmaps are stored bottom-up: image row y lives in the (height - y - 1)-th stored row. */
  function RowAddress(base: int, pitch: int, height: int, y: int): int
  {
    base + pitch * (height - y - 1)
  }

  /**
   * One pixel as createImage reads it: one byte for palette images, a word
   * for 16 bits, three bytes combined for 24 bits, a dword for 32 bits.
   */
  function ReadSample(m: Bytes, a: int, n: nat): bv32
    requires 1 <= n <= 4
  {
    match n
    case 1 => ReadB(m, a)
    case 2 => ReadW(m, a)
    case 3 => ReadB(m, a) | (ReadB(m, a + 1) << 8) | (ReadB(m, a + 2) << 16)
    case _ => ReadD(m, a)
  }

  lemma ReadSample3(m: Bytes, a: int, n: nat)
    requires n == 3
    ensures ReadSample(m, a, n) == FromLittleEndian(LoadBytes(m, a, n))
  {
    assert ReadB(m, a) == Compose(Load(m, a), 0, 0, 0);
    assert ReadB(m, a + 1) == Compose(Load(m, a + 1), 0, 0, 0);
    assert ReadB(m, a + 2) == Compose(Load(m, a + 2), 0, 0, 0);
    assert FromLittleEndian(LoadBytes(m, a, 3)) == Compose(Load(m, a), Load(m, a + 1), Load(m, a + 2), 0);
  }

  /** Every sample is the little-endian value of the n bytes it covers. */
  lemma ReadSampleIsLittleEndian(m: Bytes, a: int, n: nat)
    requires 1 <= n <= 4
    ensures ReadSample(m, a, n) == FromLittleEndian(LoadBytes(m, a, n))
  {
    if n == 3 {
      ReadSample3(m, a, n);
    }
  }

  /** Pixel (x, y) as createImage reads it from a bitmap of n-byte pixels. */
  function SampleAt(m: Bytes, src: int, pitch: int, height: int, n: nat, x: int, y: int): bv32
    requires 1 <= n <= 4
  {
    ReadSample(m, RowAddress(src, pitch, height, y) + n * x, n)
  }

  /** The buffer createImage fills: element i is pixel (i % width, i / width). */
  function DecodedPixels(m: Bytes, src: int, pitch: int, width: nat, height: nat, n: nat): (r: seq<bv32>)
    requires 1 <= n <= 4
    ensures |r| == width * height
  {
    seq(width * height, i requires 0 <= i < width * height => SampleAt(m, src, pitch, height, n, i % width, i / width))
  }

  /** Whether createImage can build an image of this depth (with or without a palette). */
  predicate DecodableDepth(bpp: int, palette: Option<seq<bv32>>)
  {
    if palette.Some? && bpp <= 8 then bpp == 8 || bpp == 4 else bpp == 16 || bpp == 24 || bpp == 32
  }

  /**
   * Whether createImage throws before its try block: the colour model
   * refuses an empty palette, and a pixel array of negative size cannot be
   * allocated (palette and 16-bit images allocate theirs outside the try).
   */
  predicate ThrowsUncaught(bpp: int, palette: Option<seq<bv32>>, width: int, height: int)
  {
    if palette.Some? && bpp <= 8 then |palette.value| == 0 || width * height < 0
    else bpp == 16 && width * height < 0
  }

  /**
   * Whether the image library refuses the raster inside the try block: a
   * sample model needs a positive width and height, and an indexed colour
   * model accepts a raster only when its samples can address every palette
   * entry (16 for 4-bit samples, 256 for 8-bit ones).
   */
  predicate RasterRefused(bpp: int, palette: Option<seq<bv32>>, width: int, height: int)
  {
    || width <= 0 || height <= 0
    || (palette.Some? && bpp <= 8 && |palette.value| > (if bpp == 4 then 16 else 256))
  }

  /** A createImage outcome that stops its caller: a panic or an exception nothing catches (a null image does not). */
  predicate Stops<T>(r: Result<T>)
  {
    r.Failure? && r.fault != InvalidRaster
  }

  /**
   * createImage: the image a bottom-up bitmap of the given depth describes.
   * A palette with a depth of at most 8 gives a byte image (one byte read per
   * pixel, for 4 bits as well); otherwise 16, 24 and 32 bits give word and
   * int images. An empty palette or a negative pixel count throws before
   * any handler; other depths panic; a raster the image library refuses
   * inside the try block (a size that is not positive, or a palette larger
   * than the samples can index) makes the result a null image.
   */
  function Decode(m: Bytes, src: int, bpp: int, palette: Option<seq<bv32>>, width: int, height: int): (r: Result<Raster>)
    ensures r == Failure(Thrown) <==> ThrowsUncaught(bpp, palette, width, height)
    ensures r == Failure(Panic) <==> !ThrowsUncaught(bpp, palette, width, height) && !DecodableDepth(bpp, palette)
    ensures r == Failure(InvalidRaster) <==>
              !ThrowsUncaught(bpp, palette, width, height) && DecodableDepth(bpp, palette) && RasterRefused(bpp, palette, width, height)
    ensures r.Success? <==>
              !ThrowsUncaught(bpp, palette, width, height) && DecodableDepth(bpp, palette) && !RasterRefused(bpp, palette, width, height)
    ensures r.Success? ==> r.value.WellFormed() && r.value.width == width && r.value.height == height
    ensures r.Success? ==> (r.value.kind == ByteSamples <==> bpp <= 8)
  {
    if palette.Some? && bpp <= 8 then
      if |palette.value| == 0 || width * height < 0 then Failure(Thrown)
      else if bpp != 8 && bpp != 4 then Failure(Panic)
      else if width <= 0 || height <= 0 || |palette.value| > (if bpp == 4 then 16 else 256) then Failure(InvalidRaster)
      else Success(Raster(ByteSamples, width, height, DecodedPixels(m, src, GetPitch(width, bpp), width, height, 1)))
    else if bpp == 16 || bpp == 24 || bpp == 32 then
      if bpp == 16 && width * height < 0 then Failure(Thrown)
      else if width <= 0 || height <= 0 then Failure(InvalidRaster)
      else
        var kind := if bpp == 16 then UShortSamples else IntSamples;
        Success(Raster(kind, width, height, DecodedPixels(m, src, GetPitch(width, bpp), width, height, bpp / 8)))
    else Failure(Panic)
  }

  /**
   * Pixel (x, y) of a decoded image comes from stored row height - y - 1,
   * column x, in the depth's own format.
   */
  lemma DecodeBottomUp(m: Bytes, src: int, bpp: int, palette: Option<seq<bv32>>, width: int, height: int, x: int, y: int)
    requires Decode(m, src, bpp, palette, width, height).Success?
    requires 0 <= x < width && 0 <= y < height
    ensures var pixels := Decode(m, src, bpp, palette, width, height).value.pixels;
            0 <= y * width + x < |pixels|
    ensures var row := src + GetPitch(width, bpp) * (height - y - 1);
            var pixels := Decode(m, src, bpp, palette, width, height).value.pixels;
            var pixel := if 0 <= y * width + x < |pixels| then pixels[y * width + x] else 0;
            && (bpp <= 8 ==> pixel == ReadB(m, row + x))
            && (bpp == 16 ==> pixel == ReadW(m, row + 2 * x))
            && (bpp == 24 ==> pixel == ReadB(m, row + 3 * x) | (ReadB(m, row + 3 * x + 1) << 8) | (ReadB(m, row + 3 * x + 2) << 16))
            && (bpp == 32 ==> pixel == ReadD(m, row + 4 * x))
  {
    GridIndex(width, height, x, y);
  }

  /** Rows 0 .. y - 1 of the buffer hold the samples createImage reads for them. */
  ghost predicate RowsFilled(buffer: seq<bv32>, m: Bytes, src: int, pitch: int, width: nat, height: nat, n: nat, y: nat)
    requires 1 <= n <= 4
  {
    |buffer| == width * height && y <= height &&
    forall i :: 0 <= i < y * width && i < |buffer| ==> buffer[i] == SampleAt(m, src, pitch, height, n, i % width, i / width)
  }

  /** Filling row y on top of rows 0 .. y - 1 fills rows 0 .. y. */
  lemma RowFilled(before: seq<bv32>, after: seq<bv32>, m: Bytes, src: int, pitch: int, width: nat, height: nat, n: nat, y: nat)
    requires 1 <= n <= 4 && y < height && |after| == |before|
    requires RowsFilled(before, m, src, pitch, width, height, n, y)
    requires forall i :: 0 <= i < y * width && i < |before| ==> after[i] == before[i]
    requires forall x :: 0 <= x < width && y * width + x < |after| ==> after[y * width + x] == SampleAt(m, src, pitch, height, n, x, y)
    ensures RowsFilled(after, m, src, pitch, width, height, n, y + 1)
  {
    assert (y + 1) * width == y * width + width;
    forall i | y * width <= i < y * width + width && i < |after|
      ensures after[i] == SampleAt(m, src, pitch, height, n, i % width, i / width)
    {
      DivModUnique(i, width, y, i - y * width);
      assert after[y * width + (i - y * width)] == SampleAt(m, src, pitch, height, n, i - y * width, y);
    }
  }

  /** All rows filled is the decoded buffer. */
  lemma AllRowsFilled(buffer: seq<bv32>, m: Bytes, src: int, pitch: int, width: nat, height: nat, n: nat)
    requires 1 <= n <= 4 && RowsFilled(buffer, m, src, pitch, width, height, n, height)
    ensures buffer == DecodedPixels(m, src, pitch, width, height, n)
  {
    assert height * width == width * height;
  }

  /** Fills a fresh buffer row by row, as the loops of createImage do. */
  method ReadRows(m: Bytes, src: int, pitch: int, width: nat, height: nat, n: nat) returns (pixels: seq<bv32>)
    requires 1 <= n <= 4
    ensures pixels == DecodedPixels(m, src, pitch, width, height, n)
  {
    var buffer := new bv32[width * height];
    var y := 0;
    while y < height
      invariant 0 <= y <= height
      invariant RowsFilled(buffer[..], m, src, pitch, width, height, n, y)
    {
      ghost var before := buffer[..];
      MulMono(width, y + 1, height);
      assert (y + 1) * width == y * width + width;
      ReadRow(m, src, pitch, height, n, width, buffer, y);
      RowFilled(before, buffer[..], m, src, pitch, width, height, n, y);
      y := y + 1;
    }
    AllRowsFilled(buffer[..], m, src, pitch, width, height, n);
    pixels := buffer[..];
  }

  /** The inner loop of createImage: stored row height - y - 1 into buffer row y. */
  method ReadRow(m: Bytes, src: int, pitch: int, height: nat, n: nat, width: nat, buffer: array<bv32>, y: nat)
    requires 1 <= n <= 4 && y * width + width <= buffer.Length
    modifies buffer
    ensures forall x :: 0 <= x < width ==> buffer[y * width + x] == SampleAt(m, src, pitch, height, n, x, y)
    ensures forall i :: 0 <= i < y * width ==> buffer[i] == old(buffer[i])
  {
    var address := src + pitch * (height - y - 1);
    var x := 0;
    while x < width
      invariant 0 <= x <= width
      invariant forall xx :: 0 <= xx < x ==> buffer[y * width + xx] == SampleAt(m, src, pitch, height, n, xx, y)
      invariant forall i :: 0 <= i < y * width ==> buffer[i] == old(buffer[i])
    {
      buffer[y * width + x] := ReadSample(m, address + n * x, n);
      x := x + 1;
    }
  }

  /** createImage, with the outcome of the image library's checks as a Result. */
  method CreateImage(m: Bytes, src: int, srcBpp: int, srcPalette: Option<seq<bv32>>, width: int, height: int)
    returns (r: Result<Raster>)
    ensures r == Decode(m, src, srcBpp, srcPalette, width, height)
  {
    if srcPalette.Some? && srcBpp <= 8 {
      if |srcPalette.value| == 0 || width * height < 0 {
        r := Failure(Thrown);
      } else if srcBpp != 8 && srcBpp != 4 {
        r := Failure(Panic);
      } else if width <= 0 || height <= 0 || |srcPalette.value| > (if srcBpp == 4 then 16 else 256) {
        r := Failure(InvalidRaster);
      } else {
        var pixels := ReadRows(m, src, GetPitch(width, srcBpp), width, height, 1);
        r := Success(Raster(ByteSamples, width, height, pixels));
      }
    } else if srcBpp == 16 || srcBpp == 24 || srcBpp == 32 {
      if srcBpp == 16 && width * height < 0 {
        r := Failure(Thrown);
      } else if width <= 0 || height <= 0 {
        r := Failure(InvalidRaster);
      } else {
        var pixels := ReadRows(m, src, GetPitch(width, srcBpp), width, height, srcBpp / 8);
        r := Success(Raster(if srcBpp == 16 then UShortSamples else IntSamples, width, height, pixels));
      }
    } else {
      r := Failure(Panic);
    }
  }

  /** Bytes writeImage stores per pixel for a buffer kind and destination depth; 0 when it stores nothing. */
  function StoredWidth(kind: SampleKind, dstBpp: int): nat
  {
    match kind
    case ByteSamples => 0
    case UShortSamples => 2
    case IntSamples => if dstBpp == 24 then 3 else if dstBpp == 32 then 4 else 0
  }

  /** writeImage's outcome: byte images are refused, every other buffer is written. */
  function WriteOutcome(kind: SampleKind): Result<()>
  {
    if kind == ByteSamples then Failure(Panic) else Success(())
  }

  /** Memory after storing elements base .. base + x - 1 of data as n-byte samples from address on. */
  function RowWritten(m: Bytes, address: int, data: seq<bv32>, base: int, n: nat, x: nat): Bytes
    requires 1 <= n <= 4 && 0 <= base && base + x <= |data|
    decreases x
  {
    if x == 0 then m
    else StoreBytes(RowWritten(m, address, data, base, n, x - 1), address + n * (x - 1), LittleEndian(data[base + x - 1], n))
  }

  /** Memory after writing image rows 0 .. y - 1 into their bottom-up stored rows. */
  function RowsWritten(m: Bytes, dst: int, pitch: int, data: seq<bv32>, width: nat, height: nat, n: nat, y: nat): Bytes
    requires 1 <= n <= 4 && y <= height && width * height <= |data|
    decreases y
  {
    if y == 0 then m
    else
      MulMono(width, y, height);
      assert (y - 1) * width + width == y * width;
      RowWritten(RowsWritten(m, dst, pitch, data, width, height, n, y - 1),
                 RowAddress(dst, pitch, height, y - 1), data, (y - 1) * width, n, width)
  }

  lemma RowsWrittenStep(m: Bytes, dst: int, pitch: int, data: seq<bv32>, width: nat, height: nat, n: nat, y: nat)
    requires 1 <= n <= 4 && y < height && width * height <= |data|
    ensures 0 <= y * width && y * width + width <= |data|
    ensures RowsWritten(m, dst, pitch, data, width, height, n, y + 1) ==
      RowWritten(RowsWritten(m, dst, pitch, data, width, height, n, y), RowAddress(dst, pitch, height, y), data, y * width, n, width)
  {
    MulMono(width, y + 1, height);
    MulMono(width, 0, y);
    assert (y + 1) * width == y * width + width;
  }

  /**
   * writeImage: the memory it leaves behind. Word buffers are stored as
   * 16-bit words whatever the destination depth; int buffers as three bytes
   * at 24 bits and as dwords at 32 bits; nothing is written otherwise.
   */
  function Encoded(m: Bytes, dst: int, image: Raster, dstBpp: int, width: int, height: int): Bytes
    requires StoredWidth(image.kind, dstBpp) == 0 || width <= 0 || height <= 0 || width * height <= |image.pixels|
  {
    var n := StoredWidth(image.kind, dstBpp);
    if n == 0 || width <= 0 || height <= 0 then m
    else RowsWritten(m, dst, GetPitch(width, dstBpp), image.pixels, width, height, n, height)
  }

  /** writeImage: stores an image bottom-up at dst; a byte image is refused with a panic. */
  method WriteImage(mem: Memory, dst: int, image: Raster, dstBpp: int, width: int, height: int) returns (r: Result<()>)
    requires StoredWidth(image.kind, dstBpp) == 0 || width <= 0 || height <= 0 || width * height <= |image.pixels|
    modifies mem
    ensures r == WriteOutcome(image.kind)
    ensures mem.bytes == Encoded(old(mem.bytes), dst, image, dstBpp, width, height)
  {
    var pitch := GetPitch(width, dstBpp);
    match image.kind {
      case ByteSamples =>
        r := Failure(Panic);
      case UShortSamples =>
        WriteRows(mem, dst, pitch, image.pixels, width, height, 2);
        r := Success(());
      case IntSamples =>
        if dstBpp == 24 {
          WriteRows(mem, dst, pitch, image.pixels, width, height, 3);
        } else if dstBpp == 32 {
          WriteRows(mem, dst, pitch, image.pixels, width, height, 4);
        }
        r := Success(());
    }
  }

  /** The row loop of writeImage. */
  method WriteRows(mem: Memory, dst: int, pitch: int, data: seq<bv32>, width: int, height: int, n: nat)
    requires 2 <= n <= 4 && (width <= 0 || height <= 0 || width * height <= |data|)
    modifies mem
    ensures width <= 0 || height <= 0 ==> mem.bytes == old(mem.bytes)
    ensures width > 0 && height > 0 ==> mem.bytes == RowsWritten(old(mem.bytes), dst, pitch, data, width, height, n, height)
  {
    if width > 0 && height > 0 {
      var y := 0;
      while y < height
        invariant 0 <= y <= height
        invariant mem.bytes == RowsWritten(old(mem.bytes), dst, pitch, data, width, height, n, y)
      {
        var address := dst + pitch * (height - y - 1);
        RowsWrittenStep(old(mem.bytes), dst, pitch, data, width, height, n, y);
        WriteRow(mem, address, data, y * width, n, width);
        y := y + 1;
      }
    }
  }

  /** The pixel loop of writeImage: elements base .. base + width - 1 from address on. */
  method WriteRow(mem: Memory, address: int, data: seq<bv32>, base: nat, n: nat, width: nat)
    requires 2 <= n <= 4 && base + width <= |data|
    modifies mem
    ensures mem.bytes == RowWritten(old(mem.bytes), address, data, base, n, width)
  {
    var x := 0;
    while x < width
      invariant 0 <= x <= width
      invariant mem.bytes == RowWritten(old(mem.bytes), address, data, base, n, x)
    {
      var v := data[base + x];
      if n == 2 {
        mem.WriteW(address + x * 2, v);
      } else if n == 3 {
        ghost var before := mem.bytes;
        mem.WriteB(address + x * 3, v);
        mem.WriteB(address + x * 3 + 1, v >> 8);
        mem.WriteB(address + x * 3 + 2, v >> 16);
        ThreeByteStores(before, address + x * 3, v);
      } else {
        mem.WriteD(address + x * 4, v);
      }
      x := x + 1;
    }
  }

  /** Three byte stores of v, v >> 8 and v >> 16 store the low three bytes of v. */
  lemma ThreeByteStores(m: Bytes, a: int, v: bv32)
    ensures StoreB(StoreB(StoreB(m, a, v), a + 1, v >> 8), a + 2, v >> 16) == StoreBytes(m, a, LittleEndian(v, 3))
  {
    assert ByteOf(v >> 8, 0) == ByteOf(v, 1);
    assert ByteOf(v >> 16, 0) == ByteOf(v, 2);
    OneByteStore(m, a, v);
    OneByteStore(m[a := ByteOf(v, 0)], a + 1, v >> 8);
    OneByteStore(m[a := ByteOf(v, 0)][a + 1 := ByteOf(v, 1)], a + 2, v >> 16);
    var bs := LittleEndian(v, 3);
    assert bs[1..][1..] == [bs[2]];
    assert StoreBytes(m, a, bs) == StoreBytes(m[a := bs[0]], a + 1, bs[1..]);
    assert StoreBytes(m[a := bs[0]], a + 1, bs[1..]) == StoreBytes(m[a := bs[0]][a + 1 := bs[1]], a + 2, [bs[2]]);
    assert StoreBytes(m[a := bs[0]][a + 1 := bs[1]], a + 2, [bs[2]]) == m[a := bs[0]][a + 1 := bs[1]][a + 2 := bs[2]];
  }

  lemma OneByteStore(m: Bytes, a: int, v: bv32)
    ensures StoreB(m, a, v) == m[a := ByteOf(v, 0)]
  {
    var bs := LittleEndian(v, 1);
    assert bs[1..] == [];
    assert StoreBytes(m, a, bs) == StoreBytes(m[a := bs[0]], a + 1, []);
  }

  /** Byte j of buffer element k; 0 outside the buffer. */
  function SampleByte(data: seq<bv32>, k: int, j: int): bv8
  {
    if 0 <= k < |data| && 0 <= j < 4 then ByteOf(data[k], j) else 0
  }

  /** The stored rows of width n-byte pixels that hold image rows 0 .. y - 1, from dst with the given pitch. */
  predicate InRows(a: int, dst: int, pitch: int, rowBytes: int, height: int, y: int)
  {
    pitch > 0 && dst <= a && height - y <= (a - dst) / pitch < height && (a - dst) % pitch < rowBytes
  }

  /** The byte writeImage leaves at address a inside the image: byte j of pixel (col, row). */
  function ImageByte(a: int, dst: int, pitch: int, data: seq<bv32>, width: int, height: int, n: nat): bv8
    requires pitch > 0 && n > 0
  {
    var offset := (a - dst) % pitch;
    SampleByte(data, (height - 1 - (a - dst) / pitch) * width + offset / n, offset % n)
  }

  lemma {:induction false} LoadRowWritten(m: Bytes, address: int, data: seq<bv32>, base: int, n: nat, x: nat, a: int)
    requires 1 <= n <= 4 && 0 <= base && base + x <= |data|
    ensures Load(RowWritten(m, address, data, base, n, x), a) ==
      if address <= a < address + n * x then SampleByte(data, base + (a - address) / n, (a - address) % n) else Load(m, a)
    decreases x
  {
    if x > 0 {
      var prev := RowWritten(m, address, data, base, n, x - 1);
      var start := address + n * (x - 1);
      assert address + n * x == start + n by {
        assert n * x == n * (x - 1) + n;
      }
      MulMono(n, 0, x - 1);
      LoadAfterStoreBytes(prev, start, LittleEndian(data[base + x - 1], n), a);
      if start <= a < start + n {
        DivModUnique(a - address, n, x - 1, a - start);
      } else {
        LoadRowWritten(m, address, data, base, n, x - 1, a);
      }
    }
  }

  /**
   * Stored row height - y begins at start: an address inside its first
   * rowBytes bytes joins the rows of image rows 0 .. y - 1; no other address
   * changes membership.
   */
  lemma RowMembership(a: int, dst: int, pitch: int, rowBytes: int, height: int, y: int)
    requires 0 < rowBytes <= pitch && 0 < y <= height
    ensures var start := dst + pitch * (height - y);
            if start <= a < start + rowBytes then
              InRows(a, dst, pitch, rowBytes, height, y) && !InRows(a, dst, pitch, rowBytes, height, y - 1) &&
              (a - dst) / pitch == height - y && (a - dst) % pitch == a - start
            else
              InRows(a, dst, pitch, rowBytes, height, y) == InRows(a, dst, pitch, rowBytes, height, y - 1)
  {
    var start := dst + pitch * (height - y);
    MulMono(pitch, 0, height - y);
    if start <= a < start + rowBytes {
      DivModUnique(a - dst, pitch, height - y, a - start);
    }
  }

  lemma {:induction false} LoadRowsWritten(m: Bytes, dst: int, pitch: int, data: seq<bv32>, width: nat, height: nat, n: nat, y: nat, a: int)
    requires 1 <= n <= 4 && y <= height && width * height <= |data| && 0 < n * width <= pitch
    ensures Load(RowsWritten(m, dst, pitch, data, width, height, n, y), a) ==
      if InRows(a, dst, pitch, n * width, height, y) then ImageByte(a, dst, pitch, data, width, height, n) else Load(m, a)
    decreases y
  {
    if y > 0 {
      var prev := RowsWritten(m, dst, pitch, data, width, height, n, y - 1);
      LoadRowsWritten(m, dst, pitch, data, width, height, n, y - 1, a);
      var start := RowAddress(dst, pitch, height, y - 1);
      MulMono(width, y, height);
      assert (y - 1) * width + width == y * width;
      LoadRowWritten(prev, start, data, (y - 1) * width, n, width, a);
      assert start == dst + pitch * (height - y);
      RowMembership(a, dst, pitch, n * width, height, y);
    }
  }

  /**
   * writeImage changes exactly the first n * width bytes of each of the
   * height stored rows (n the bytes stored per pixel), each to the matching
   * byte of the matching pixel, provided a pixel's stored bytes fit the
   * destination depth; every other byte keeps its value.
   */
  lemma EncodedByte(m: Bytes, dst: int, image: Raster, dstBpp: int, width: int, height: int, a: int)
    requires width <= 0 || height <= 0 || width * height <= |image.pixels|
    requires StoredWidth(image.kind, dstBpp) <= BytesPerPixel(dstBpp)
    ensures var n := StoredWidth(image.kind, dstBpp);
            var pitch := GetPitch(width, dstBpp);
            Load(Encoded(m, dst, image, dstBpp, width, height), a) ==
              if n > 0 && width > 0 && height > 0 && InRows(a, dst, pitch, n * width, height, height)
              then ImageByte(a, dst, pitch, image.pixels, width, height, n)
              else Load(m, a)
  {
    var n := StoredWidth(image.kind, dstBpp);
    if n > 0 && width > 0 && height > 0 {
      var pitch := GetPitch(width, dstBpp);
      MulMono(width, n, BytesPerPixel(dstBpp));
      MulMono(n, 1, width);
      LoadRowsWritten(m, dst, pitch, image.pixels, width, height, n, height, a);
    }
  }

  /** Rows 0 .. y - 1 written: a byte below the lowest stored row or past the end of the highest one keeps its value. */
  lemma {:induction false} RowsWrittenFrame(m: Bytes, dst: int, pitch: int, data: seq<bv32>, width: nat, height: nat, n: nat, y: nat, a: int)
    requires 1 <= n <= 4 && y <= height && width * height <= |data|
    requires var span := pitch * (height - 1);
             a < dst + (if span < 0 then span else 0) || dst + (if span > 0 then span else 0) + n * width <= a
    ensures Load(RowsWritten(m, dst, pitch, data, width, height, n, y), a) == Load(m, a)
    decreases y
  {
    if y > 0 {
      var prev := RowsWritten(m, dst, pitch, data, width, height, n, y - 1);
      RowsWrittenStep(m, dst, pitch, data, width, height, n, y - 1);
      RowInSpan(dst, pitch, height, y - 1);
      LoadRowWritten(prev, RowAddress(dst, pitch, height, y - 1), data, (y - 1) * width, n, width, a);
      RowsWrittenFrame(m, dst, pitch, data, width, height, n, y - 1, a);
    }
  }

  /** Every stored row starts between dst and the start of the row furthest from it. */
  lemma RowInSpan(dst: int, pitch: int, height: int, y: int)
    requires 0 <= y < height
    ensures var span := pitch * (height - 1);
            var start := RowAddress(dst, pitch, height, y);
            dst + (if span < 0 then span else 0) <= start <= dst + (if span > 0 then span else 0)
  {
    if pitch >= 0 {
      MulMono(pitch, 0, height - y - 1);
      MulMono(pitch, height - y - 1, height - 1);
    } else {
      MulMono(-pitch, 0, height - y - 1);
      MulMono(-pitch, height - y - 1, height - 1);
    }
  }

  /**
   * writeImage changes no byte outside the span of its stored rows, from
   * the lowest row's start to the end of the highest row's n * width
   * bytes, whether or not the rows overlap (a word image at 8 bits or
   * fewer stores more bytes per pixel than the pitch allows for).
   */
  lemma EncodedFrame(m: Bytes, dst: int, image: Raster, dstBpp: int, width: int, height: int, a: int)
    requires StoredWidth(image.kind, dstBpp) == 0 || width <= 0 || height <= 0 || width * height <= |image.pixels|
    ensures var n := StoredWidth(image.kind, dstBpp);
            var span := GetPitch(width, dstBpp) * (height - 1);
            a < dst + (if span < 0 then span else 0) || dst + (if span > 0 then span else 0) + n * width <= a ==>
              Load(Encoded(m, dst, image, dstBpp, width, height), a) == Load(m, a)
  {
    var n := StoredWidth(image.kind, dstBpp);
    var span := GetPitch(width, dstBpp) * (height - 1);
    if n > 0 && width > 0 && height > 0 &&
       (a < dst + (if span < 0 then span else 0) || dst + (if span > 0 then span else 0) + n * width <= a) {
      RowsWrittenFrame(m, dst, GetPitch(width, dstBpp), image.pixels, width, height, n, height, a);
    }
  }

  /** Element-wise: the value an n-byte store keeps of each pixel. */
  function Truncated(pixels: seq<bv32>, n: nat): (r: seq<bv32>)
    requires n <= 4
    ensures |r| == |pixels|
  {
    seq(|pixels|, i requires 0 <= i < |pixels| => pixels[i] & Mask(n))
  }

  /** Depths whose images writeImage stores in full: words at 16 bits, ints at 24 and 32 bits. */
  predicate RoundTrips(kind: SampleKind, bpp: int)
  {
    (bpp == 16 && kind == UShortSamples) || ((bpp == 24 || bpp == 32) && kind == IntSamples)
  }

  /** The address of byte j of stored pixel (x, y) lies in the image, and its byte is byte j of pixel (x, y). */
  lemma PixelCoordinates(a: int, dst: int, pitch: int, data: seq<bv32>, width: nat, height: nat, n: nat, x: int, y: int, j: int)
    requires 1 <= n <= 4 && n * width <= pitch
    requires 0 <= x < width && 0 <= y < height && 0 <= j < n
    requires a == RowAddress(dst, pitch, height, y) + n * x + j
    ensures InRows(a, dst, pitch, n * width, height, height)
    ensures ImageByte(a, dst, pitch, data, width, height, n) == SampleByte(data, y * width + x, j)
  {
    MulMono(n, x + 1, width);
    assert a - dst == pitch * (height - y - 1) + (n * x + j);
    DivModUnique(a - dst, pitch, height - y - 1, n * x + j);
    DivModUnique(n * x + j, n, x, j);
  }

  /** After all rows are written, byte j of stored pixel (x, y) is byte j of pixel (x, y). */
  lemma RowsWrittenSample(m: Bytes, dst: int, pitch: int, data: seq<bv32>, width: nat, height: nat, n: nat, x: int, y: int, j: int)
    requires 1 <= n <= 4 && width * height <= |data| && 0 < n * width <= pitch
    requires 0 <= x < width && 0 <= y < height && 0 <= j < n
    ensures Load(RowsWritten(m, dst, pitch, data, width, height, n, height), RowAddress(dst, pitch, height, y) + n * x + j)
         == SampleByte(data, y * width + x, j)
  {
    var a := RowAddress(dst, pitch, height, y) + n * x + j;
    LoadRowsWritten(m, dst, pitch, data, width, height, n, height, a);
    PixelCoordinates(a, dst, pitch, data, width, height, n, x, y, j);
  }

  /** Byte j of stored pixel (x, y) after writeImage is byte j of pixel (x, y) of the image. */
  lemma EncodedSampleByte(m: Bytes, dst: int, image: Raster, bpp: int, x: int, y: int, j: int)
    requires image.WellFormed() && RoundTrips(image.kind, bpp)
    requires 0 <= x < image.width && 0 <= y < image.height && 0 <= j < bpp / 8
    ensures var w, h := image.width, image.height;
            var a := RowAddress(dst, GetPitch(w, bpp), h, y) + bpp / 8 * x + j;
            Load(Encoded(m, dst, image, bpp, w, h), a) == SampleByte(image.pixels, y * w + x, j)
  {
    var w, h := image.width, image.height;
    var n := bpp / 8;
    var pitch := GetPitch(w, bpp);
    RoundTripWidth(image.kind, bpp);
    assert 0 < n * w <= pitch by {
      MulMono(n, 1, w);
    }
    assert Encoded(m, dst, image, bpp, w, h) == RowsWritten(m, dst, pitch, image.pixels, w, h, n, h);
    RowsWrittenSample(m, dst, pitch, image.pixels, w, h, n, x, y, j);
  }

  /** At a depth that round-trips, a stored pixel takes bpp / 8 bytes, which is also the bitmap's bytes per pixel. */
  lemma RoundTripWidth(kind: SampleKind, bpp: int)
    requires RoundTrips(kind, bpp)
    ensures 2 <= bpp / 8 <= 4 && StoredWidth(kind, bpp) == bpp / 8 == BytesPerPixel(bpp)
  {
  }

  lemma SampleOfEncoded(m: Bytes, dst: int, image: Raster, bpp: int, x: int, y: int)
    requires image.WellFormed() && RoundTrips(image.kind, bpp)
    requires 0 <= x < image.width && 0 <= y < image.height
    ensures var w, h := image.width, image.height;
            var e := Encoded(m, dst, image, bpp, w, h);
            0 <= y * w + x < |image.pixels| &&
            SampleAt(e, dst, GetPitch(w, bpp), h, bpp / 8, x, y) == image.pixels[y * w + x] & Mask(bpp / 8)
  {
    var w, h := image.width, image.height;
    var n := bpp / 8;
    var e := Encoded(m, dst, image, bpp, w, h);
    GridIndex(w, h, x, y);
    var v := image.pixels[y * w + x];
    var a := RowAddress(dst, GetPitch(w, bpp), h, y) + n * x;
    forall j | 0 <= j < n
      ensures LoadBytes(e, a, n)[j] == LittleEndian(v, n)[j]
    {
      EncodedSampleByte(m, dst, image, bpp, x, y, j);
    }
    SampleOfBytes(e, a, n, v);
  }

  /** A sample whose bytes are those of v is v cut to the sample's width. */
  lemma SampleOfBytes(m: Bytes, a: int, n: nat, v: bv32)
    requires 1 <= n <= 4
    requires forall j :: 0 <= j < n ==> LoadBytes(m, a, n)[j] == LittleEndian(v, n)[j]
    ensures ReadSample(m, a, n) == v & Mask(n)
  {
    assert LoadBytes(m, a, n) == LittleEndian(v, n);
    ReadSampleIsLittleEndian(m, a, n);
    FromLittleEndianOfLittleEndian(v, n);
  }

  lemma DecodedPixelOfEncoded(m: Bytes, dst: int, image: Raster, bpp: int, i: int)
    requires image.WellFormed() && RoundTrips(image.kind, bpp)
    requires 0 <= i < image.width * image.height
    ensures var w, h := image.width, image.height;
            DecodedPixels(Encoded(m, dst, image, bpp, w, h), dst, GetPitch(w, bpp), w, h, bpp / 8)[i]
              == Truncated(image.pixels, bpp / 8)[i]
  {
    var w, h := image.width, image.height;
    var y, x := i / w, i % w;
    assert i == y * w + x;
    assert y < h by {
      if y >= h {
        MulMono(w, h, y);
        assert false;
      }
    }
    SampleOfEncoded(m, dst, image, bpp, x, y);
  }

  /**
   * Reading back what writeImage stored at 16, 24 or 32 bits gives the
   * image again, each pixel cut to the bytes stored (exact at 16 and 32
   * bits, the low 24 bits at 24).
   */
  lemma DecodeAfterEncode(m: Bytes, dst: int, image: Raster, bpp: int, palette: Option<seq<bv32>>)
    requires image.WellFormed() && RoundTrips(image.kind, bpp)
    ensures Decode(Encoded(m, dst, image, bpp, image.width, image.height), dst, bpp, palette, image.width, image.height)
         == Success(Raster(image.kind, image.width, image.height, Truncated(image.pixels, bpp / 8)))
  {
    var w, h := image.width, image.height;
    var n := bpp / 8;
    var decoded := DecodedPixels(Encoded(m, dst, image, bpp, w, h), dst, GetPitch(w, bpp), w, h, n);
    forall i | 0 <= i < w * h
      ensures decoded[i] == Truncated(image.pixels, n)[i]
    {
      DecodedPixelOfEncoded(m, dst, image, bpp, i);
    }
    assert decoded == Truncated(image.pixels, n);
  }

  /** Byte j of decoded pixel (col, row) is the byte createImage read it from. */
  lemma DecodedByte(m: Bytes, src: int, pitch: int, width: nat, height: nat, n: nat, col: int, row: int, j: int)
    requires 1 <= n <= 4 && 0 <= col < width && 0 <= row < height && 0 <= j < n
    ensures SampleByte(DecodedPixels(m, src, pitch, width, height, n), row * width + col, j)
         == Load(m, RowAddress(src, pitch, height, row) + n * col + j)
  {
    GridIndex(width, height, col, row);
    var start := RowAddress(src, pitch, height, row) + n * col;
    var bs := LoadBytes(m, start, n);
    ReadSampleIsLittleEndian(m, start, n);
    LittleEndianOfFromLittleEndian(bs);
    assert LittleEndian(FromLittleEndian(bs), n)[j] == bs[j];
  }

  /** An address in the image rows is byte j of pixel (col, row) for the quotients its offset gives. */
  lemma ImageCoordinates(a: int, dst: int, pitch: int, width: nat, height: nat, n: nat)
    requires 1 <= n <= 4 && InRows(a, dst, pitch, n * width, height, height)
    ensures var offset := (a - dst) % pitch;
            var row := height - 1 - (a - dst) / pitch;
            && 0 <= offset / n < width && 0 <= row < height && 0 <= offset % n < n
            && a == RowAddress(dst, pitch, height, row) + n * (offset / n) + offset % n
  {
    var offset := (a - dst) % pitch;
    assert a - dst == pitch * ((a - dst) / pitch) + offset;
    assert offset == n * (offset / n) + offset % n;
    if offset / n >= width {
      MulMono(n, width, offset / n);
      assert false;
    }
  }

  /** Inside the image rows, the byte writeImage would store is the byte createImage read there. */
  lemma ImageByteOfDecoded(m: Bytes, src: int, pitch: int, width: nat, height: nat, n: nat, a: int)
    requires 1 <= n <= 4 && InRows(a, src, pitch, n * width, height, height)
    ensures ImageByte(a, src, pitch, DecodedPixels(m, src, pitch, width, height, n), width, height, n) == Load(m, a)
  {
    ImageCoordinates(a, src, pitch, width, height, n);
    var offset := (a - src) % pitch;
    DecodedByte(m, src, pitch, width, height, n, offset / n, height - 1 - (a - src) / pitch, offset % n);
  }

  /** Writing back an image just read at 16, 24 or 32 bits leaves every byte of memory as it was. */
  lemma EncodeAfterDecode(m: Bytes, src: int, bpp: int, palette: Option<seq<bv32>>, width: int, height: int, a: int)
    requires bpp == 16 || bpp == 24 || bpp == 32
    requires Decode(m, src, bpp, palette, width, height).Success?
    ensures Load(Encoded(m, src, Decode(m, src, bpp, palette, width, height).value, bpp, width, height), a) == Load(m, a)
  {
    var image := Decode(m, src, bpp, palette, width, height).value;
    var n := bpp / 8;
    var pitch := GetPitch(width, bpp);
    assert image.pixels == DecodedPixels(m, src, pitch, width, height, n);
    EncodedByte(m, src, image, bpp, width, height, a);
    if InRows(a, src, pitch, n * width, height, height) {
      ImageByteOfDecoded(m, src, pitch, width, height, n, a);
    }
  }


  /**
   * The image copy draws into, chosen by destination depth: the
   * destination bitmap itself at 8 bits (a null one fails at getGraphics),
   * a new word image at 15 and 16 bits, a new int image at 24 and 32 bits
   * (whose constructor throws for a size that is not positive); other
   * depths panic.
   */
  function CopyTarget(m: Bytes, dst: int, dstBpp: int, dstPalette: Option<seq<bv32>>, width: int, height: int): Result<SampleKind>
  {
    if dstBpp == 8 then
      var target := Decode(m, dst, dstBpp, dstPalette, width, height);
      if target.Success? then Success(target.value.kind)
      else if target.fault == InvalidRaster then Failure(NullReference)
      else Failure(target.fault)
    else if dstBpp == 15 || dstBpp == 16 || dstBpp == 24 || dstBpp == 32 then
      if width <= 0 || height <= 0 then Failure(Thrown)
      else Success(if dstBpp == 15 || dstBpp == 16 then UShortSamples else IntSamples)
    else Failure(Panic)
  }

  /**
   * copy: decodes the source, picks the target by destination depth and
   * stores the target's pixels at the destination. A source that stops
   * createImage stops copy; a null source image draws nothing, so a new
   * target keeps its zero pixels. The pixels the image library draws from a
   * real source into the target are the parameter drawn.
   */
  method Copy(mem: Memory, src: int, srcBpp: int, srcPalette: Option<seq<bv32>>,
              dst: int, dstBpp: int, dstPalette: Option<seq<bv32>>, width: int, height: int, drawn: seq<bv32>)
    returns (r: Result<()>)
    requires width <= 0 || height <= 0 || width * height <= |drawn|
    modifies mem
    ensures var source := Decode(old(mem.bytes), src, srcBpp, srcPalette, width, height);
            var target := CopyTarget(old(mem.bytes), dst, dstBpp, dstPalette, width, height);
            if Stops(source) then r == Failure(source.fault) && mem.bytes == old(mem.bytes)
            else if target.Failure? then r == Failure(target.fault) && mem.bytes == old(mem.bytes)
            else (r == WriteOutcome(target.value) &&
                  var pixels := if source.Success? then drawn else Blank(width, height);
                  mem.bytes == Encoded(old(mem.bytes), dst, Raster(target.value, width, height, pixels), dstBpp, width, height))
  {
    var source := CreateImage(mem.bytes, src, srcBpp, srcPalette, width, height);
    if Stops(source) {
      return Failure(source.fault);
    }
    var kind: SampleKind;
    if dstBpp == 8 {
      var target := CreateImage(mem.bytes, dst, dstBpp, dstPalette, width, height);
      if target.Failure? {
        return if target.fault == InvalidRaster then Failure(NullReference) else Failure(target.fault);
      }
      kind := target.value.kind;
    } else if dstBpp == 15 || dstBpp == 16 || dstBpp == 24 || dstBpp == 32 {
      if width <= 0 || height <= 0 {
        return Failure(Thrown);
      }
      kind := if dstBpp == 15 || dstBpp == 16 then UShortSamples else IntSamples;
    } else {
      return Failure(Panic);
    }
    var pixels := if source.Success? then drawn else Blank(width, height);
    r := WriteImage(mem, dst, Raster(kind, width, height, pixels), dstBpp, width, height);
  }

  /** The pixels of a new image nothing was drawn into: width * height zeros. */
  function Blank(width: int, height: int): (r: seq<bv32>)
    ensures width > 0 && height > 0 ==> |r| == width * height
    ensures forall i :: 0 <= i < |r| ==> r[i] == 0
  {
    if width > 0 && height > 0 then seq(width * height, _ => 0) else []
  }

  /** Copying into an 8-bit destination never stores anything: the target is a byte image or missing. */
  lemma CopyToEightBitsFails(m: Bytes, dst: int, dstPalette: Option<seq<bv32>>, width: int, height: int)
    ensures var target := CopyTarget(m, dst, 8, dstPalette, width, height);
            target.Failure? || WriteOutcome(target.value).Failure?
  {
  }

  /** BGRtoRGB: exchanges the low and the third byte of a colour, keeping the other two. */
  function BGRtoRGB(color: bv32): (r: bv32)
    ensures ByteOf(r, 0) == ByteOf(color, 2) && ByteOf(r, 2) == ByteOf(color, 0)
    ensures ByteOf(r, 1) == ByteOf(color, 1) && ByteOf(r, 3) == ByteOf(color, 3)
  {
    (color & 0xFF00_0000) | ((color >> 16) & 0xFF) | ((color << 16) & 0xFF_0000) | (color & 0x0000_FF00)
  }

  /** Swapping twice restores the colour. */
  lemma BGRtoRGBInvolution(color: bv32)
    ensures BGRtoRGB(BGRtoRGB(color)) == color
  {
    var r := BGRtoRGB(BGRtoRGB(color));
    assert ByteOf(r, 0) == ByteOf(color, 0) && ByteOf(r, 1) == ByteOf(color, 1);
    assert ByteOf(r, 2) == ByteOf(color, 2) && ByteOf(r, 3) == ByteOf(color, 3);
    ComposeOfBytes(r);
    ComposeOfBytes(color);
  }
}

=== FILE: surface.dfy ===
/**
 * IDirectDrawSurface: a COM object whose record holds the surface's own
 * flags, its palette, the address of its pixels, its back buffer, its device
 * context, the kernel object caching its host image, and its surface
 * description. create builds one from a caller's description; the COM
 * methods lock it, hand out its description, caps, back buffer and device
 * context, and attach a palette.
 */
module DirectDrawSurface {
  import opened Wrappers
  import opened GuestMemory
  import opened JavaInt
  import opened HostServices
  import opened SurfaceFlags
  import opened SurfaceDescription
  import Pixel
  import WS = WinSystem

  // HRESULTs the methods return
  const S_OK: bv32 := 0
  const E_POINTER: bv32 := 0x8000_4003
  const DDERR_INVALIDPARAMS: bv32 := 0x8007_0057

  // Lock flags the emulation refuses
  const DDLOCK_EVENT: bv32 := 0x0000_0002
  const DDLOCK_NOSYSLOCK: bv32 := 0x0000_0800
  const DDLOCK_NOOVERWRITE: bv32 := 0x0000_1000
  const DDLOCK_DISCARDCONTENTS: bv32 := 0x0000_2000

  /** The data bytes create allocates for a surface record: a DDSURFACEDESC2 and three dwords. */
  const RecordSize: int := 124 + 12

  /** Byte offset of the lpSurface field of a surface description. */
  const SurfacePointerOffset: int := 0x24

  /**
   * Where a DirectDraw palette object keeps its 256 colour dwords, relative
   * to the object pointer. IDirectDrawPalette is not part of this model, so
   * the offset is left unspecified.
   */
  const PaletteColorTable: int

  /** The palette getImage and GetDC read: none without a palette object, else its 256 colour dwords. */
  function PaletteOf(m: Bytes, lpDDPalette: bv32): (r: Option<seq<bv32>>)
    ensures r.None? <==> lpDDPalette == 0
    ensures r.Some? ==> |r.value| == 256
    ensures r.Some? ==> forall i :: 0 <= i < 256 ==> r.value[i] == ReadD(m, lpDDPalette as int + PaletteColorTable + 4 * i)
  {
    if lpDDPalette == 0 then None else Some(WS.PaletteAt(m, lpDDPalette as int + PaletteColorTable))
  }

  /** The image getImage keeps of a createImage that did not stop it: a null image when the raster was refused. */
  function ImageOf(made: Result<Pixel.Raster>): Option<Pixel.Raster>
  {
    if made.Success? then Some(made.value) else None
  }

  /** The image cached under a handle: none for handle 0, else the object's data; a handle naming no object faults. */
  function CachedImage(sys: WS.WinSystem, index: int): (r: Result<Option<Pixel.Raster>>)
    reads sys
    ensures index == 0 ==> r == Success(None)
    ensures index != 0 ==> (r.Success? <==> index in sys.objects)
    ensures index != 0 && r.Success? ==> r.value == sys.objects[index].data
    ensures r.Failure? ==> r.fault == NullReference
  {
    if index == 0 then Success(None)
    else match sys.GetObject(index)
      case None => Failure(NullReference)
      case Some(o) => Success(o.data)
  }

  /** The dwords Lock copies out of the description and where it puts the pixel address. */
  function LockedBytes(m: Bytes, lp: int, desc: seq<bv32>, surfaceFlags: bv32, memory: int): Bytes
    requires |desc| == RecordWords
  {
    StoreD(StoreBytes(m, lp, DwordBytes(desc[..DescWords(surfaceFlags)])), lp + SurfacePointerOffset, Word(memory))
  }

  /**
   * What the guest reads back after Lock: the surface's description (as
   * long as its format says) with lpSurface pointing at the pixels; memory
   * outside the copied description is untouched.
   */
  lemma LockedView(m: Bytes, lp: int, desc: seq<bv32>, surfaceFlags: bv32, memory: int)
    requires |desc| == RecordWords
    ensures var n := DescWords(surfaceFlags);
            DwordsAt(LockedBytes(m, lp, desc, surfaceFlags, memory), lp, n) == desc[..n][SurfaceAt := Word(memory)]
    ensures var n := DescWords(surfaceFlags);
            forall x :: x < lp || lp + 4 * n <= x ==> Load(LockedBytes(m, lp, desc, surfaceFlags, memory), x) == Load(m, x)
  {
    var n := DescWords(surfaceFlags);
    PatchedDwordsRoundTrip(m, lp, desc[..n], SurfaceAt, Word(memory));
  }

  /** The three host calls create makes for one surface: its record, then its pixels. */
  function CreateCalls(d: Request, pointer: int, amount: int, memory: int): seq<Call>
  {
    [Call.AllocateObject(RecordSize, pointer), MemoryCall(d, amount, memory)]
  }

  /**
   * A DirectDraw surface: the data of its COM object record. The record
   * lives in guest memory in the source; here its fields are the object's
   * fields, and the description is kept as its dwords.
   */
  class Surface {
    /** The COM object pointer create returns. */
    const pointer: int
    /** OFFSET_FLAGS: caps and description format, locked bit. */
    var flags: bv32
    /** OFFSET_PALETTE: the attached IDirectDrawPalette, or 0. */
    var palette: bv32
    /** OFFSET_MEMORY: the address of the pixels. */
    var memory: int
    /** OFFSET_BACK_BUFFER: the back-buffer surface's pointer, or 0. */
    var backBuffer: int
    /** OFFSET_DC: the device context handed out by GetDC, or 0. */
    var dc: int
    /** OFFSET_IMAGE: the kernel object caching the host image, or 0. */
    var image: int
    /** OFFSET_DESC: the surface description, as a DDSURFACEDESC2's dwords. */
    var desc: seq<bv32>
    /** The surface backBuffer points at. */
    ghost var attached: Surface?

    ghost predicate Valid()
      reads this
    {
      |desc| == RecordWords && (desc[SizeAt] == DESC_SIZE || desc[SizeAt] == DESC_SIZE2)
    }

    /** A freshly allocated record holding the copied description; every other field is zero. */
    constructor (pointer: int, copied: seq<bv32>)
      requires |copied| <= RecordWords
      ensures this.pointer == pointer && desc == Padded(copied)
      ensures flags == 0 && palette == 0 && memory == 0 && backBuffer == 0 && dc == 0 && image == 0
      ensures attached == null
    {
      this.pointer := pointer;
      desc := Padded(copied);
      flags, palette, memory, backBuffer, dc, image := 0, 0, 0, 0, 0, 0;
      attached := null;
    }

    /** The description fields create writes one by one after allocating the pixels. */
    method Describe(descSize: bv32, width: bv32, height: bv32, bpp: bv32)
      requires |desc| == RecordWords
      modifies this`desc
      ensures desc == Formatted(old(desc), descSize, width, height, bpp)
    {
      desc := desc[SizeAt := descSize];
      desc := desc[FlagsAt := FilledFlags];
      desc := desc[HeightAt := height];
      desc := desc[WidthAt := width];
      desc := desc[PitchAt := width];
      desc := desc[PixelFormatSizeAt := DDPIXELFORMAT_SIZE];
      var filled := desc;
      var pfFlags := DDPF_RGB;
      if bpp == 8 {
        pfFlags := pfFlags | DDPF_PALETTEINDEXED8;
      } else if bpp == 16 {
        desc := desc[RedMaskAt := 0xF800][GreenMaskAt := 0x07E0][BlueMaskAt := 0x001F];
      } else if bpp == 24 {
        desc := desc[RedMaskAt := 0xFF_0000][GreenMaskAt := 0x00_FF00][BlueMaskAt := 0x00_00FF];
      } else if bpp == 32 {
        desc := desc[RedMaskAt := 0x00FF_0000][GreenMaskAt := 0x0000_FF00][BlueMaskAt := 0x0000_00FF][AlphaMaskAt := 0xFF00_0000];
      }
      assert desc == WithMasks(filled, bpp);
      desc := desc[PixelFormatFlagsAt := pfFlags];
      desc := desc[BitCountAt := bpp];
    }

    /**
     * create: allocate the record, copy the caller's description into it,
     * check the kind of surface asked for, allocate and clear the pixels,
     * fill in the description and, for one back buffer, create the back
     * buffer from the parent's description first. Every refused request
     * panics; since a panic halts the emulator, the checks are made here,
     * before the record is allocated, and Start repeats the kind check in
     * its place.
     */
    static method Build(host: Host, mem: Memory, device: Device, source: seq<bv32>, flags: bv32) returns (r: Result<Surface>)
      requires |source| == DescWords(flags)
      modifies host, mem
      ensures r.Success? <==> Accepted(RequestOf(source), device)
      ensures r.Failure? ==> r.fault == Panic
      ensures r.Success? ==> fresh(r.value) && Record(r.value, source, flags, device) && old(host.top) <= r.value.pointer < r.value.memory
      ensures r.Success? ==> (r.value.attached != null <==> BackBufferOf(RequestOf(source)).value)
      ensures r.Success? && r.value.attached == null ==>
                var s := r.value;
                var amount := SurfaceAmount(source, device);
                && s.backBuffer == 0
                && host.calls == old(host.calls) + CreateCalls(RequestOf(source), s.pointer, amount, s.memory)
                && mem.bytes == Zeroed(old(mem.bytes), s.memory, amount)
      ensures r.Success? && r.value.attached != null ==>
                var s, child := r.value, r.value.attached;
                var childSource := ChildSource(source, flags, device);
                var amount, childAmount := SurfaceAmount(source, device), SurfaceAmount(childSource, device);
                && fresh(child) && child != s && s.backBuffer == child.pointer
                && Record(child, childSource, flags, device) && child.backBuffer == 0 && child.attached == null
                && s.memory <= child.pointer < child.memory
                && host.calls == old(host.calls) + CreateCalls(RequestOf(source), s.pointer, amount, s.memory)
                                                 + CreateCalls(RequestOf(childSource), child.pointer, childAmount, child.memory)
                && mem.bytes == Zeroed(Zeroed(old(mem.bytes), s.memory, amount), child.memory, childAmount)
    {
      var d := RequestOf(source);
      if ShapeOf(d, device).Failure? {
        return Failure(Panic);
      }
      var s;
      if d.flags & DDSD_BACKBUFFERCOUNT != 0 {
        if d.backBufferCount != 1 || d.caps & DDSCAPS_COMPLEX == 0 {
          return Failure(Panic);
        }
        s := BuildWithBackBuffer(host, mem, device, source, flags);
      } else {
        s := BuildSingle(host, mem, device, source, flags);
      }
      return Success(s);
    }

    /**
     * create as the DirectDraw object calls it: the description is the
     * caller's, read from guest memory at pDesc, as long as flags says.
     */
    static method Create(host: Host, mem: Memory, device: Device, pDesc: int, flags: bv32) returns (r: Result<Surface>)
      modifies host, mem
      ensures var source := DwordsAt(old(mem.bytes), pDesc, DescWords(flags));
              && (r.Success? <==> Accepted(RequestOf(source), device))
              && (r.Failure? ==> r.fault == Panic)
              && (r.Success? ==> fresh(r.value) && Record(r.value, source, flags, device))
              && (r.Success? ==> (r.value.attached != null <==> BackBufferOf(RequestOf(source)).value))
    {
      var source := DwordsAt(mem.bytes, pDesc, DescWords(flags));
      r := Build(host, mem, device, source, flags);
    }

    /** create(pDirectDraw, pDesc): a plain DDSURFACEDESC with a one-dword caps. */
    static method CreateDefault(host: Host, mem: Memory, device: Device, pDesc: int) returns (r: Result<Surface>)
      modifies host, mem
      ensures var source := DwordsAt(old(mem.bytes), pDesc, DescWords(0));
              && |source| * 4 == DESC_SIZE as int
              && (r.Success? <==> Accepted(RequestOf(source), device))
              && (r.Failure? ==> r.fault == Panic)
              && (r.Success? ==> fresh(r.value) && Record(r.value, source, 0, device))
    {
      r := Create(host, mem, device, pDesc, 0);
    }

    /** create for an accepted request without a back buffer. */
    static method BuildSingle(host: Host, mem: Memory, device: Device, source: seq<bv32>, flags: bv32) returns (s: Surface)
      requires |source| == DescWords(flags) && Accepted(RequestOf(source), device) && !BackBufferOf(RequestOf(source)).value
      modifies host, mem
      ensures fresh(s) && Record(s, source, flags, device) && s.backBuffer == 0 && s.attached == null
      ensures old(host.top) <= s.pointer < s.memory <= host.top
      ensures host.calls == old(host.calls) + CreateCalls(RequestOf(source), s.pointer, SurfaceAmount(source, device), s.memory)
      ensures mem.bytes == Zeroed(old(mem.bytes), s.memory, SurfaceAmount(source, device))
    {
      var shape, caps;
      s, shape, caps := Start(host, mem, device, source, flags);
      s.desc := s.desc[CapsAt := caps];
      SingleDesc(source, flags, device);
    }

    /** create for an accepted request with one back buffer. */
    static method BuildWithBackBuffer(host: Host, mem: Memory, device: Device, source: seq<bv32>, flags: bv32) returns (s: Surface)
      requires |source| == DescWords(flags) && Accepted(RequestOf(source), device) && BackBufferOf(RequestOf(source)).value
      modifies host, mem
      ensures fresh(s) && Record(s, source, flags, device) && s.attached != null
      ensures old(host.top) <= s.pointer < s.memory
      ensures var child, childSource := s.attached, ChildSource(source, flags, device);
              var amount, childAmount := SurfaceAmount(source, device), SurfaceAmount(childSource, device);
              && fresh(child) && child != s && s.backBuffer == child.pointer
              && Record(child, childSource, flags, device) && child.backBuffer == 0 && child.attached == null
              && s.memory <= child.pointer < child.memory
              && host.calls == old(host.calls) + CreateCalls(RequestOf(source), s.pointer, amount, s.memory)
                                               + CreateCalls(RequestOf(childSource), child.pointer, childAmount, child.memory)
              && mem.bytes == Zeroed(Zeroed(old(mem.bytes), s.memory, amount), child.memory, childAmount)
    {
      var shape, caps;
      s, shape, caps := Start(host, mem, device, source, flags);
      ParentDesc(source, flags, device, s.desc, caps);
      ChildRules(source, flags, device);
      s.AttachBackBuffer(host, mem, device, flags, caps);
    }

    /**
     * The back buffer of create: the recursive create on this surface's
     * description with VISIBLE and COMPLEX cleared (ChildRules shows it takes
     * the path without a back buffer), recorded in this surface, whose
     * description then gains the back-buffer flag, a count of one and,
     * as for every surface, its caps.
     */
    method AttachBackBuffer(host: Host, mem: Memory, device: Device, flags: bv32, caps: bv32)
      requires |desc| == RecordWords
      requires var childSource := BackBufferSource(desc, caps, flags);
               Accepted(RequestOf(childSource), device) && !BackBufferOf(RequestOf(childSource)).value
      requires memory <= host.top
      modifies this`desc, this`backBuffer, this`attached, host, mem
      ensures var hidden := old(desc)[CapsAt := caps & !(DDSCAPS_VISIBLE | DDSCAPS_COMPLEX)];
              desc == hidden[FlagsAt := hidden[FlagsAt] | DDSD_BACKBUFFERCOUNT][BackBufferCountAt := 1][CapsAt := caps]
      ensures var childSource := BackBufferSource(old(desc), caps, flags);
              var childAmount := SurfaceAmount(childSource, device);
              && attached != null && fresh(attached) && attached != this && backBuffer == attached.pointer
              && Record(attached, childSource, flags, device) && attached.backBuffer == 0 && attached.attached == null
              && memory <= attached.pointer < attached.memory
              && host.calls == old(host.calls) + CreateCalls(RequestOf(childSource), attached.pointer, childAmount, attached.memory)
              && mem.bytes == Zeroed(old(mem.bytes), attached.memory, childAmount)
    {
      desc := desc[CapsAt := caps & !(DDSCAPS_VISIBLE | DDSCAPS_COMPLEX)];
      var childSource := desc[..DescWords(flags)];
      var child := BuildSingle(host, mem, device, childSource, flags);
      LinkBackBuffer(child, caps);
    }

    /** After the back buffer is created: its address in this record, the back-buffer flag and count of one, and the caps. */
    method LinkBackBuffer(child: Surface, caps: bv32)
      requires |desc| == RecordWords
      modifies this`desc, this`backBuffer, this`attached
      ensures backBuffer == child.pointer && attached == child
      ensures desc == old(desc)[FlagsAt := old(desc)[FlagsAt] | DDSD_BACKBUFFERCOUNT][BackBufferCountAt := 1][CapsAt := caps]
    {
      backBuffer := child.pointer;
      attached := child;
      desc := desc[FlagsAt := desc[FlagsAt] | DDSD_BACKBUFFERCOUNT];
      desc := desc[BackBufferCountAt := 1];
      desc := desc[CapsAt := caps];
    }

    /**
     * The part of create every accepted request goes through: the record with
     * the copied description, the kind check, the pixels, the description
     * fields and the caps.
     */
    static method Start(host: Host, mem: Memory, device: Device, source: seq<bv32>, flags: bv32) returns (s: Surface, shape: Shape, caps: bv32)
      requires |source| == DescWords(flags) && ShapeOf(RequestOf(source), device).Success?
      modifies host, mem
      ensures ShapeOf(RequestOf(source), device) == Success(shape)
      ensures fresh(s) && old(host.top) <= s.pointer < s.memory <= host.top
      ensures s.desc == Formatted(Padded(source), DescSize(flags), shape.width, shape.height, device.bpp)
      ensures s.flags == 0 && s.palette == 0 && s.dc == 0 && s.image == 0 && s.backBuffer == 0 && s.attached == null
      ensures caps == CapsFor(source, device)
      ensures host.calls == old(host.calls) + CreateCalls(RequestOf(source), s.pointer, SurfaceAmount(source, device), s.memory)
      ensures mem.bytes == Zeroed(old(mem.bytes), s.memory, SurfaceAmount(source, device))
    {
      var pointer := host.AllocateObject(RecordSize);
      s := new Surface(pointer, source);
      var kind := Kind(RequestOf(source), device);
      shape := kind.value;
      caps := s.Fill(host, mem, RequestOf(source), shape, device.bpp, DescSize(flags));
    }

    /**
     * create after the kind check: allocate and clear the pixels, fill in
     * the description and work out the caps.
     */
    method Fill(host: Host, mem: Memory, d: Request, shape: Shape, bpp: bv32, descSize: bv32) returns (caps: bv32)
      requires |desc| == RecordWords
      modifies this`memory, this`desc, host, mem
      ensures 0 < memory && old(host.top) <= memory <= host.top
      ensures desc == Formatted(old(desc), descSize, shape.width, shape.height, bpp)
      ensures caps == FinalCaps(d, shape.caps, bpp)
      ensures host.calls == old(host.calls) + [MemoryCall(d, Amount(shape.width, shape.height, bpp), memory)]
      ensures mem.bytes == Zeroed(old(mem.bytes), memory, Amount(shape.width, shape.height, bpp))
    {
      var amount := Amount(shape.width, shape.height, bpp);
      var withMemory;
      memory, withMemory := Pixels(host, mem, d, amount, shape.caps);
      Describe(descSize, shape.width, shape.height, bpp);
      caps := withMemory;
      if bpp == 8 {
        caps := caps | DDSCAPS_PALETTE;
      }
      CapsInSteps(d, shape.caps, bpp, withMemory, caps);
    }

    /** The kind check of create: the size and caps of a primary or plain offscreen surface; anything else panics. */
    static method Kind(d: Request, device: Device) returns (r: Result<Shape>)
      ensures r == ShapeOf(d, device)
    {
      var caps := d.caps;
      if d.caps & DDSCAPS_PRIMARYSURFACE != 0 {
        caps := caps | DDSCAPS_VIDEOMEMORY;
        caps := caps | DDSCAPS_VISIBLE;
        caps := caps | DDSCAPS_LOCALVIDMEM;
        return Success(Shape(device.width, device.height, caps));
      } else if d.caps & DDSCAPS_OFFSCREENPLAIN != 0 {
        if d.flags & DDSD_WIDTH == 0 {
          return Failure(Panic);
        }
        if d.flags & DDSD_HEIGHT == 0 {
          return Failure(Panic);
        }
        if d.flags & DDSD_BACKBUFFERCOUNT != 0 {
          return Failure(Panic);
        }
        caps := caps & !DDSCAPS_VISIBLE;
        return Success(Shape(d.width, d.height, caps));
      }
      return Failure(Panic);
    }

    /**
     * The pixels of create: mapped video RAM for a primary surface in video
     * memory, heap otherwise, cleared; video memory adds LOCALVIDMEM to the caps.
     */
    static method Pixels(host: Host, mem: Memory, d: Request, amount: int, caps: bv32) returns (memory: int, caps': bv32)
      modifies host, mem
      ensures 0 < memory && old(host.top) <= memory <= host.top
      ensures host.calls == old(host.calls) + [MemoryCall(d, amount, memory)]
      ensures mem.bytes == Zeroed(old(mem.bytes), memory, amount)
      ensures d.caps & DDSCAPS_VIDEOMEMORY != 0 ==> caps' == caps | DDSCAPS_LOCALVIDMEM
      ensures d.caps & DDSCAPS_VIDEOMEMORY == 0 ==> caps' == caps
    {
      caps' := caps;
      if d.caps & DDSCAPS_VIDEOMEMORY != 0 {
        if d.caps & DDSCAPS_PRIMARYSURFACE != 0 {
          memory := host.MapVideoRam(amount);
        } else {
          memory := host.HeapAlloc(amount);
        }
        caps' := caps' | DDSCAPS_LOCALVIDMEM;
      } else {
        memory := host.HeapAlloc(amount);
      }
      mem.Zero(memory, amount);
    }

    /** lock: set the locked bit; while it is set the surface keeps no cached image. */
    method MarkLocked()
      modifies this`flags
      ensures flags == WithLocked(old(flags))
    {
      flags := flags | FLAGS_LOCKED;
    }

    /** unlock: clear the locked bit. */
    method MarkUnlocked()
      modifies this`flags
      ensures flags == WithoutLocked(old(flags))
    {
      flags := flags & !FLAGS_LOCKED;
    }

    /** The palette loop of getImage and GetDC: the attached palette's 256 colours, or none. */
    method ReadPaletteOf(mem: Memory) returns (r: Option<seq<bv32>>)
      ensures r == PaletteOf(mem.bytes, palette)
    {
      r := None;
      if palette != 0 {
        var entries := WS.ReadPalette(mem, palette as int + PaletteColorTable);
        r := Some(entries);
      }
    }

    /** The image getImage decodes from the pixels: the description's depth, width and height, and the palette. */
    function Snapshot(m: Bytes): Result<Pixel.Raster>
      reads this
      requires |desc| == RecordWords
    {
      Pixel.Decode(m, memory, Signed(desc[BitCountAt]), PaletteOf(m, palette), Signed(desc[WidthAt]), Signed(desc[HeightAt]))
    }

    /**
     * getImage: the cached image when there is one (a handle naming no
     * object faults); without one, nothing unless asked to create it, and
     * then the image decoded from the pixels, cached in a new kernel object
     * only while the surface is unlocked (a null image is cached as well); a
     * panic or an uncaught exception in createImage stops before caching.
     */
    method GetImage(sys: WS.WinSystem, mem: Memory, create: bool) returns (r: Result<Option<Pixel.Raster>>)
      requires |desc| == RecordWords && sys.Valid()
      modifies this`image, sys`nextObjectId, sys`objects
      ensures sys.Valid()
      ensures old(image) != 0 ==> r == CachedImage(sys, image) && image == old(image) && unchanged(sys)
      ensures old(image) == 0 && !create ==> r == Success(None) && image == 0 && unchanged(sys)
      ensures old(image) == 0 && create && Pixel.Stops(Snapshot(mem.bytes)) ==>
                r == Failure(Snapshot(mem.bytes).fault) && image == 0 && unchanged(sys)
      ensures old(image) == 0 && create && !Pixel.Stops(Snapshot(mem.bytes)) ==>
                var cached := ImageOf(Snapshot(mem.bytes));
                && r == Success(cached)
                && (IsLocked(flags) ==> image == 0 && unchanged(sys))
                && (!IsLocked(flags) ==> image == old(sys.nextObjectId) && sys.nextObjectId == image + 1
                                         && sys.objects == old(sys.objects)[image := WS.WinObject(image, WS.Generic, None, cached)])
    {
      var index := image;
      if index != 0 {
        return CachedImage(sys, index);
      }
      if !create {
        return Success(None);
      }
      var pal := ReadPaletteOf(mem);
      var made := Pixel.CreateImage(mem.bytes, memory, Signed(desc[BitCountAt]), pal, Signed(desc[WidthAt]), Signed(desc[HeightAt]));
      if Pixel.Stops(made) {
        return Failure(made.fault);
      }
      var cached := ImageOf(made);
      if flags & FLAGS_LOCKED == 0 {
        image := sys.CreateWinObject(cached);
      }
      return Success(cached);
    }

    /**
     * clearImage: with a cached image, empty the slot, then close the
     * kernel object (a handle naming no object faults after the slot is
     * emptied); with none, nothing.
     */
    method ClearImage(sys: WS.WinSystem, host: Host) returns (r: Result<()>)
      modifies this`image, host`calls
      ensures old(image) <= 0 ==> r == Success(()) && image == old(image) && host.calls == old(host.calls)
      ensures old(image) > 0 ==> image == 0
      ensures old(image) > 0 && old(image) in sys.objects ==>
                r == Success(()) && host.calls == old(host.calls) + [CloseObject(old(image))]
      ensures old(image) > 0 && old(image) !in sys.objects ==> r == Failure(NullReference) && host.calls == old(host.calls)
    {
      var index := image;
      if index > 0 {
        image := 0;
        if sys.GetObject(index).None? {
          return Failure(NullReference);
        }
        host.Notify(CloseObject(index));
      }
      return Success(());
    }

    /** Whether an image holds the pixels writeImage reads for the description's width and height. */
    predicate Fits(img: Pixel.Raster)
      reads this
      requires |desc| == RecordWords
    {
      var w, h := Signed(desc[WidthAt]), Signed(desc[HeightAt]);
      w <= 0 || h <= 0 || w * h <= |img.pixels|
    }

    /**
     * saveImage's outcome: writeImage looks at the image's kind first, so a
     * byte image panics and an int image at a depth other than 24 or 32
     * bits stores nothing, whatever their size; an image it stores that is
     * too small for the surface runs off its end.
     */
    function SaveOutcome(img: Pixel.Raster): Result<()>
      reads this
      requires |desc| == RecordWords
    {
      if Pixel.StoredWidth(img.kind, Signed(desc[BitCountAt])) == 0 || Fits(img) then Pixel.WriteOutcome(img.kind)
      else Failure(OutOfBounds)
    }

    /** The memory saveImage leaves: the image stored bottom-up over the pixels at the description's depth. */
    function Saved(m: Bytes, img: Pixel.Raster): Bytes
      reads this
      requires |desc| == RecordWords
    {
      if Pixel.StoredWidth(img.kind, Signed(desc[BitCountAt])) == 0 || Fits(img)
      then Pixel.Encoded(m, memory, img, Signed(desc[BitCountAt]), Signed(desc[WidthAt]), Signed(desc[HeightAt]))
      else m
    }

    /** saveImage: store an image over the pixels, in the surface's depth, width and height. */
    method SaveImage(mem: Memory, img: Pixel.Raster) returns (r: Result<()>)
      requires |desc| == RecordWords
      modifies mem
      ensures r == SaveOutcome(img) && mem.bytes == Saved(old(mem.bytes), img)
    {
      if Pixel.StoredWidth(img.kind, Signed(desc[BitCountAt])) != 0 && !Fits(img) {
        return Failure(OutOfBounds);
      }
      r := Pixel.WriteImage(mem, memory, img, Signed(desc[BitCountAt]), Signed(desc[WidthAt]), Signed(desc[HeightAt]));
    }

    /**
     * The write-back of Lock: getImage without creating, saveImage of the
     * cached image if there is one, then clearImage.
     */
    method FlushImage(sys: WS.WinSystem, host: Host, mem: Memory) returns (r: Result<()>)
      requires |desc| == RecordWords && sys.Valid()
      modifies this`image, host`calls, mem
      ensures old(image) == 0 ==> r == Success(()) && image == 0 && host.calls == old(host.calls) && mem.bytes == old(mem.bytes)
      ensures old(image) != 0 && old(image) !in sys.objects ==>
                r == Failure(NullReference) && image == old(image) && host.calls == old(host.calls) && mem.bytes == old(mem.bytes)
      ensures old(image) != 0 && old(image) in sys.objects ==>
                var data := sys.objects[old(image)].data;
                var saved := if data.Some? then SaveOutcome(data.value) else Success(());
                && mem.bytes == (if data.Some? then Saved(old(mem.bytes), data.value) else old(mem.bytes))
                && (saved.Failure? ==> r == saved && image == old(image) && host.calls == old(host.calls))
                && (saved.Success? ==> r == Success(()) && image == 0 && host.calls == old(host.calls) + [CloseObject(old(image))])
    {
      var cached := CachedImage(sys, image);
      if cached.Failure? {
        return Failure(cached.fault);
      }
      if cached.value.Some? {
        var saved := SaveImage(mem, cached.value.value);
        if saved.Failure? {
          return saved;
        }
      }
      r := ClearImage(sys, host);
    }
  }

  /** The image decoded from the pixels is as large as the surface. */
  lemma SnapshotFits(s: Surface, m: Bytes)
    requires |s.desc| == RecordWords && s.Snapshot(m).Success?
    ensures s.Fits(s.Snapshot(m).value)
  {
    var w, h := Signed(s.desc[WidthAt]), Signed(s.desc[HeightAt]);
    assert |s.Snapshot(m).value.pixels| == w * h;
  }

  /** Saving the image just decoded from the pixels at 16, 24 or 32 bits succeeds. */
  lemma SaveSnapshotSucceeds(s: Surface, m: Bytes)
    requires |s.desc| == RecordWords
    requires var bpp := Signed(s.desc[BitCountAt]); bpp == 16 || bpp == 24 || bpp == 32
    requires s.Snapshot(m).Success?
    ensures s.SaveOutcome(s.Snapshot(m).value) == Success(())
  {
    SnapshotFits(s, m);
  }

  /** The bytes create allocates for the pixels of a request it accepts (none for one it refuses). */
  function SurfaceAmount(source: seq<bv32>, device: Device): int
    requires CapsAt < |source|
  {
    match ShapeOf(RequestOf(source), device)
    case Success(shape) => Amount(shape.width, shape.height, device.bpp)
    case Failure(_) => 0
  }

  /** The record create leaves for an accepted request: its description, and every other field still zero. */
  ghost predicate Record(s: Surface, source: seq<bv32>, flags: bv32, device: Device)
    reads s
  {
    && |source| == DescWords(flags) && Accepted(RequestOf(source), device)
    && s.Valid() && s.desc == BuiltDesc(source, flags, device)
    && s.flags == 0 && s.palette == 0 && s.dc == 0 && s.image == 0
  }

  /** The caps create computes in steps: the shape's, then LOCALVIDMEM with video memory, then PALETTE at 8 bits. */
  lemma CapsInSteps(d: Request, shapeCaps: bv32, bpp: bv32, withMemory: bv32, caps: bv32)
    requires d.caps & DDSCAPS_VIDEOMEMORY != 0 ==> withMemory == shapeCaps | DDSCAPS_LOCALVIDMEM
    requires d.caps & DDSCAPS_VIDEOMEMORY == 0 ==> withMemory == shapeCaps
    requires bpp == 8 ==> caps == withMemory | DDSCAPS_PALETTE
    requires bpp != 8 ==> caps == withMemory
    ensures caps == FinalCaps(d, shapeCaps, bpp)
  {
    if d.caps & DDSCAPS_VIDEOMEMORY != 0 {
      assert withMemory == shapeCaps | DDSCAPS_LOCALVIDMEM;
    } else {
      assert withMemory == shapeCaps;
    }
  }

  /** Without a back buffer the stored description is the formatted one with the final caps. */
  lemma SingleDesc(source: seq<bv32>, flags: bv32, device: Device)
    requires |source| == DescWords(flags) && Accepted(RequestOf(source), device)
    requires !BackBufferOf(RequestOf(source)).value
    ensures var shape := ShapeOf(RequestOf(source), device).value;
            Formatted(Padded(source), DescSize(flags), shape.width, shape.height, device.bpp)[CapsAt := CapsFor(source, device)]
              == BuiltDesc(source, flags, device)
  {
  }

  /**
   * Flagging the back buffer in the description with the caps hidden, then
   * restoring the caps, gives the stored description.
   */
  lemma ParentDesc(source: seq<bv32>, flags: bv32, device: Device, formatted: seq<bv32>, caps: bv32)
    requires |source| == DescWords(flags) && Accepted(RequestOf(source), device)
    requires BackBufferOf(RequestOf(source)).value
    requires var shape := ShapeOf(RequestOf(source), device).value;
             formatted == Formatted(Padded(source), DescSize(flags), shape.width, shape.height, device.bpp)
    requires caps == CapsFor(source, device)
    ensures var hidden := formatted[CapsAt := caps & !(DDSCAPS_VISIBLE | DDSCAPS_COMPLEX)];
            hidden[FlagsAt := hidden[FlagsAt] | DDSD_BACKBUFFERCOUNT][BackBufferCountAt := 1][CapsAt := caps]
              == BuiltDesc(source, flags, device)
  {
    CapsOverwritten(formatted, caps & !(DDSCAPS_VISIBLE | DDSCAPS_COMPLEX), caps, FilledFlags | DDSD_BACKBUFFERCOUNT);
  }

  /** Caps written before the back-buffer fields and again after them leave only the second. */
  lemma CapsOverwritten(desc: seq<bv32>, first: bv32, caps: bv32, descFlags: bv32)
    requires |desc| == RecordWords
    ensures desc[CapsAt := first][FlagsAt := descFlags][BackBufferCountAt := 1][CapsAt := caps]
              == desc[FlagsAt := descFlags][BackBufferCountAt := 1][CapsAt := caps]
  {
  }
}

=== FILE: surface_desc.dfy ===
/**
 * The DirectDraw surface description (DDSURFACEDESC, and DDSURFACEDESC2
 * for the newer interfaces) as a surface record mirrors it, and the rules
 * by which create turns a caller's description into the surface's own.
 * A description is held as its dwords: the field at byte offset k is
 * dword k / 4.
 */
module SurfaceDescription {
  import opened Wrappers
  import opened JavaInt
  import opened HostServices
  import Pixel
  import opened SurfaceFlags

  // DDSCAPS bits the surface engine looks at
  const DDSCAPS_BACKBUFFER: bv32 := 0x0000_0004
  const DDSCAPS_COMPLEX: bv32 := 0x0000_0008
  const DDSCAPS_OFFSCREENPLAIN: bv32 := 0x0000_0040
  const DDSCAPS_PALETTE: bv32 := 0x0000_0100
  const DDSCAPS_PRIMARYSURFACE: bv32 := 0x0000_0200
  const DDSCAPS_VIDEOMEMORY: bv32 := 0x0000_4000
  const DDSCAPS_VISIBLE: bv32 := 0x0000_8000
  const DDSCAPS_LOCALVIDMEM: bv32 := 0x1000_0000

  // DDSURFACEDESC.dwFlags bits
  const DDSD_CAPS: bv32 := 0x0000_0001
  const DDSD_HEIGHT: bv32 := 0x0000_0002
  const DDSD_WIDTH: bv32 := 0x0000_0004
  const DDSD_PITCH: bv32 := 0x0000_0008
  const DDSD_BACKBUFFERCOUNT: bv32 := 0x0000_0020
  const DDSD_PIXELFORMAT: bv32 := 0x0000_1000

  // DDPIXELFORMAT
  const DDPF_PALETTEINDEXED8: bv32 := 0x0000_0020
  const DDPF_RGB: bv32 := 0x0000_0040
  const DDPIXELFORMAT_SIZE: bv32 := 32

  /** The byte sizes of DDSURFACEDESC and DDSURFACEDESC2. */
  const DESC_SIZE: bv32 := 108
  const DESC_SIZE2: bv32 := 124

  /** Dwords in a DDSURFACEDESC2, the room a surface record keeps for its description. */
  const RecordWords: nat := 31

  // dword positions of the fields (byte offset / 4)
  const SizeAt: nat := 0                // 0x00 dwSize
  const FlagsAt: nat := 1               // 0x04 dwFlags
  const HeightAt: nat := 2              // 0x08 dwHeight
  const WidthAt: nat := 3               // 0x0C dwWidth
  const PitchAt: nat := 4               // 0x10 lPitch
  const BackBufferCountAt: nat := 5     // 0x14 dwBackBufferCount
  const SurfaceAt: nat := 9             // 0x24 lpSurface
  const PixelFormatSizeAt: nat := 18    // 0x48 ddpfPixelFormat.dwSize
  const PixelFormatFlagsAt: nat := 19   // 0x4C ddpfPixelFormat.dwFlags
  const BitCountAt: nat := 21           // 0x54 dwRGBBitCount
  const RedMaskAt: nat := 22            // 0x58
  const GreenMaskAt: nat := 23          // 0x5C
  const BlueMaskAt: nat := 24           // 0x60
  const AlphaMaskAt: nat := 25          // 0x64
  const CapsAt: nat := 26               // 0x68 ddsCaps (DDSCAPS2 adds three more dwords)

  /** The description size the create flags select. */
  function DescSize(flags: bv32): (size: bv32)
    ensures size == DESC_SIZE || size == DESC_SIZE2
  {
    if flags & FLAGS_DESC2 != 0 then DESC_SIZE2 else DESC_SIZE
  }

  /** The same size in dwords. */
  function DescWords(flags: bv32): (n: nat)
    ensures n == DescSize(flags) as int / 4 && CapsAt < n <= RecordWords
  {
    if flags & FLAGS_DESC2 != 0 then 31 else 27
  }

  /** The display mode the DirectDraw object reports: width, height and depth, as Java ints. */
  datatype Device = Device(width: bv32, height: bv32, bpp: bv32)

  /** The fields of a caller's description that create acts on. */
  datatype Request = Request(flags: bv32, height: bv32, width: bv32, backBufferCount: bv32, caps: bv32)

  function RequestOf(desc: seq<bv32>): Request
    requires CapsAt < |desc|
  {
    Request(desc[FlagsAt], desc[HeightAt], desc[WidthAt], desc[BackBufferCountAt], desc[CapsAt])
  }

  /** A surface's size and its caps before the memory and depth adjustments. */
  datatype Shape = Shape(width: bv32, height: bv32, caps: bv32)

  /**
   * The kind check of create: a primary surface takes the device's size and
   * is visible in local video memory; a plain offscreen surface needs its
   * width and height, may not ask for back buffers and is never visible;
   * any other request panics.
   */
  function ShapeOf(d: Request, device: Device): Result<Shape>
  {
    if d.caps & DDSCAPS_PRIMARYSURFACE != 0 then
      Success(Shape(device.width, device.height, d.caps | DDSCAPS_VIDEOMEMORY | DDSCAPS_VISIBLE | DDSCAPS_LOCALVIDMEM))
    else if d.caps & DDSCAPS_OFFSCREENPLAIN != 0 then
      if d.flags & DDSD_WIDTH == 0 || d.flags & DDSD_HEIGHT == 0 || d.flags & DDSD_BACKBUFFERCOUNT != 0 then Failure(Panic)
      else Success(Shape(d.width, d.height, d.caps & !DDSCAPS_VISIBLE))
    else Failure(Panic)
  }

  /** The caps create stores: the shape's, with local video memory when video memory was asked for and the palette cap at 8 bits. */
  function FinalCaps(d: Request, shapeCaps: bv32, bpp: bv32): bv32
  {
    if d.caps & DDSCAPS_VIDEOMEMORY != 0 then
      if bpp == 8 then shapeCaps | DDSCAPS_LOCALVIDMEM | DDSCAPS_PALETTE else shapeCaps | DDSCAPS_LOCALVIDMEM
    else if bpp == 8 then shapeCaps | DDSCAPS_PALETTE else shapeCaps
  }

  /** The bits the memory and depth adjustments add. */
  function AddedCaps(d: Request, bpp: bv32): bv32
  {
    if d.caps & DDSCAPS_VIDEOMEMORY != 0 then
      if bpp == 8 then DDSCAPS_LOCALVIDMEM | DDSCAPS_PALETTE else DDSCAPS_LOCALVIDMEM
    else if bpp == 8 then DDSCAPS_PALETTE else 0
  }

  /** The adjustments only add bits: the final caps are the shape's with the added ones. */
  lemma FinalCapsAdded(d: Request, shapeCaps: bv32, bpp: bv32)
    ensures FinalCaps(d, shapeCaps, bpp) == shapeCaps | AddedCaps(d, bpp)
  {
    if d.caps & DDSCAPS_VIDEOMEMORY != 0 {
      if bpp == 8 {
        assert FinalCaps(d, shapeCaps, bpp) == shapeCaps | (DDSCAPS_LOCALVIDMEM | DDSCAPS_PALETTE);
      }
    }
  }

  /** Whether create builds a back buffer: exactly one, and only for a complex surface; other counts panic. */
  function BackBufferOf(d: Request): Result<bool>
  {
    if d.flags & DDSD_BACKBUFFERCOUNT == 0 then Success(false)
    else if d.backBufferCount == 1 && d.caps & DDSCAPS_COMPLEX != 0 then Success(true)
    else Failure(Panic)
  }

  /** create accepts the request without panicking. */
  predicate Accepted(d: Request, device: Device)
  {
    ShapeOf(d, device).Success? && BackBufferOf(d).Success?
  }

  /** The bytes create allocates for the pixels: width * height * bpp / 8 in Java int arithmetic. */
  function Amount(width: bv32, height: bv32, bpp: bv32): int
  {
    Pixel.JavaDiv(Int32(Int32(Signed(width) * Signed(height)) * Signed(bpp)), 8)
  }

  /** Where the pixels come from: mapped video RAM for a primary surface in video memory, the process heap otherwise. */
  function MemoryCall(d: Request, amount: int, address: int): Call
  {
    if d.caps & DDSCAPS_VIDEOMEMORY != 0 && d.caps & DDSCAPS_PRIMARYSURFACE != 0
    then Call.MapVideoRam(amount, address)
    else Call.HeapAlloc(amount, address)
  }

  /** The description dwords a fresh record holds: the copied ones, then zeros. */
  function Padded(copied: seq<bv32>): (r: seq<bv32>)
    requires |copied| <= RecordWords
    ensures |r| == RecordWords && r[..|copied|] == copied
  {
    copied + Zeros(RecordWords - |copied|)
  }

  /** n zero dwords. */
  function Zeros(n: nat): (r: seq<bv32>)
    ensures |r| == n
  {
    if n == 0 then [] else [0] + Zeros(n - 1)
  }

  /** The description flags create fills in. */
  const FilledFlags: bv32 := DDSD_CAPS | DDSD_HEIGHT | DDSD_WIDTH | DDSD_PITCH | DDSD_PIXELFORMAT

  /** The colour masks create stores for a depth: 5-6-5 at 16 bits, 8-8-8 at 24 and 32, plus alpha at 32. */
  function WithMasks(desc: seq<bv32>, bpp: bv32): (r: seq<bv32>)
    requires |desc| == RecordWords
    ensures |r| == RecordWords && r[SizeAt] == desc[SizeAt] && r[FlagsAt] == desc[FlagsAt]
  {
    if bpp == 16 then desc[RedMaskAt := 0xF800][GreenMaskAt := 0x07E0][BlueMaskAt := 0x001F]
    else if bpp == 24 then desc[RedMaskAt := 0xFF_0000][GreenMaskAt := 0x00_FF00][BlueMaskAt := 0x00_00FF]
    else if bpp == 32 then desc[RedMaskAt := 0x00FF_0000][GreenMaskAt := 0x0000_FF00][BlueMaskAt := 0x0000_00FF][AlphaMaskAt := 0xFF00_0000]
    else desc
  }

  /** The pixel-format flags create stores: RGB, palette-indexed at 8 bits. */
  function PixelFormatFlags(bpp: bv32): bv32
  {
    if bpp == 8 then DDPF_RGB | DDPF_PALETTEINDEXED8 else DDPF_RGB
  }

  /**
   * The fields create fills in over a description: size, flags, height,
   * width, the width again as the pitch, and the pixel format.
   */
  function Formatted(desc: seq<bv32>, descSize: bv32, width: bv32, height: bv32, bpp: bv32): (r: seq<bv32>)
    requires |desc| == RecordWords
    ensures |r| == RecordWords && r[SizeAt] == descSize && r[FlagsAt] == FilledFlags
  {
    var filled := desc[SizeAt := descSize][FlagsAt := FilledFlags][HeightAt := height]
                    [WidthAt := width][PitchAt := width][PixelFormatSizeAt := DDPIXELFORMAT_SIZE];
    WithMasks(filled, bpp)[PixelFormatFlagsAt := PixelFormatFlags(bpp)][BitCountAt := bpp]
  }

  /**
   * The description create leaves over the copied one: the formatted
   * fields, the back-buffer flag and count when there is one, and the caps.
   */
  function Described(copied: seq<bv32>, descSize: bv32, width: bv32, height: bv32, bpp: bv32, caps: bv32, backBuffer: bool): (r: seq<bv32>)
    requires |copied| <= RecordWords
    ensures |r| == RecordWords && r[SizeAt] == descSize
  {
    var formatted := Formatted(Padded(copied), descSize, width, height, bpp);
    var counted := if backBuffer then formatted[FlagsAt := FilledFlags | DDSD_BACKBUFFERCOUNT][BackBufferCountAt := 1] else formatted;
    counted[CapsAt := caps]
  }

  /** The fields create writes, read back from the description it leaves. */
  lemma DescribedFields(copied: seq<bv32>, descSize: bv32, width: bv32, height: bv32, bpp: bv32, caps: bv32, backBuffer: bool)
    requires |copied| <= RecordWords
    ensures var r := Described(copied, descSize, width, height, bpp, caps, backBuffer);
            && r[SizeAt] == descSize
            && r[FlagsAt] == (if backBuffer then FilledFlags | DDSD_BACKBUFFERCOUNT else FilledFlags)
            && r[HeightAt] == height && r[WidthAt] == width && r[PitchAt] == width
            && r[PixelFormatSizeAt] == DDPIXELFORMAT_SIZE
            && r[PixelFormatFlagsAt] == PixelFormatFlags(bpp) && r[BitCountAt] == bpp
            && r[CapsAt] == caps
            && (backBuffer ==> r[BackBufferCountAt] == 1)
            && r[RedMaskAt] == WithMasks(Padded(copied), bpp)[RedMaskAt]
            && r[GreenMaskAt] == WithMasks(Padded(copied), bpp)[GreenMaskAt]
            && r[BlueMaskAt] == WithMasks(Padded(copied), bpp)[BlueMaskAt]
            && r[AlphaMaskAt] == WithMasks(Padded(copied), bpp)[AlphaMaskAt]
  {
    FormattedFields(Padded(copied), descSize, width, height, bpp);
  }

  /** The fields Formatted writes, and the masks of the description it starts from. */
  lemma FormattedFields(desc: seq<bv32>, descSize: bv32, width: bv32, height: bv32, bpp: bv32)
    requires |desc| == RecordWords
    ensures var r := Formatted(desc, descSize, width, height, bpp);
            && r[HeightAt] == height && r[WidthAt] == width && r[PitchAt] == width
            && r[PixelFormatSizeAt] == DDPIXELFORMAT_SIZE
            && r[PixelFormatFlagsAt] == PixelFormatFlags(bpp) && r[BitCountAt] == bpp
            && r[RedMaskAt] == WithMasks(desc, bpp)[RedMaskAt]
            && r[GreenMaskAt] == WithMasks(desc, bpp)[GreenMaskAt]
            && r[BlueMaskAt] == WithMasks(desc, bpp)[BlueMaskAt]
            && r[AlphaMaskAt] == WithMasks(desc, bpp)[AlphaMaskAt]
  {
    var filled := desc[SizeAt := descSize][FlagsAt := FilledFlags][HeightAt := height]
                    [WidthAt := width][PitchAt := width][PixelFormatSizeAt := DDPIXELFORMAT_SIZE];
    MasksFrame(desc, filled, bpp);
  }

  /** The masks land in the same dwords whatever the other fields hold. */
  lemma MasksFrame(a: seq<bv32>, b: seq<bv32>, bpp: bv32)
    requires |a| == |b| == RecordWords
    requires forall i :: RedMaskAt <= i <= AlphaMaskAt ==> a[i] == b[i]
    ensures forall i :: RedMaskAt <= i <= AlphaMaskAt ==> WithMasks(a, bpp)[i] == WithMasks(b, bpp)[i]
    ensures forall i :: 0 <= i < RecordWords && !(RedMaskAt <= i <= AlphaMaskAt) ==> WithMasks(b, bpp)[i] == b[i]
  {
  }

  /** The masks for each depth. */
  lemma MaskValues(desc: seq<bv32>, bpp: bv32)
    requires |desc| == RecordWords
    ensures var r := WithMasks(desc, bpp);
            && (bpp == 16 ==> r[RedMaskAt] == 0xF800 && r[GreenMaskAt] == 0x07E0 && r[BlueMaskAt] == 0x001F)
            && (bpp == 24 || bpp == 32 ==> r[RedMaskAt] == 0xFF_0000 && r[GreenMaskAt] == 0x00_FF00 && r[BlueMaskAt] == 0x00_00FF)
            && (bpp == 32 ==> r[AlphaMaskAt] == 0xFF00_0000)
  {
  }

  /** The caps an accepted request ends with. */
  function CapsFor(source: seq<bv32>, device: Device): bv32
    requires CapsAt < |source| && ShapeOf(RequestOf(source), device).Success?
  {
    var d := RequestOf(source);
    FinalCaps(d, ShapeOf(d, device).value.caps, device.bpp)
  }

  /** The description create stores for an accepted request copied from source. */
  function BuiltDesc(source: seq<bv32>, flags: bv32, device: Device): (r: seq<bv32>)
    requires |source| == DescWords(flags) && Accepted(RequestOf(source), device)
    ensures |r| == RecordWords && r[SizeAt] == DescSize(flags)
  {
    var d := RequestOf(source);
    var shape := ShapeOf(d, device).value;
    Described(source, DescSize(flags), shape.width, shape.height, device.bpp, CapsFor(source, device), BackBufferOf(d).value)
  }

  /** The description a back buffer is created from: its parent's formatted description with VISIBLE and COMPLEX cleared from the caps. */
  function BackBufferSource(formatted: seq<bv32>, caps: bv32, flags: bv32): (r: seq<bv32>)
    requires |formatted| == RecordWords
    ensures |r| == DescWords(flags)
  {
    formatted[CapsAt := caps & !(DDSCAPS_VISIBLE | DDSCAPS_COMPLEX)][..DescWords(flags)]
  }

  /** The description the back buffer of an accepted request is created from. */
  function ChildSource(source: seq<bv32>, flags: bv32, device: Device): (r: seq<bv32>)
    requires |source| == DescWords(flags) && Accepted(RequestOf(source), device)
    ensures |r| == DescWords(flags)
  {
    var shape := ShapeOf(RequestOf(source), device).value;
    BackBufferSource(Formatted(Padded(source), DescSize(flags), shape.width, shape.height, device.bpp), CapsFor(source, device), flags)
  }

  /** A request create refuses: neither primary nor offscreen, offscreen without size or with back buffers, or a back buffer it cannot build. */
  lemma Refused(d: Request, device: Device)
    ensures !Accepted(d, device) <==>
      || (d.caps & DDSCAPS_PRIMARYSURFACE == 0 && d.caps & DDSCAPS_OFFSCREENPLAIN == 0)
      || (d.caps & DDSCAPS_PRIMARYSURFACE == 0 &&
          (d.flags & DDSD_WIDTH == 0 || d.flags & DDSD_HEIGHT == 0 || d.flags & DDSD_BACKBUFFERCOUNT != 0))
      || (d.flags & DDSD_BACKBUFFERCOUNT != 0 && (d.backBufferCount != 1 || d.caps & DDSCAPS_COMPLEX == 0))
  {
  }

  /**
   * A primary surface has the device's size and the width again as its
   * pitch; its caps are those PrimaryCaps describes.
   */
  lemma PrimaryRules(source: seq<bv32>, flags: bv32, device: Device)
    requires |source| == DescWords(flags) && Accepted(RequestOf(source), device)
    requires RequestOf(source).caps & DDSCAPS_PRIMARYSURFACE != 0
    ensures var desc := BuiltDesc(source, flags, device);
            && desc[SizeAt] == DescSize(flags)
            && desc[WidthAt] == device.width && desc[HeightAt] == device.height && desc[PitchAt] == device.width
            && desc[CapsAt] == CapsFor(source, device)
  {
    var d := RequestOf(source);
    var shape := ShapeOf(d, device).value;
    DescribedFields(source, DescSize(flags), shape.width, shape.height, device.bpp, CapsFor(source, device), BackBufferOf(d).value);
  }

  /**
   * An offscreen surface asked for its width and height and gets them, and
   * the width again as its pitch; its caps are those OffscreenCaps describes.
   */
  lemma OffscreenRules(source: seq<bv32>, flags: bv32, device: Device)
    requires |source| == DescWords(flags) && Accepted(RequestOf(source), device)
    requires RequestOf(source).caps & DDSCAPS_PRIMARYSURFACE == 0
    ensures var desc := BuiltDesc(source, flags, device);
            var d := RequestOf(source);
            && d.caps & DDSCAPS_OFFSCREENPLAIN != 0
            && d.flags & DDSD_WIDTH != 0 && d.flags & DDSD_HEIGHT != 0
            && desc[SizeAt] == DescSize(flags)
            && desc[WidthAt] == d.width && desc[HeightAt] == d.height && desc[PitchAt] == d.width
            && desc[CapsAt] == CapsFor(source, device)
  {
    var d := RequestOf(source);
    var shape := ShapeOf(d, device).value;
    DescribedFields(source, DescSize(flags), shape.width, shape.height, device.bpp, CapsFor(source, device), BackBufferOf(d).value);
  }

  /** A primary surface keeps every caps bit asked for and is visible in local video memory. */
  lemma PrimaryCaps(d: Request, device: Device)
    requires d.caps & DDSCAPS_PRIMARYSURFACE != 0
    ensures var caps := FinalCaps(d, ShapeOf(d, device).value.caps, device.bpp);
            var all := DDSCAPS_VIDEOMEMORY | DDSCAPS_VISIBLE | DDSCAPS_LOCALVIDMEM;
            caps & d.caps == d.caps && caps & all == all
  {
    FinalCapsAdded(d, ShapeOf(d, device).value.caps, device.bpp);
    KeepsAsked(d.caps, AddedCaps(d, device.bpp));
    KeepsPrimary(d.caps, AddedCaps(d, device.bpp));
  }

  /** An offscreen surface keeps every caps bit asked for except VISIBLE, which it never has. */
  lemma OffscreenCaps(d: Request, device: Device)
    requires d.caps & DDSCAPS_PRIMARYSURFACE == 0 && ShapeOf(d, device).Success?
    ensures var caps := FinalCaps(d, ShapeOf(d, device).value.caps, device.bpp);
            caps & d.caps == d.caps & !DDSCAPS_VISIBLE && caps & DDSCAPS_VISIBLE == 0
  {
    FinalCapsAdded(d, ShapeOf(d, device).value.caps, device.bpp);
    AddedBits(d, device.bpp);
    Hidden(d.caps, AddedCaps(d, device.bpp), DDSCAPS_VISIBLE);
  }

  /** Video memory brings local video memory, and 8 bits the palette cap. */
  lemma CapsAdded(d: Request, device: Device)
    requires ShapeOf(d, device).Success?
    ensures var caps := FinalCaps(d, ShapeOf(d, device).value.caps, device.bpp);
            && (d.caps & DDSCAPS_VIDEOMEMORY != 0 ==> caps & DDSCAPS_LOCALVIDMEM == DDSCAPS_LOCALVIDMEM)
            && (device.bpp == 8 ==> caps & DDSCAPS_PALETTE == DDSCAPS_PALETTE)
  {
    var shapeCaps, k := ShapeOf(d, device).value.caps, AddedCaps(d, device.bpp);
    FinalCapsAdded(d, shapeCaps, device.bpp);
    AddedBits(d, device.bpp);
    if d.caps & DDSCAPS_VIDEOMEMORY != 0 {
      Within(shapeCaps, k, DDSCAPS_LOCALVIDMEM);
    }
    if device.bpp == 8 {
      Within(shapeCaps, k, DDSCAPS_PALETTE);
    }
  }

  /** Which bits the adjustments add: local video memory with video memory, the palette cap at 8 bits, never VISIBLE or COMPLEX. */
  lemma AddedBits(d: Request, bpp: bv32)
    ensures var k := AddedCaps(d, bpp);
            && (d.caps & DDSCAPS_VIDEOMEMORY != 0 ==> k & DDSCAPS_LOCALVIDMEM == DDSCAPS_LOCALVIDMEM)
            && (bpp == 8 ==> k & DDSCAPS_PALETTE == DDSCAPS_PALETTE)
            && k & DDSCAPS_VISIBLE == 0 && k & DDSCAPS_COMPLEX == 0
  {
    var L, P := DDSCAPS_LOCALVIDMEM, DDSCAPS_PALETTE;
    if d.caps & DDSCAPS_VIDEOMEMORY != 0 {
      if bpp == 8 {
        assert AddedCaps(d, bpp) == L | P;
      } else {
        assert AddedCaps(d, bpp) == L;
      }
    } else if bpp == 8 {
      assert AddedCaps(d, bpp) == P;
    } else {
      assert AddedCaps(d, bpp) == 0;
    }
  }

  // Bit facts the caps rules rest on, each over arbitrary words.

  lemma KeepsAsked(x: bv32, k: bv32)
    ensures (x | DDSCAPS_VIDEOMEMORY | DDSCAPS_VISIBLE | DDSCAPS_LOCALVIDMEM | k) & x == x
  {
  }

  lemma KeepsPrimary(x: bv32, k: bv32)
    ensures var all := DDSCAPS_VIDEOMEMORY | DDSCAPS_VISIBLE | DDSCAPS_LOCALVIDMEM;
            (x | DDSCAPS_VIDEOMEMORY | DDSCAPS_VISIBLE | DDSCAPS_LOCALVIDMEM | k) & all == all
  {
  }

  lemma Hidden(x: bv32, k: bv32, v: bv32)
    requires k & v == 0
    ensures ((x & !v) | k) & x == x & !v && ((x & !v) | k) & v == 0
  {
  }

  lemma Within(x: bv32, k: bv32, b: bv32)
    requires k & b == b
    ensures (x | k) & b == b
  {
  }

  lemma Cleared(w: bv32, m: bv32, b: bv32)
    requires b & m == b
    ensures (w & !m) & b == 0
  {
  }

  lemma KeptBit(w: bv32, x: bv32, m: bv32, b: bv32)
    requires w & x == x && x & b != 0 && b & m == 0
    ensures (w & !m) & b != 0
  {
  }

  lemma StaysSimple(x: bv32, k: bv32)
    requires x & DDSCAPS_COMPLEX == 0 && k & DDSCAPS_COMPLEX == 0
    ensures (x | DDSCAPS_VIDEOMEMORY | DDSCAPS_VISIBLE | DDSCAPS_LOCALVIDMEM | k) & DDSCAPS_COMPLEX == 0
  {
  }

  lemma ShownAgain(w: bv32)
    requires w & (DDSCAPS_VIDEOMEMORY | DDSCAPS_VISIBLE | DDSCAPS_LOCALVIDMEM) == DDSCAPS_VIDEOMEMORY | DDSCAPS_VISIBLE | DDSCAPS_LOCALVIDMEM
    ensures w & DDSCAPS_VISIBLE != 0
  {
  }

  /**
   * The pixel format follows the device depth: the bit count, the format
   * size, RGB (palette-indexed at 8 bits, where CapsAdded adds the palette cap), and the
   * colour masks at 16, 24 and 32 bits.
   */
  lemma PixelFormatRules(source: seq<bv32>, flags: bv32, device: Device)
    requires |source| == DescWords(flags) && Accepted(RequestOf(source), device)
    ensures var desc := BuiltDesc(source, flags, device);
            var bpp := device.bpp;
            && desc[BitCountAt] == bpp
            && desc[PixelFormatSizeAt] == 32
            && (bpp == 8 <==> desc[PixelFormatFlagsAt] == DDPF_RGB | DDPF_PALETTEINDEXED8)
            && (bpp != 8 ==> desc[PixelFormatFlagsAt] == DDPF_RGB)
            && (bpp == 16 ==> desc[RedMaskAt] == 0xF800 && desc[GreenMaskAt] == 0x07E0 && desc[BlueMaskAt] == 0x001F)
            && (bpp == 24 || bpp == 32 ==>
                  desc[RedMaskAt] == 0xFF_0000 && desc[GreenMaskAt] == 0x00_FF00 && desc[BlueMaskAt] == 0x00_00FF)
            && (bpp == 32 ==> desc[AlphaMaskAt] == 0xFF00_0000)
  {
    var d := RequestOf(source);
    var shape := ShapeOf(d, device).value;
    DescribedFields(source, DescSize(flags), shape.width, shape.height, device.bpp, CapsFor(source, device), BackBufferOf(d).value);
    MaskValues(Padded(source), device.bpp);
  }

  /** The back buffer: the parent's description gets the back-buffer flag and a count of one. */
  lemma BackBufferRules(source: seq<bv32>, flags: bv32, device: Device)
    requires |source| == DescWords(flags) && Accepted(RequestOf(source), device)
    requires BackBufferOf(RequestOf(source)).value
    ensures var desc := BuiltDesc(source, flags, device);
            desc[FlagsAt] & DDSD_BACKBUFFERCOUNT != 0 && desc[BackBufferCountAt] == 1
  {
    var d := RequestOf(source);
    var shape := ShapeOf(d, device).value;
    DescribedFields(source, DescSize(flags), shape.width, shape.height, device.bpp, CapsFor(source, device), true);
  }

  /** The description the back buffer is built from: the parent's fields, no back-buffer flag, the caps without VISIBLE and COMPLEX. */
  lemma ChildSourceFields(source: seq<bv32>, flags: bv32, device: Device)
    requires |source| == DescWords(flags) && Accepted(RequestOf(source), device)
    ensures var child := ChildSource(source, flags, device);
            child[FlagsAt] == FilledFlags &&
            child[CapsAt] == CapsFor(source, device) & !(DDSCAPS_VISIBLE | DDSCAPS_COMPLEX)
  {
  }

  /**
   * Only a primary surface has a back buffer, and the description the back
   * buffer is built from has no back-buffer flag, is neither VISIBLE nor
   * COMPLEX but still primary, so create accepts it and builds no further
   * back buffer: the recursion stops after one level.
   */
  lemma ChildRules(source: seq<bv32>, flags: bv32, device: Device)
    requires |source| == DescWords(flags) && Accepted(RequestOf(source), device)
    requires BackBufferOf(RequestOf(source)).value
    ensures var c := RequestOf(ChildSource(source, flags, device));
            && RequestOf(source).caps & DDSCAPS_PRIMARYSURFACE != 0
            && c.flags & DDSD_BACKBUFFERCOUNT == 0
            && c.caps & DDSCAPS_VISIBLE == 0 && c.caps & DDSCAPS_COMPLEX == 0
            && c.caps & DDSCAPS_PRIMARYSURFACE != 0
            && Accepted(c, device) && !BackBufferOf(c).value
  {
    var d := RequestOf(source);
    var w := CapsFor(source, device);
    var m := DDSCAPS_VISIBLE | DDSCAPS_COMPLEX;
    ChildSourceFields(source, flags, device);
    PrimaryCaps(d, device);
    Cleared(w, m, DDSCAPS_VISIBLE);
    Cleared(w, m, DDSCAPS_COMPLEX);
    KeptBit(w, d.caps, m, DDSCAPS_PRIMARYSURFACE);
  }

  /** The back buffer's own create makes it VISIBLE again and leaves it without COMPLEX. */
  lemma ChildCaps(source: seq<bv32>, flags: bv32, device: Device)
    requires |source| == DescWords(flags) && Accepted(RequestOf(source), device)
    requires BackBufferOf(RequestOf(source)).value
    ensures var child := ChildSource(source, flags, device);
            RequestOf(child).caps & DDSCAPS_PRIMARYSURFACE != 0 && Accepted(RequestOf(child), device) &&
            var caps := BuiltDesc(child, flags, device)[CapsAt];
            caps & DDSCAPS_VISIBLE != 0 && caps & DDSCAPS_COMPLEX == 0
  {
    ChildRules(source, flags, device);
    var child := ChildSource(source, flags, device);
    var c := RequestOf(child);
    var caps := CapsFor(child, device);
    assert BuiltDesc(child, flags, device)[CapsAt] == caps;
    PrimaryCaps(c, device);
    ShownAgain(caps);
    FinalCapsAdded(c, ShapeOf(c, device).value.caps, device.bpp);
    AddedBits(c, device.bpp);
    StaysSimple(c.caps, AddedCaps(c, device.bpp));
  }
}

=== FILE: surface_flags.dfy ===
/**
 * The surface record's own flag word (OFFSET_FLAGS): which caps and
 * description layout the surface uses, and whether the guest holds it locked.
 */
module SurfaceFlags {

  /** The caps are a DDSCAPS2, the description is a DDSURFACEDESC2, the surface is locked. */
  const FLAGS_CAPS2: bv32 := 0x1
  const FLAGS_DESC2: bv32 := 0x2
  const FLAGS_LOCKED: bv32 := 0x4

  /** isDesc2: the surface's description is a DDSURFACEDESC2. */
  predicate IsDesc2(flags: bv32)
  {
    flags & FLAGS_DESC2 != 0
  }

  /** isCap2: the surface's caps are a DDSCAPS2 (four dwords). */
  predicate IsCap2(flags: bv32)
  {
    flags & FLAGS_CAPS2 != 0
  }

  /** The surface is locked: it keeps no cached image while the guest touches its pixels. */
  predicate IsLocked(flags: bv32)
  {
    flags & FLAGS_LOCKED != 0
  }

  /** lock: the flag word with the locked bit set. */
  function WithLocked(flags: bv32): (r: bv32)
    ensures IsLocked(r)
  {
    flags | FLAGS_LOCKED
  }

  /** unlock: the flag word with the locked bit cleared. */
  function WithoutLocked(flags: bv32): (r: bv32)
    ensures !IsLocked(r)
  {
    flags & !FLAGS_LOCKED
  }

  /** Locking and unlocking touch only the locked bit. */
  lemma LockKeepsOtherBits(flags: bv32)
    ensures WithLocked(flags) & !FLAGS_LOCKED == flags & !FLAGS_LOCKED
    ensures WithoutLocked(flags) & !FLAGS_LOCKED == flags & !FLAGS_LOCKED
  {
  }

  /** Locking and unlocking keep the description format. */
  lemma LockKeepsDesc2(flags: bv32)
    ensures IsDesc2(WithLocked(flags)) == IsDesc2(flags)
    ensures IsDesc2(WithoutLocked(flags)) == IsDesc2(flags)
  {
  }

  /** Locking and unlocking keep the caps format. */
  lemma LockKeepsCap2(flags: bv32)
    ensures IsCap2(WithLocked(flags)) == IsCap2(flags)
    ensures IsCap2(WithoutLocked(flags)) == IsCap2(flags)
  {
  }

  /** Unlocking undoes a lock of an unlocked surface, and locking twice is locking once. */
  lemma LockRoundTrip(flags: bv32)
    ensures !IsLocked(flags) ==> WithoutLocked(WithLocked(flags)) == flags
    ensures WithLocked(WithLocked(flags)) == WithLocked(flags)
    ensures WithoutLocked(WithoutLocked(flags)) == WithoutLocked(flags)
  {
  }
}

=== FILE: surface_handlers.dfy ===
/**
 * The COM methods of IDirectDrawSurface that the emulation implements. Each
 * takes the surface its This pointer names, with the remaining stack
 * arguments as parameters, and returns the HRESULT it leaves in EAX; a
 * fatal condition (a panic, a request it does not implement, a null
 * dereference or a failed cast) is a Failure instead.
 */
module SurfaceHandlers {
  import opened Wrappers
  import opened GuestMemory
  import opened JavaInt
  import opened HostServices
  import opened SurfaceFlags
  import opened SurfaceDescription
  import opened DirectDrawSurface
  import Pixel
  import WS = WinSystem

  /** The Lock flags the emulation stops on. */
  const UnsupportedLockFlags: bv32 := DDLOCK_EVENT | DDLOCK_NOSYSLOCK | DDLOCK_NOOVERWRITE | DDLOCK_DISCARDCONTENTS

  /** Dwords of caps GetCaps hands out: a DDSCAPS2 has four, a DDSCAPS one. */
  function CapsWords(flags: bv32): (n: nat)
    ensures n == (if IsCap2(flags) then 4 else 1)
    ensures CapsAt + n <= RecordWords
  {
    if flags & FLAGS_CAPS2 != 0 then 4 else 1
  }

  /** Casting a handle's object to a device context: no object faults, another class faults. */
  function DCObject(sys: WS.WinSystem, handle: int): (r: Result<()>)
    reads sys
    ensures r.Success? <==> handle in sys.objects && sys.objects[handle].kind.DeviceContext?
    ensures handle !in sys.objects ==> r == Failure(NullReference)
    ensures handle in sys.objects && !sys.objects[handle].kind.DeviceContext? ==> r == Failure(WrongClass)
  {
    match sys.GetObject(handle)
    case None => Failure(NullReference)
    case Some(o) => if o.kind.DeviceContext? then Success(()) else Failure(WrongClass)
  }

  /** The references CleanUp drops: the palette's, then the back buffer's. */
  function ReleaseCalls(palette: bv32, backBuffer: int): (r: seq<Call>)
    ensures |r| <= 2
    ensures Call.Release(palette as int) in r <==> palette != 0
    ensures (backBuffer != 0 ==> Call.Release(backBuffer) in r) && (r != [] ==> palette != 0 || backBuffer != 0)
  {
    (if palette != 0 then [Call.Release(palette as int)] else []) + (if backBuffer != 0 then [Call.Release(backBuffer)] else [])
  }

  /**
   * CleanUp, run when the last reference goes: release the palette and the
   * back buffer, close the device context, and drop the cached image.
   */
  method CleanUp(s: Surface, sys: WS.WinSystem, host: Host) returns (r: Result<()>)
    modifies s`image, host`calls
    ensures var released := old(host.calls) + ReleaseCalls(s.palette, s.backBuffer);
            var dcFault := s.dc != 0 && DCObject(sys, s.dc).Failure?;
            var closed := released + (if s.dc != 0 then [CloseObject(s.dc)] else []);
            && (dcFault ==> r == DCObject(sys, s.dc) && host.calls == released && s.image == old(s.image))
            && (!dcFault && old(s.image) <= 0 ==> r == Success(()) && host.calls == closed && s.image == old(s.image))
            && (!dcFault && old(s.image) > 0 ==> s.image == 0)
            && (!dcFault && old(s.image) > 0 && old(s.image) in sys.objects ==>
                  r == Success(()) && host.calls == closed + [CloseObject(old(s.image))])
            && (!dcFault && old(s.image) > 0 && old(s.image) !in sys.objects ==>
                  r == Failure(NullReference) && host.calls == closed)
  {
    ReleaseReferences(s, host);
    if s.dc != 0 {
      var cast := DCObject(sys, s.dc);
      if cast.Failure? {
        return cast;
      }
      host.Notify(CloseObject(s.dc));
    }
    r := s.ClearImage(sys, host);
  }

  /** CleanUp's releases of the palette and the back buffer. */
  method ReleaseReferences(s: Surface, host: Host)
    modifies host`calls
    ensures host.calls == old(host.calls) + ReleaseCalls(s.palette, s.backBuffer)
  {
    ghost var before := host.calls;
    if s.palette != 0 {
      host.Notify(Call.Release(s.palette as int));
    }
    ghost var afterPalette := host.calls;
    if s.backBuffer != 0 {
      host.Notify(Call.Release(s.backBuffer));
      assert before + ReleaseCalls(s.palette, s.backBuffer) == afterPalette + [Call.Release(s.backBuffer)];
    }
  }

  /**
   * GetAttachedSurface: with both pointers given, the back buffer's pointer
   * for a request for DDSCAPS_BACKBUFFER; any other caps request panics.
   */
  method GetAttachedSurface(s: Surface, mem: Memory, lpDDSCaps: int, lplpDDAttachedSurface: int) returns (r: Result<bv32>)
    modifies mem
    ensures lpDDSCaps == 0 || lplpDDAttachedSurface == 0 ==> r == Success(E_POINTER) && mem.bytes == old(mem.bytes)
    ensures lpDDSCaps != 0 && lplpDDAttachedSurface != 0 && ReadD(old(mem.bytes), lpDDSCaps) == DDSCAPS_BACKBUFFER ==>
              r == Success(S_OK) && mem.bytes == StoreD(old(mem.bytes), lplpDDAttachedSurface, Word(s.backBuffer))
              && ReadD(mem.bytes, lplpDDAttachedSurface) == Word(s.backBuffer)
    ensures lpDDSCaps != 0 && lplpDDAttachedSurface != 0 && ReadD(old(mem.bytes), lpDDSCaps) != DDSCAPS_BACKBUFFER ==>
              r == Failure(Panic) && mem.bytes == old(mem.bytes)
  {
    if lpDDSCaps == 0 || lplpDDAttachedSurface == 0 {
      return Success(E_POINTER);
    }
    var caps := ReadD(mem.bytes, lpDDSCaps);
    if caps != DDSCAPS_BACKBUFFER {
      return Failure(Panic);
    }
    mem.WriteD(lplpDDAttachedSurface, Word(s.backBuffer));
    ReadDAfterStoreD(old(mem.bytes), lplpDDAttachedSurface, Word(s.backBuffer));
    return Success(S_OK);
  }

  /**
   * GetCaps: the stored caps dword, and the three after it for a DDSCAPS2,
   * copied to the caller's structure; a null pointer is refused.
   */
  method GetCaps(s: Surface, mem: Memory, lpDDSCaps: int) returns (hr: bv32)
    requires |s.desc| == RecordWords
    modifies mem
    ensures lpDDSCaps == 0 ==> hr == E_POINTER && mem.bytes == old(mem.bytes)
    ensures lpDDSCaps != 0 ==>
              var caps := s.desc[CapsAt..CapsAt + CapsWords(s.flags)];
              && hr == S_OK
              && mem.bytes == StoreBytes(old(mem.bytes), lpDDSCaps, DwordBytes(caps))
              && DwordsAt(mem.bytes, lpDDSCaps, |caps|) == caps
  {
    if lpDDSCaps == 0 {
      return E_POINTER;
    }
    ghost var m0 := mem.bytes;
    var caps := s.desc[CapsAt..CapsAt + 4];
    assert StoreBytes(m0, lpDDSCaps, DwordBytes(caps[..0])) == m0;
    WriteCapsDword(mem, lpDDSCaps, caps, 0, m0);
    if s.flags & FLAGS_CAPS2 != 0 {
      WriteCapsDword(mem, lpDDSCaps, caps, 1, m0);
      WriteCapsDword(mem, lpDDSCaps, caps, 2, m0);
      WriteCapsDword(mem, lpDDSCaps, caps, 3, m0);
    }
    assert caps[..CapsWords(s.flags)] == s.desc[CapsAt..CapsAt + CapsWords(s.flags)];
    DwordsRoundTrip(m0, lpDDSCaps, caps[..CapsWords(s.flags)]);
    return S_OK;
  }

  /** Dword k of the caps written after the k before it. */
  method WriteCapsDword(mem: Memory, lpDDSCaps: int, caps: seq<bv32>, k: nat, ghost m0: Bytes)
    requires k < |caps| && mem.bytes == StoreBytes(m0, lpDDSCaps, DwordBytes(caps[..k]))
    modifies mem
    ensures mem.bytes == StoreBytes(m0, lpDDSCaps, DwordBytes(caps[..k + 1]))
  {
    mem.WriteD(lpDDSCaps + 4 * k, caps[k]);
    StoreDwordsStep(m0, lpDDSCaps, caps[..k], caps[k]);
    assert caps[..k] + [caps[k]] == caps[..k + 1];
  }

  /**
   * GetDC: the surface's device context, created on first use over the
   * pixels with the surface's width, height and palette, opened again on
   * later calls; the handle goes to the caller and the surface is locked.
   * The cached image is neither written back nor dropped.
   */
  method GetDC(s: Surface, sys: WS.WinSystem, host: Host, mem: Memory, lphDC: int) returns (r: Result<bv32>)
    requires |s.desc| == RecordWords && sys.Valid()
    modifies s`dc, s`flags, sys`nextObjectId, sys`objects, host`calls, mem
    ensures sys.Valid() && s.image == old(s.image)
    ensures lphDC == 0 ==>
              r == Success(DDERR_INVALIDPARAMS) && unchanged(s) && unchanged(sys) && host.calls == old(host.calls) && mem.bytes == old(mem.bytes)
    ensures lphDC != 0 && old(s.dc) == 0 ==>
              && r == Success(S_OK) && s.dc == old(sys.nextObjectId) && sys.nextObjectId == s.dc + 1
              && sys.objects == old(sys.objects)[s.dc := WS.WinObject(s.dc, WS.DeviceContext(WS.DCState(
                   sys.screenBpp, s.memory, Signed(s.desc[WidthAt]), Signed(s.desc[HeightAt]),
                   if s.palette != 0 then PaletteOf(old(mem.bytes), s.palette) else sys.ScreenPaletteOf(old(mem.bytes)))), None, None)]
              && host.calls == old(host.calls)
              && mem.bytes == StoreD(old(mem.bytes), lphDC, Word(s.dc)) && s.flags == WithLocked(old(s.flags))
    ensures lphDC != 0 && old(s.dc) != 0 && DCObject(sys, s.dc).Failure? ==>
              r == Failure(DCObject(sys, s.dc).fault) && unchanged(s) && unchanged(sys) && host.calls == old(host.calls) && mem.bytes == old(mem.bytes)
    ensures lphDC != 0 && old(s.dc) != 0 && DCObject(sys, s.dc).Success? ==>
              && r == Success(S_OK) && s.dc == old(s.dc) && unchanged(sys)
              && host.calls == old(host.calls) + [OpenObject(s.dc)]
              && mem.bytes == StoreD(old(mem.bytes), lphDC, Word(s.dc)) && s.flags == WithLocked(old(s.flags))
  {
    if lphDC == 0 {
      return Success(DDERR_INVALIDPARAMS);
    }
    var hdc := s.dc;
    if hdc == 0 {
      var palette := s.ReadPaletteOf(mem);
      hdc := sys.CreateDC(mem, None, s.memory, Signed(s.desc[WidthAt]), Signed(s.desc[HeightAt]), palette);
      s.dc := hdc;
    } else {
      var cast := DCObject(sys, hdc);
      if cast.Failure? {
        return Failure(cast.fault);
      }
      host.Notify(OpenObject(hdc));
    }
    mem.WriteD(lphDC, Word(hdc));
    s.MarkLocked();
    return Success(S_OK);
  }

  /**
   * ReleaseDC: the surface's own device context is closed and the surface
   * unlocked; any other handle is refused and changes nothing.
   */
  method ReleaseDC(s: Surface, sys: WS.WinSystem, host: Host, hDC: int) returns (r: Result<bv32>)
    modifies s`flags, host`calls
    ensures hDC != s.dc ==> r == Success(DDERR_INVALIDPARAMS) && s.flags == old(s.flags) && host.calls == old(host.calls)
    ensures hDC == s.dc && DCObject(sys, hDC).Failure? ==>
              r == Failure(DCObject(sys, hDC).fault) && s.flags == old(s.flags) && host.calls == old(host.calls)
    ensures hDC == s.dc && DCObject(sys, hDC).Success? ==>
              r == Success(S_OK) && s.flags == WithoutLocked(old(s.flags)) && host.calls == old(host.calls) + [CloseObject(hDC)]
  {
    if hDC != s.dc {
      return Success(DDERR_INVALIDPARAMS);
    }
    var cast := DCObject(sys, hDC);
    if cast.Failure? {
      return Failure(cast.fault);
    }
    host.Notify(CloseObject(hDC));
    s.MarkUnlocked();
    return Success(S_OK);
  }

  /**
   * GetSurfaceDesc: the stored description, exactly as many bytes as its
   * size field says, copied to a caller whose structure claims that size;
   * a null pointer or another size is refused.
   */
  method GetSurfaceDesc(s: Surface, mem: Memory, lpDDSurfaceDesc: int) returns (hr: bv32)
    requires s.Valid()
    modifies mem
    ensures var size := s.desc[SizeAt];
            lpDDSurfaceDesc == 0 || ReadD(old(mem.bytes), lpDDSurfaceDesc) != size ==>
              hr == DDERR_INVALIDPARAMS && mem.bytes == old(mem.bytes)
    ensures var size := s.desc[SizeAt];
            var words := s.desc[..size as int / 4];
            lpDDSurfaceDesc != 0 && ReadD(old(mem.bytes), lpDDSurfaceDesc) == size ==>
              && hr == S_OK && 4 * |words| == size as int
              && mem.bytes == StoreBytes(old(mem.bytes), lpDDSurfaceDesc, DwordBytes(words))
              && DwordsAt(mem.bytes, lpDDSurfaceDesc, |words|) == words
  {
    var size := s.desc[SizeAt];
    if lpDDSurfaceDesc == 0 {
      return DDERR_INVALIDPARAMS;
    }
    if ReadD(mem.bytes, lpDDSurfaceDesc) != size {
      return DDERR_INVALIDPARAMS;
    }
    var words := s.desc[..size as int / 4];
    mem.WriteBytes(lpDDSurfaceDesc, DwordBytes(words));
    DwordsRoundTrip(old(mem.bytes), lpDDSurfaceDesc, words);
    return S_OK;
  }

  /** Lock's copy of the description to the caller, with lpSurface pointing at the pixels. */
  method CopyDescription(s: Surface, mem: Memory, lpDDSurfaceDesc: int)
    requires |s.desc| == RecordWords
    modifies mem
    ensures mem.bytes == LockedBytes(old(mem.bytes), lpDDSurfaceDesc, s.desc, s.flags, s.memory)
  {
    mem.WriteBytes(lpDDSurfaceDesc, DwordBytes(s.desc[..DescWords(s.flags)]));
    mem.WriteD(lpDDSurfaceDesc + SurfacePointerOffset, Word(s.memory));
  }

  /**
   * Lock: refuse the flags the emulation does not implement and a null
   * description; otherwise copy the description out with the pixel
   * address, write any cached image back into the pixels and drop it,
   * and lock the surface.
   */
  method Lock(s: Surface, sys: WS.WinSystem, host: Host, mem: Memory, lpDestRect: int, lpDDSurfaceDesc: int, dwFlags: bv32, hEvent: int)
    returns (r: Result<bv32>)
    requires |s.desc| == RecordWords && sys.Valid()
    modifies s`image, s`flags, host`calls, mem
    ensures dwFlags & UnsupportedLockFlags != 0 ==>
              r == Failure(NotImplemented) && unchanged(s) && host.calls == old(host.calls) && mem.bytes == old(mem.bytes)
    ensures dwFlags & UnsupportedLockFlags == 0 && lpDDSurfaceDesc == 0 ==>
              r == Success(E_POINTER) && unchanged(s) && host.calls == old(host.calls) && mem.bytes == old(mem.bytes)
    ensures dwFlags & UnsupportedLockFlags == 0 && lpDDSurfaceDesc != 0 && old(s.image) == 0 ==>
              && r == Success(S_OK) && s.image == 0 && s.flags == WithLocked(old(s.flags)) && host.calls == old(host.calls)
              && mem.bytes == LockedBytes(old(mem.bytes), lpDDSurfaceDesc, s.desc, old(s.flags), s.memory)
    ensures dwFlags & UnsupportedLockFlags == 0 && lpDDSurfaceDesc != 0 && old(s.image) != 0 && old(s.image) !in sys.objects ==>
              && r == Failure(NullReference) && s.image == old(s.image) && s.flags == old(s.flags) && host.calls == old(host.calls)
              && mem.bytes == LockedBytes(old(mem.bytes), lpDDSurfaceDesc, s.desc, old(s.flags), s.memory)
    ensures dwFlags & UnsupportedLockFlags == 0 && lpDDSurfaceDesc != 0 && old(s.image) != 0 && old(s.image) in sys.objects ==>
              var copied := LockedBytes(old(mem.bytes), lpDDSurfaceDesc, s.desc, old(s.flags), s.memory);
              var data := sys.objects[old(s.image)].data;
              var saved := if data.Some? then s.SaveOutcome(data.value) else Success(());
              && mem.bytes == (if data.Some? then s.Saved(copied, data.value) else copied)
              && (saved.Failure? ==> r == Failure(saved.fault) && s.image == old(s.image) && s.flags == old(s.flags)
                                     && host.calls == old(host.calls))
              && (saved.Success? ==> r == Success(S_OK) && s.image == 0 && s.flags == WithLocked(old(s.flags))
                                     && host.calls == old(host.calls) + [CloseObject(old(s.image))])
  {
    if dwFlags & UnsupportedLockFlags != 0 {
      return Failure(NotImplemented);
    }
    if lpDDSurfaceDesc == 0 {
      return Success(E_POINTER);
    }
    CopyDescription(s, mem, lpDDSurfaceDesc);
    var flushed := s.FlushImage(sys, host, mem);
    if flushed.Failure? {
      return Failure(flushed.fault);
    }
    s.MarkLocked();
    return Success(S_OK);
  }

  /** SetPalette: attach a palette, taking a reference to it; a null palette is refused. */
  method SetPalette(s: Surface, host: Host, lpDDPalette: bv32) returns (hr: bv32)
    modifies s`palette, host`calls
    ensures lpDDPalette == 0 ==> hr == E_POINTER && s.palette == old(s.palette) && host.calls == old(host.calls)
    ensures lpDDPalette != 0 ==>
              hr == S_OK && s.palette == lpDDPalette && host.calls == old(host.calls) + [Call.AddRef(lpDDPalette as int)]
  {
    if lpDDPalette == 0 {
      return E_POINTER;
    }
    host.Notify(Call.AddRef(lpDDPalette as int));
    s.palette := lpDDPalette;
    return S_OK;
  }

  /** Unlock: clear the locked bit, whatever the pointer passed. */
  method Unlock(s: Surface, lpSurfaceData: int) returns (hr: bv32)
    modifies s`flags
    ensures hr == S_OK && s.flags == WithoutLocked(old(s.flags))
  {
    s.MarkUnlocked();
    return S_OK;
  }
}

=== FILE: win_rect.dfy ===
/**
 * A Win32 RECT in guest memory: four little-endian dwords in the order
 * left, top, right, bottom.
 */
module WinRect {
  import opened GuestMemory
  import opened Arithmetic

  /** The four dwords write stores, one after the other. */
  function Stored(m: Bytes, address: int, left: bv32, top: bv32, right: bv32, bottom: bv32): Bytes
  {
    StoreD(StoreD(StoreD(StoreD(m, address, left), address + 4, top), address + 8, right), address + 12, bottom)
  }

  /** Field k (0 = left, 1 = top, 2 = right, 3 = bottom) of a rectangle. */
  function Field(k: int, left: bv32, top: bv32, right: bv32, bottom: bv32): bv32
  {
    if k == 0 then left else if k == 1 then top else if k == 2 then right else bottom
  }

  class WinRect {
    var left: bv32
    var top: bv32
    var right: bv32
    var bottom: bv32

    /** Reads the rectangle at address. */
    constructor (mem: Memory, address: int)
      ensures left == ReadD(mem.bytes, address) && top == ReadD(mem.bytes, address + 4)
      ensures right == ReadD(mem.bytes, address + 8) && bottom == ReadD(mem.bytes, address + 12)
    {
      left := ReadD(mem.bytes, address);
      top := ReadD(mem.bytes, address + 4);
      right := ReadD(mem.bytes, address + 8);
      bottom := ReadD(mem.bytes, address + 12);
    }

    /** Stores a rectangle at address. */
    static method Write(mem: Memory, address: int, left: bv32, top: bv32, right: bv32, bottom: bv32)
      modifies mem
      ensures mem.bytes == Stored(old(mem.bytes), address, left, top, right, bottom)
    {
      mem.WriteD(address, left);
      mem.WriteD(address + 4, top);
      mem.WriteD(address + 8, right);
      mem.WriteD(address + 12, bottom);
    }
  }

  /** Byte j of the 16 bytes write stores is byte j % 4 of field j / 4; every other byte is kept. */
  lemma LoadStored(m: Bytes, address: int, left: bv32, top: bv32, right: bv32, bottom: bv32, a: int)
    ensures Load(Stored(m, address, left, top, right, bottom), a) ==
      if address <= a < address + 16
      then ByteOf(Field((a - address) / 4, left, top, right, bottom), (a - address) % 4)
      else Load(m, a)
  {
    var m1 := StoreD(m, address, left);
    var m2 := StoreD(m1, address + 4, top);
    var m3 := StoreD(m2, address + 8, right);
    LoadAfterStoreD(m3, address + 12, bottom, a);
    LoadAfterStoreD(m2, address + 8, right, a);
    LoadAfterStoreD(m1, address + 4, top, a);
    LoadAfterStoreD(m, address, left, a);
    if address <= a < address + 16 {
      var k := if a < address + 4 then 0 else if a < address + 8 then 1 else if a < address + 12 then 2 else 3;
      DivModUnique(a - address, 4, k, a - address - 4 * k);
    }
  }

  /** write changes only the 16 bytes from address. */
  lemma StoredFrame(m: Bytes, address: int, left: bv32, top: bv32, right: bv32, bottom: bv32, a: int)
    requires a < address || address + 16 <= a
    ensures Load(Stored(m, address, left, top, right, bottom), a) == Load(m, a)
  {
    LoadStored(m, address, left, top, right, bottom, a);
  }

  /** Reading a rectangle back from where write stored it gives the four values written. */
  lemma ReadAfterWrite(m: Bytes, address: int, left: bv32, top: bv32, right: bv32, bottom: bv32)
    ensures var s := Stored(m, address, left, top, right, bottom);
            ReadD(s, address) == left && ReadD(s, address + 4) == top &&
            ReadD(s, address + 8) == right && ReadD(s, address + 12) == bottom
  {
    var m1 := StoreD(m, address, left);
    var m2 := StoreD(m1, address + 4, top);
    var m3 := StoreD(m2, address + 8, right);
    var s := StoreD(m3, address + 12, bottom);
    ReadDAfterStoreD(m3, address + 12, bottom);
    ReadDAfterStoreD(m2, address + 8, right);
    ReadDBesideStoreD(m3, address + 12, bottom, address + 8);
    ReadDAfterStoreD(m1, address + 4, top);
    ReadDBesideStoreD(m2, address + 8, right, address + 4);
    ReadDBesideStoreD(m3, address + 12, bottom, address + 4);
    ReadDAfterStoreD(m, address, left);
    ReadDBesideStoreD(m1, address + 4, top, address);
    ReadDBesideStoreD(m2, address + 8, right, address);
    ReadDBesideStoreD(m3, address + 12, bottom, address);
  }

  /** Writing back the rectangle just read from an address leaves memory as it was. */
  lemma WriteAfterRead(m: Bytes, address: int, a: int)
    ensures Load(Stored(m, address, ReadD(m, address), ReadD(m, address + 4),
                        ReadD(m, address + 8), ReadD(m, address + 12)), a) == Load(m, a)
  {
    var l, t, r, b := ReadD(m, address), ReadD(m, address + 4), ReadD(m, address + 8), ReadD(m, address + 12);
    var m1 := StoreD(m, address, l);
    var m2 := StoreD(m1, address + 4, t);
    var m3 := StoreD(m2, address + 8, r);
    LoadAfterStoreD(m3, address + 12, b, a);
    LoadAfterStoreD(m2, address + 8, r, a);
    LoadAfterStoreD(m1, address + 4, t, a);
    LoadAfterStoreD(m, address, l, a);
    if address <= a < address + 16 {
      var k := if a < address + 4 then 0 else if a < address + 8 then 1 else if a < address + 12 then 2 else 3;
      ByteOfReadD(m, address + 4 * k, a - address - 4 * k);
    }
  }
}

=== FILE: win_system.dfy ===
/**
 * The emulated Windows kernel's global state: the handle table and the name
 * table, the screen mode, the cursor, and the trampoline through which host
 * code calls into guest code.
 */
module WinSystem {
  import opened Wrappers
  import opened GuestMemory
  import opened JavaInt
  import opened HostServices
  import opened Machine
  import Pixel

  /** What a device context draws into: depth, pixel memory, size and palette. */
  datatype DCState = DCState(bpp: int, address: int, width: int, height: int, palette: Option<seq<bv32>>)

  /** The class of a kernel object; the constructor arguments its class keeps are not modelled, except a DC's. */
  datatype ObjectKind =
    | User | WindowClass | Window | Brush | Pen | FileMapping | Event | Region | Midi | Bitmap
    | Generic | WaitObject | DeviceContext(dc: DCState) | Font | Dialog | Palette | Cursor | Icon
    | Mutex | FindFile | Thread | Menu | File

  /** A kernel object: its handle, its class, its own name, and the value attached to its data field. */
  datatype WinObject = WinObject(handle: int, kind: ObjectKind, name: Option<string>, data: Option<Pixel.Raster>)

  /** The first handle start hands out. */
  const FirstHandle: int := 0x2000

  /** The 256 palette entries stored as dwords from address on. */
  function PaletteAt(m: Bytes, address: int): (r: seq<bv32>)
    ensures |r| == 256
    ensures forall i :: 0 <= i < 256 ==> r[i] == ReadD(m, address + 4 * i)
  {
    seq(256, i => ReadD(m, address + 4 * i))
  }

  /** The palette loop: reads the 256 entries one dword at a time. */
  method ReadPalette(mem: Memory, address: int) returns (r: seq<bv32>)
    ensures r == PaletteAt(mem.bytes, address)
  {
    r := [];
    var i := 0;
    while i < 256
      invariant 0 <= i <= 256 && |r| == i
      invariant forall k :: 0 <= k < i ==> r[k] == ReadD(mem.bytes, address + 4 * k)
    {
      r := r + [ReadD(mem.bytes, address + 4 * i)];
      i := i + 1;
    }
    assert r == PaletteAt(mem.bytes, address);
  }

  /** The stack after pushing vals[|vals| - 1] first and vals[0] last below top: vals[i] lies at top - 4 * |vals| + 4 * i. */
  function Pushed(m: Bytes, top: int, vals: seq<bv32>): Bytes
    decreases |vals|
  {
    if vals == [] then m else StoreD(Pushed(m, top, vals[1..]), top - 4 * |vals|, vals[0])
  }

  /** The pushed dwords read back in order, and memory outside them is untouched. */
  lemma {:induction false} PushedLayout(m: Bytes, top: int, vals: seq<bv32>)
    ensures forall i :: 0 <= i < |vals| ==> ReadD(Pushed(m, top, vals), top - 4 * |vals| + 4 * i) == vals[i]
    ensures forall a :: a < top - 4 * |vals| || top <= a ==> Load(Pushed(m, top, vals), a) == Load(m, a)
    decreases |vals|
  {
    if vals != [] {
      var rest := Pushed(m, top, vals[1..]);
      var bottom := top - 4 * |vals|;
      PushedLayout(m, top, vals[1..]);
      ReadDAfterStoreD(rest, bottom, vals[0]);
      forall i | 1 <= i < |vals|
        ensures ReadD(Pushed(m, top, vals), bottom + 4 * i) == vals[i]
      {
        ReadDBesideStoreD(rest, bottom, vals[0], bottom + 4 * i);
        assert vals[1..][i - 1] == vals[i];
      }
      forall a | a < bottom || top <= a
        ensures Load(Pushed(m, top, vals), a) == Load(m, a)
      {
        LoadAfterStoreD(rest, bottom, vals[0], a);
      }
    }
  }

  /** One more push extends the pushed frame at its low end. */
  lemma PushedStep(m: Bytes, top: int, v: bv32, vals: seq<bv32>)
    ensures Pushed(m, top, [v] + vals) == StoreD(Pushed(m, top, vals), top - 4 * |vals| - 4, v)
  {
    assert ([v] + vals)[1..] == vals;
  }

  /** How many of param1 .. param4 internalCall pushes. */
  function PushedCount(paramCount: int): (k: nat)
    ensures k <= 4
  {
    if paramCount >= 4 then 4 else if paramCount <= 0 then 0 else paramCount
  }

  class WinSystem {
    var nextObjectId: int
    var objects: map<int, WinObject>
    var namedObjects: map<string, WinObject>
    var user: int
    var desktop: int
    var screenWidth: int
    var screenHeight: int
    var screenBpp: int
    var screenAddress: int
    var screenPalette: int
    var cursor: int
    var showCursorCount: int
    var returnEip: bv32

    /**
     * Every handle in the table was issued before the counter's current
     * value and names its own object; every named object is that object of
     * the handle table.
     */
    ghost predicate Valid()
      reads this
    {
      && FirstHandle <= nextObjectId
      && (forall h :: h in objects ==> FirstHandle <= h < nextObjectId && objects[h].handle == h)
      && (forall n :: n in namedObjects ==> namedObjects[n].handle in objects && objects[namedObjects[n].handle] == namedObjects[n])
    }

    /**
     * start, after the fields' initial values: handles from 0x2000, empty
     * tables, a 640x480 screen at 32 bits, then the user object, the
     * desktop window class and the desktop window.
     */
    constructor Start(host: Host)
      modifies host
      ensures Valid()
      ensures nextObjectId == FirstHandle + 3 && user == FirstHandle && desktop == FirstHandle + 2
      ensures objects == map[FirstHandle := WinObject(FirstHandle, User, None, None),
                             FirstHandle + 1 := WinObject(FirstHandle + 1, WindowClass, Some("Desktop"), None),
                             FirstHandle + 2 := WinObject(FirstHandle + 2, Window, Some("Desktop"), None)]
      ensures namedObjects == map[]
      ensures screenWidth == 640 && screenHeight == 480 && screenBpp == 32
      ensures screenAddress == 0 && screenPalette == 0 && returnEip == 0
      ensures cursor == 0 && showCursorCount == 0
      ensures host.calls == old(host.calls) + [GfxSetSize(640, 480)]
    {
      screenWidth, screenHeight, screenBpp := 640, 480, 32;
      screenAddress, screenPalette, returnEip := 0, 0, 0;
      cursor, showCursorCount := 0, 0;
      namedObjects := map[];
      host.Notify(GfxSetSize(640, 480));
      // the user object, createClass's window class, renamed "Desktop", and the desktop window
      user := FirstHandle;
      var winClass := FirstHandle + 1;
      desktop := FirstHandle + 2;
      objects := map[user := WinObject(user, User, None, None),
                     winClass := WinObject(winClass, WindowClass, Some("Desktop"), None),
                     desktop := WinObject(desktop, Window, Some("Desktop"), None)];
      nextObjectId := FirstHandle + 3;
    }

    /** `new WinK(nextObjectId++, …)`: the object gets the counter's value as its handle and joins the table. */
    method Create(kind: ObjectKind, name: Option<string>) returns (h: int)
      requires Valid()
      modifies this`nextObjectId, this`objects
      ensures Valid()
      ensures h == old(nextObjectId) && nextObjectId == h + 1
      ensures h !in old(objects) && forall k :: k in old(objects) ==> k < h
      ensures objects == old(objects)[h := WinObject(h, kind, name, None)]
    {
      h := nextObjectId;
      nextObjectId := nextObjectId + 1;
      objects := objects[h := WinObject(h, kind, name, None)];
    }

    /** getObject: the object with this handle, or none; an unknown handle is not an error. */
    function GetObject(handle: int): (r: Option<WinObject>)
      reads this
      ensures r.Some? <==> handle in objects
      ensures r.Some? ==> r.value == objects[handle]
    {
      if handle in objects then Some(objects[handle]) else None
    }

    /** getNamedObject: the object registered under this name, or none. */
    function GetNamedObject(name: string): (r: Option<WinObject>)
      reads this
      ensures r.Some? <==> name in namedObjects
      ensures r.Some? ==> r.value == namedObjects[name]
    {
      if name in namedObjects then Some(namedObjects[name]) else None
    }

    /** createEvent: a named event is also registered under its name. */
    method CreateEvent(name: Option<string>, manualReset: bool, initialState: bool) returns (h: int)
      requires Valid()
      modifies this`nextObjectId, this`objects, this`namedObjects
      ensures Valid()
      ensures h == old(nextObjectId) && nextObjectId == h + 1 && h !in old(objects)
      ensures objects == old(objects)[h := WinObject(h, Event, name, None)]
      ensures namedObjects == if name.Some? then old(namedObjects)[name.value := objects[h]] else old(namedObjects)
      ensures name.Some? ==> GetNamedObject(name.value) == GetObject(h)
    {
      h := Create(Event, name);
      if name.Some? {
        namedObjects := namedObjects[name.value := objects[h]];
      }
    }

    /** createFileMapping: a named mapping is also registered under its name. */
    method CreateFileMapping(hFile: int, name: Option<string>, size: int) returns (h: int)
      requires Valid()
      modifies this`nextObjectId, this`objects, this`namedObjects
      ensures Valid()
      ensures h == old(nextObjectId) && nextObjectId == h + 1 && h !in old(objects)
      ensures objects == old(objects)[h := WinObject(h, FileMapping, name, None)]
      ensures namedObjects == if name.Some? then old(namedObjects)[name.value := objects[h]] else old(namedObjects)
      ensures name.Some? ==> GetNamedObject(name.value) == GetObject(h)
    {
      h := Create(FileMapping, name);
      if name.Some? {
        namedObjects := namedObjects[name.value := objects[h]];
      }
    }

    /** createMutext: the mutex keeps its name but is not registered under it. */
    method CreateMutex(name: Option<string>) returns (h: int)
      requires Valid()
      modifies this`nextObjectId, this`objects
      ensures Valid()
      ensures h == old(nextObjectId) && nextObjectId == h + 1 && h !in old(objects)
      ensures objects == old(objects)[h := WinObject(h, Mutex, name, None)]
    {
      h := Create(Mutex, name);
    }

    /** createWinObject followed by setting the new object's data field, as the surface image cache does. */
    method CreateWinObject(data: Option<Pixel.Raster>) returns (h: int)
      requires Valid()
      modifies this`nextObjectId, this`objects
      ensures Valid()
      ensures h == old(nextObjectId) && nextObjectId == h + 1 && h !in old(objects)
      ensures objects == old(objects)[h := WinObject(h, Generic, None, data)]
    {
      h := Create(Generic, None);
      objects := objects[h := objects[h].(data := data)];
    }

    /** The palette getScreenPalette returns: none until a screen palette address is set. */
    function ScreenPaletteOf(m: Bytes): Option<seq<bv32>>
      reads this
    {
      if screenPalette == 0 then None else Some(PaletteAt(m, screenPalette))
    }

    /** getScreenPalette: none until a screen palette address is set, then its 256 entries. */
    method ScreenPalette(mem: Memory) returns (r: Option<seq<bv32>>)
      ensures r == ScreenPaletteOf(mem.bytes)
      ensures r.Some? ==> |r.value| == 256 && forall i :: 0 <= i < 256 ==> r.value[i] == ReadD(mem.bytes, screenPalette + 4 * i)
    {
      if screenPalette == 0 {
        return None;
      }
      var entries := ReadPalette(mem, screenPalette);
      r := Some(entries);
    }

    /** createDC: the depth and palette default to the screen's, and a given DC overrides both. */
    method CreateDC(mem: Memory, dc: Option<DCState>, address: int, width: int, height: int, palette: Option<seq<bv32>>)
      returns (h: int)
      requires Valid()
      modifies this`nextObjectId, this`objects
      ensures Valid()
      ensures h == old(nextObjectId) && nextObjectId == h + 1 && h !in old(objects)
      ensures objects == old(objects)[h := WinObject(h, DeviceContext(DCState(
                if dc.Some? then dc.value.bpp else screenBpp, address, width, height,
                if dc.Some? then dc.value.palette else if palette.Some? then palette else ScreenPaletteOf(mem.bytes))),
                None, None)]
    {
      var bpp := screenBpp;
      var pal := palette;
      if pal.None? {
        pal := ScreenPalette(mem);
      }
      if dc.Some? {
        bpp := dc.value.bpp;
        pal := dc.value.palette;
      }
      h := Create(DeviceContext(DCState(bpp, address, width, height, pal)), None);
    }

    /** setScreenSize: a new mode replaces all three values and unmaps the screen if it was mapped. */
    method SetScreenSize(host: Host, width: int, height: int, bpp: int)
      modifies this`screenWidth, this`screenHeight, this`screenBpp, this`screenAddress, host`calls
      ensures if width == old(screenWidth) && height == old(screenHeight) && bpp == old(screenBpp)
              then screenAddress == old(screenAddress) && host.calls == old(host.calls)
              else if old(screenAddress) != 0
              then screenAddress == 0 && host.calls == old(host.calls) + [UnmapVideoRam(old(screenAddress))]
              else screenAddress == 0 && host.calls == old(host.calls)
      ensures screenWidth == width && screenHeight == height && screenBpp == bpp
    {
      if width != screenWidth || height != screenHeight || screenBpp != bpp {
        screenBpp := bpp;
        screenHeight := height;
        screenWidth := width;
        if screenAddress != 0 {
          host.Notify(UnmapVideoRam(screenAddress));
          screenAddress := 0;
        }
      }
    }

    /** The size getScreenAddress maps: the pitch of a screen row times the screen width, as a Java int. */
    function ScreenBytes(): int
      reads this
    {
      Int32(Pixel.GetPitch(screenWidth, screenBpp) * screenWidth)
    }

    /** getScreenAddress: maps the screen on first use and returns the same address until the mode changes. */
    method GetScreenAddress(host: Host) returns (r: int)
      modifies this`screenAddress, host
      ensures r == screenAddress && r != 0
      ensures old(screenAddress) != 0 ==> r == old(screenAddress) && host.calls == old(host.calls) && host.top == old(host.top)
      ensures old(screenAddress) == 0 ==> host.calls == old(host.calls) + [MapVideoRam(ScreenBytes(), r)] && old(host.top) <= r
    {
      if screenAddress == 0 {
        screenAddress := host.MapVideoRam(ScreenBytes());
      }
      r := screenAddress;
    }

    /** The GUI cursor call setCursor makes when it accepts hCursor at the current show count. */
    function CursorCalls(hCursor: int): seq<Call>
      reads this
    {
      if hCursor == 0 then [GfxSetCursor(None)]
      else if hCursor in objects && objects[hCursor].kind == Cursor && showCursorCount >= 0 then [GfxSetCursor(Some(hCursor))]
      else []
    }

    /** setCursor: 0 hides the cursor; a cursor object's handle selects it; anything else changes nothing and gives 0. */
    method SetCursor(host: Host, hCursor: int) returns (previous: int)
      modifies this`cursor, host`calls
      ensures var accepted := hCursor == 0 || (hCursor in objects && objects[hCursor].kind == Cursor);
              && previous == (if accepted then old(cursor) else 0)
              && cursor == (if accepted then hCursor else old(cursor))
              && host.calls == old(host.calls) + CursorCalls(hCursor)
    {
      if hCursor == 0 {
        previous := cursor;
        cursor := hCursor;
        host.Notify(GfxSetCursor(None));
      } else {
        var found := GetObject(hCursor);
        if found.Some? && found.value.kind == Cursor {
          previous := cursor;
          cursor := hCursor;
          if showCursorCount >= 0 {
            host.Notify(GfxSetCursor(Some(hCursor)));
          }
        } else {
          previous := 0;
        }
      }
    }

    /**
     * showCursor: the count moves by one and is returned; reaching 0 shows
     * the current cursor again, reaching -1 hides it. The selected cursor
     * never changes.
     */
    method ShowCursor(host: Host, show: bool) returns (count: int)
      modifies this`showCursorCount, this`cursor, host`calls
      ensures count == showCursorCount == old(showCursorCount) + (if show then 1 else -1)
      ensures cursor == old(cursor)
      ensures host.calls == old(host.calls) +
        (if show && count == 0 then CursorCalls(cursor)
         else if !show && count == -1 then [GfxSetCursor(None)]
         else [])
    {
      if show {
        showCursorCount := showCursorCount + 1;
        if showCursorCount == 0 {
          var _ := SetCursor(host, cursor);
        }
      } else {
        showCursorCount := showCursorCount - 1;
        if showCursorCount == -1 {
          host.Notify(GfxSetCursor(None));
        }
      }
      count := showCursorCount;
    }

    /**
     * internalCall: registers the return stub on first use, pushes the
     * first paramCount parameters (the last one first) and the stub's
     * address, enters the guest at eip, and afterwards puts EIP and ESP back
     * whatever the guest did with them.
     */
    method InternalCall(cpu: Cpu, mem: Memory, host: Host, eip: bv32, paramCount: int,
                        param1: bv32, param2: bv32, param3: bv32, param4: bv32)
      requires Valid()
      modifies this`returnEip, this`nextObjectId, this`objects, this`namedObjects, this`screenWidth, this`screenHeight,
               this`screenBpp, this`screenAddress, this`screenPalette, this`cursor, this`showCursorCount, cpu, mem, host
      ensures Valid() && old(nextObjectId) <= nextObjectId
      ensures forall h :: h in objects && h < old(nextObjectId) ==> h in old(objects)
      ensures cpu.eip == old(cpu.eip) && cpu.esp == old(cpu.esp)
      ensures old(returnEip) != 0 ==> returnEip == old(returnEip) && old(host.calls) <= host.calls
      ensures old(returnEip) == 0 ==> old(host.calls) + [RegisterReturnStub(returnEip)] <= host.calls
      ensures var frame := [returnEip] + [param1, param2, param3, param4][..PushedCount(paramCount)];
              cpu.entries == old(cpu.entries) +
                [Entry(eip, old(cpu.esp) - 4 * |frame|, Pushed(old(mem.bytes), old(cpu.esp), frame))]
    {
      if returnEip == 0 {
        returnEip := host.RegisterReturnStub();
      }
      var oldEsp := cpu.esp;
      ghost var m0 := mem.bytes;
      ghost var params := [param1, param2, param3, param4][..PushedCount(paramCount)];
      PushParameters(cpu, mem, paramCount, param1, param2, param3, param4);
      PushedStep(m0, oldEsp, returnEip, params);
      cpu.Push32(mem, returnEip);
      ghost var entry := Entry(eip, oldEsp - 4 * |params| - 4, Pushed(m0, oldEsp, [returnEip] + params));
      var saveEip := cpu.eip;
      cpu.eip := eip;
      cpu.RunMachine(mem);
      GuestCallbacks(host);
      assert cpu.entries == old(cpu.entries) + [entry];
      cpu.eip := saveEip;
      cpu.esp := oldEsp;
    }

    /**
     * What the guest may do to the window system while it runs: it calls
     * back into the Win32 layer, which issues and drops handles, changes
     * the screen mode and the cursor, and makes host calls. The table
     * invariant holds throughout, handles come only from the counter (so no
     * handle below it that is free gets bound), and host calls are only added.
     */
    method GuestCallbacks(host: Host)
      requires Valid()
      modifies this`nextObjectId, this`objects, this`namedObjects, this`screenWidth, this`screenHeight,
               this`screenBpp, this`screenAddress, this`screenPalette, this`cursor, this`showCursorCount, host
      ensures Valid() && old(nextObjectId) <= nextObjectId
      ensures forall h :: h in objects && h < old(nextObjectId) ==> h in old(objects)
      ensures old(host.calls) <= host.calls && old(host.top) <= host.top
    {
      var counter: int := *;
      if counter < nextObjectId {
        counter := nextObjectId;
      }
      var table: map<int, WinObject> := *;
      var names: map<string, WinObject> := *;
      objects := Issued(table, objects, nextObjectId, counter);
      namedObjects := Registered(names, objects);
      nextObjectId := counter;
      screenWidth, screenHeight, screenBpp, screenAddress, screenPalette := *, *, *, *, *;
      cursor, showCursorCount := *, *;
      var made: seq<Call> := *;
      host.calls := host.calls + made;
      var top: int := *;
      if top > host.top {
        host.top := top;
      }
    }

    /** call(eip, param1, param2, param3, param4). */
    method Call4(cpu: Cpu, mem: Memory, host: Host, eip: bv32, param1: bv32, param2: bv32, param3: bv32, param4: bv32)
      requires Valid()
      modifies this`returnEip, this`nextObjectId, this`objects, this`namedObjects, this`screenWidth, this`screenHeight,
               this`screenBpp, this`screenAddress, this`screenPalette, this`cursor, this`showCursorCount, cpu, mem, host
      ensures Valid() && old(nextObjectId) <= nextObjectId
      ensures forall h :: h in objects && h < old(nextObjectId) ==> h in old(objects)
      ensures old(returnEip) != 0 ==> returnEip == old(returnEip) && old(host.calls) <= host.calls
      ensures old(returnEip) == 0 ==> old(host.calls) + [RegisterReturnStub(returnEip)] <= host.calls
      ensures cpu.eip == old(cpu.eip) && cpu.esp == old(cpu.esp)
      ensures var frame := [returnEip, param1, param2, param3, param4];
              cpu.entries == old(cpu.entries) + [Entry(eip, old(cpu.esp) - 20, Pushed(old(mem.bytes), old(cpu.esp), frame))]
    {
      InternalCall(cpu, mem, host, eip, 4, param1, param2, param3, param4);
      assert [returnEip] + [param1, param2, param3, param4][..PushedCount(4)] == [returnEip, param1, param2, param3, param4];
    }

    /** call(eip, param1, param2). */
    method Call2(cpu: Cpu, mem: Memory, host: Host, eip: bv32, param1: bv32, param2: bv32)
      requires Valid()
      modifies this`returnEip, this`nextObjectId, this`objects, this`namedObjects, this`screenWidth, this`screenHeight,
               this`screenBpp, this`screenAddress, this`screenPalette, this`cursor, this`showCursorCount, cpu, mem, host
      ensures Valid() && old(nextObjectId) <= nextObjectId
      ensures forall h :: h in objects && h < old(nextObjectId) ==> h in old(objects)
      ensures old(returnEip) != 0 ==> returnEip == old(returnEip) && old(host.calls) <= host.calls
      ensures old(returnEip) == 0 ==> old(host.calls) + [RegisterReturnStub(returnEip)] <= host.calls
      ensures cpu.eip == old(cpu.eip) && cpu.esp == old(cpu.esp)
      ensures var frame := [returnEip, param1, param2];
              cpu.entries == old(cpu.entries) + [Entry(eip, old(cpu.esp) - 12, Pushed(old(mem.bytes), old(cpu.esp), frame))]
    {
      InternalCall(cpu, mem, host, eip, 2, param1, param2, 0, 0);
      assert [returnEip] + [param1, param2, 0, 0][..PushedCount(2)] == [returnEip, param1, param2];
    }
  }

  /**
   * The entries of a table that can follow the handle table before: every
   * handle is below the new counter, and one below the old counter was
   * already issued then.
   */
  function Issued(table: map<int, WinObject>, before: map<int, WinObject>, from: int, counter: int): (r: map<int, WinObject>)
    ensures forall h :: h in r ==> FirstHandle <= h < counter && r[h].handle == h && (h in before || from <= h)
  {
    map h | h in table && FirstHandle <= h < counter && table[h].handle == h && (h in before || from <= h) :: table[h]
  }

  /** The entries of a name table that name objects of the handle table. */
  function Registered(names: map<string, WinObject>, objects: map<int, WinObject>): (r: map<string, WinObject>)
    ensures forall n :: n in r ==> r[n].handle in objects && objects[r[n].handle] == r[n]
  {
    map n | n in names && names[n].handle in objects && objects[names[n].handle] == names[n] :: names[n]
  }

  /** The parameter pushes of internalCall: param4 first if paramCount >= 4, down to param1 if paramCount >= 1. */
  method PushParameters(cpu: Cpu, mem: Memory, paramCount: int, param1: bv32, param2: bv32, param3: bv32, param4: bv32)
    modifies cpu`esp, mem
    ensures cpu.esp == old(cpu.esp) - 4 * PushedCount(paramCount)
    ensures mem.bytes == Pushed(old(mem.bytes), old(cpu.esp), [param1, param2, param3, param4][..PushedCount(paramCount)])
  {
    ghost var top, m0 := cpu.esp, mem.bytes;
    ghost var all, n := [param1, param2, param3, param4], PushedCount(paramCount);
    PushIf(cpu, mem, paramCount >= 4, param4, m0, top, Suffix(all, n, 4));
    SuffixStep(all, paramCount, 4);
    PushIf(cpu, mem, paramCount >= 3, param3, m0, top, Suffix(all, n, 3));
    SuffixStep(all, paramCount, 3);
    PushIf(cpu, mem, paramCount >= 2, param2, m0, top, Suffix(all, n, 2));
    SuffixStep(all, paramCount, 2);
    PushIf(cpu, mem, paramCount >= 1, param1, m0, top, Suffix(all, n, 1));
    SuffixStep(all, paramCount, 1);
  }

  /** One guarded push of internalCall, on top of the dwords rest already pushed below top. */
  method PushIf(cpu: Cpu, mem: Memory, push: bool, v: bv32, ghost m0: Bytes, ghost top: int, ghost rest: seq<bv32>)
    requires mem.bytes == Pushed(m0, top, rest) && cpu.esp == top - 4 * |rest|
    modifies cpu`esp, mem
    ensures var now := if push then [v] + rest else rest;
            mem.bytes == Pushed(m0, top, now) && cpu.esp == top - 4 * |now|
  {
    if push {
      PushedStep(m0, top, v, rest);
      cpu.Push32(mem, v);
    }
  }

  /** The parameters from number k + 1 on that paramCount selects. */
  ghost function Suffix(all: seq<bv32>, n: nat, k: nat): seq<bv32>
    requires n <= |all|
  {
    all[(if n < k then n else k)..n]
  }

  /** Pushing parameter k when paramCount asks for it extends the suffix from k + 1 to the one from k. */
  lemma SuffixStep(all: seq<bv32>, paramCount: int, k: nat)
    requires |all| == 4 && 1 <= k <= 4
    ensures var n := PushedCount(paramCount);
            (if paramCount >= k then [all[k - 1]] + Suffix(all, n, k) else Suffix(all, n, k)) == Suffix(all, n, k - 1)
  {
    var n := PushedCount(paramCount);
    if paramCount >= k {
      assert [all[k - 1]] + all[k..n] == all[k - 1..n];
    }
  }

  /**
   * On entry to the guest, the dword at ESP is the return stub's address and
   * the pushed parameters follow it in order, param1 nearest.
   */
  lemma EntryStack(m: Bytes, esp: int, frame: seq<bv32>, i: int)
    requires 0 <= i < |frame|
    ensures ReadD(Pushed(m, esp, frame), esp - 4 * |frame| + 4 * i) == frame[i]
  {
    PushedLayout(m, esp, frame);
  }
}

=== FILE: wrappers.dfy ===
/** Outcomes shared by the whole model. */
module Wrappers {

  datatype Option<T> = None | Some(value: T)

  /** Why an operation stopped instead of producing a value. */
  datatype Fault =
    | Panic            // Win.panic: the emulator reports the condition and halts
    | NotImplemented   // Console.notImplemented: an unsupported request, fatal as well
    | NullReference    // a handle that names no object is dereferenced
    | InvalidRaster    // the image library refuses the raster inside a try block, which then yields a null image
    | Thrown           // a Java exception thrown where nothing catches it: the operation stops
    | OutOfBounds      // an array index past the end throws
    | WrongClass       // a cast to a class the object does not have throws

  datatype Result<T> = Success(value: T) | Failure(fault: Fault)
}
